=== FILE: README.md ===
# networkm graph functions, modelled in Dafny

This project models the graph helpers of `networkm/graph_functions.py` and
proves what they promise. The helpers work on a networkx `MultiDiGraph`:

- `ring` builds ring graphs.
- `table` formats ASCII tables.
- `parse_kwargs` resolves deferred `(callable, *args)` keyword values.
- `give_nodes` and `give_edges` assign attribute dictionaries.
- `parse_edges` normalises edge tuples to `(u, v, key)` triples.
- `parse_lengths` turns a length argument into a dictionary keyed by edge.
- `convert_edges` replaces every edge by a tree of paths. Each root grows a trunk; each edge becomes a branch from the trunk.
- `relabel_graph` renames nodes, resolves colliding edge keys, and stores the mapping and its inverse.
- `sort_graph` rebuilds the graph in a sorted order, optionally renames the nodes to their positions, and groups the nodes by rank.

How the model is built:

- **The graph.** It is a class, `Graph.MultiDiGraph`, with the fields the source reads and writes: nodes, node dictionaries, keyed edges, edge dictionaries, `mapping`, `inverse_mapping` and `sorting`. Its value is `Graph.GraphState`.
- **Operations that change the graph.** These are methods with `modifies g`. Each is proved equal to a specification function on `GraphState`, and the properties are lemmas about those functions.
- **Python dictionaries whose order matters.** Mappings and lengths are association lists. Dictionary-comprehension semantics are written out: the first position is kept and the last value wins.
- **Deferred keyword values.** They resolve through an uninterpreted oracle `Kwargs.Oracle(draw, key, fn, args)`. A `draws` counter in the graph stands for the random stream that the callables draw from, so "parsed anew for every target" can be seen in the results.

Modules:

| module | file |
|---|---|
| `Values`, `Assoc` | `values.dfy` |
| `Kwargs` | `kwargs.dfy` |
| `Graph` | `graph.dfy` |
| `EdgeParse` | `parse.dfy` |
| `Give` | `give.dfy` |
| `Relabel` | `relabel.dfy` |
| `Ring` | `ring.dfy` |
| `AsciiTable` | `table.dfy` |
| `Expand`, `ExpandShape`, `ExpandExample` | `expand.dfy`, `expand_shape.dfy` |
| `Sort` | `sort.dfy` |

## Model

| member | source | states |
|---|---|---|
| `Assoc.LookupFromPairs` | networkm/graph_functions.py:402 | a dictionary comprehension maps each key to the value of the last pair with that key |
| `Assoc.FromPairsDistinct` | networkm/graph_functions.py:409 | a comprehension's keys are the distinct keys of its pairs, each listed once |
| `Assoc.FromPairsOfDistinct` | networkm/graph_functions.py:315-317 | pairs that already have distinct keys come out of a comprehension unchanged, order included |
| `Assoc.InvertInjective` | networkm/graph_functions.py:409 | the inverse of a one-to-one dictionary swaps every pair, and inverting twice gives the dictionary back |
| `Assoc.LookupInvert` | networkm/graph_functions.py:409 | in the inverse of a one-to-one dictionary, each value finds its key |
| `Assoc.DistinctPermutation` | networkm/graph_functions.py:472-495 | two sequences without repetitions that hold the same elements are permutations of each other |
| `Kwargs.ParseKwargs` | networkm/graph_functions.py:94-112 | parsing succeeds exactly when no plain value is the empty tuple; the result has the same keys, keeps plain values, and replaces each deferred value by the oracle's value for that draw |
| `Kwargs.PlainParseStable` | networkm/graph_functions.py:105-112 | a keyword set with no deferred value parses to the same dictionary on every draw |
| `Graph.MultiDiGraph.constructor` | networkm/graph_functions.py:29 | a new graph is empty, with no graph-level fields, and well formed |
| `Graph.MultiDiGraph.AddNodeData` | networkm/graph_functions.py:499 | a new node is appended with its dictionary; an existing node has the dictionary merged in |
| `Graph.MultiDiGraph.AddPath` | networkm/graph_functions.py:366 | the graph becomes `WithPath`: the first node is added, then one fresh-keyed edge per hop, each with the path's dictionary |
| `Graph.MultiDiGraph.RemoveEdge` | networkm/graph_functions.py:382-383 | removing a present edge drops exactly that triple and its dictionary |
| `Graph.MultiDiGraph.Clear` | networkm/graph_functions.py:498 | all nodes and edges go, and the stored mappings and sorting stay |
| `Graph.NewEdgeKey` | networkm/graph_functions.py:366 | a key networkx picks for a new edge is not used by any edge between the same two nodes |
| `Graph.WithNodesFresh` | networkm/graph_functions.py:40 | adding distinct new nodes appends them in order, each with an empty dictionary, and keeps the graph well formed |
| `Graph.WithEdgesOnNodes` | networkm/graph_functions.py:41 | adding pairs between existing nodes to an edgeless graph gives one edge per pair, in order, joining that pair |
| `Graph.WithPathFresh` | networkm/graph_functions.py:366 | a path from a present node through new distinct nodes appends exactly those nodes, in order |
| `Graph.WithPathAt` | networkm/graph_functions.py:366 | hop `i` of a path is an edge of the result from `path[i]` to `path[i+1]` carrying the path's dictionary |
| `Graph.WithPathWellFormed` | networkm/graph_functions.py:366 | adding a path keeps a graph well formed |
| `Graph.WithPathGrow` | networkm/graph_functions.py:366 | adding a path keeps every earlier edge and its dictionary, and only appends edges |
| `Graph.WithPathCount` | networkm/graph_functions.py:366 | a path of `k` nodes adds `k - 1` edges |
| `EdgeParse.NormalizeInPlace` | networkm/graph_functions.py:151-155 | after the index loop, every entry of the list is its old entry normalised |
| `EdgeParse.ParseEdges` | networkm/graph_functions.py:139-156 | a single tuple becomes a one-element list; each 2-tuple gains the default key, each 4-tuple loses its data, every other tuple is kept, and length and order are kept |
| `EdgeParse.NormalizeIdempotent` | networkm/graph_functions.py:151-155 | normalising a normalised tuple changes nothing |
| `EdgeParse.ParseLengths` | networkm/graph_functions.py:306-318 | an integer maps every given edge to that integer; an attribute name maps each edge to its attribute or `None`, and fails when an edge is not in the graph; any other argument is returned as it is |
| `Give.FirstMissing` | networkm/graph_functions.py:128 | the number of leading targets that are nodes: every target before it is a node and the one at it is not |
| `Give.GiveEachPerTarget` | networkm/graph_functions.py:127-128 | the `i`-th of distinct targets receives the parse made at draw `draws + i`, and every node that is not a target keeps its dictionary |
| `Give.GiveKeywords` | networkm/graph_functions.py:124-128 | succeeds exactly when the keywords parse and every target is a node; on failure, the targets before the first missing one have been given their keywords |
| `Give.GiveData` | networkm/graph_functions.py:130-135 | entries whose key is not a node are skipped, and the others are merged; the loop stops with a failure at the first unparsable keyword set of a node |
| `Give.GiveNodes` | networkm/graph_functions.py:115-135 | the keywords go to each target, or to every node, with a failure and a partial result as in `GiveKeywords`; then the data entries follow as in `GiveData` |
| `Give.GiveEdgeKeywords` | networkm/graph_functions.py:173-174 | succeeds exactly when the keywords parse and every target tuple names an edge; otherwise it stops at the first target that names none |
| `Give.GiveEdgeData` | networkm/graph_functions.py:176-181 | every entry that names an edge and parses is merged into it, and every other entry is skipped |
| `Give.GiveEdgeEachPerTarget` | networkm/graph_functions.py:173-174 | the `i`-th of tuples naming distinct edges receives the parse made at draw `draws + i`, the draw count grows by the number of tuples, and every edge no tuple names keeps its dictionary |
| `Give.GiveEdges` | networkm/graph_functions.py:159-181 | targets (the given tuples, or every edge) are normalised as by `parse_edges`, then handled as in `GiveEdgeKeywords` and `GiveEdgeData` |
| `Relabel.OrdinalPairs` | networkm/graph_functions.py:402 | node `i` of the order maps to the integer `i` |
| `Relabel.TranslateAll` | networkm/graph_functions.py:412 | each node is renamed through `mapping.get(n, n)`, keeping length and order |
| `Relabel.Bump` | networkm/graph_functions.py:424-427 | the collision loop ends at a key not yet used between the same two nodes: the key itself if free, otherwise the first free integer from the start the loop uses |
| `Relabel.ResolveKeysFacts` | networkm/graph_functions.py:420-433 | the collision loop keeps count, order and endpoints, yields distinct triples, changes no triple that is new, and gives each repeated triple the first free integer key |
| `Relabel.ResolveKeysIdentity` | networkm/graph_functions.py:420-433 | distinct triples pass through the collision loop unchanged |
| `Relabel.RelabelWellFormed` | networkm/graph_functions.py:410-442 | the graph `relabel_nodes` builds, and `g` after relabelling, are well formed |
| `Relabel.RelabelInjectiveNodes` | networkm/graph_functions.py:411-413 | with a renaming that can be undone, the nodes are renamed one for one, in order, each keeping its dictionary |
| `Relabel.RelabelInjectiveEdges` | networkm/graph_functions.py:414-433 | with a renaming that can be undone, the edges are renamed one for one, in order, keeping their keys and dictionaries |
| `Relabel.RelabelUndo` | networkm/graph_functions.py:387-444 | renaming and then renaming back restores the nodes, edges, their order and their dictionaries |
| `Relabel.InverseUndoes` | networkm/graph_functions.py:409 | a one-to-one dictionary that covers the nodes is undone by its inverse |
| `Relabel.RelabelRoundTrip` | networkm/graph_functions.py:392-404 | relabelling with a one-to-one mapping, then calling again without arguments, gives back the original graph, with the mapping and its inverse now stored |
| `Relabel.OrdinalMapping` | networkm/graph_functions.py:402 | numbering distinct nodes by position is a one-to-one dictionary onto `0 .. n-1`, undone by its inverse |
| `Relabel.RelabelToOrdinals` | networkm/graph_functions.py:400-402 | with no argument and no truthy stored mapping, the nodes become `0 .. n-1` with their dictionaries, the edges are renamed in order, and `mapping` takes `i` back to the old node |
| `Relabel.RelabelByPosition` | networkm/graph_functions.py:504-505 | relabelling by position gives nodes `0 .. n-1` with their dictionaries, and edges renamed in order with their dictionaries; `mapping` and `inverse_mapping` go between each node and its position in both directions |
| `Relabel.BumpKey` | networkm/graph_functions.py:424-428 | the `while` loop computes `Bump` |
| `Relabel.ResolveEdgeKeys` | networkm/graph_functions.py:420-431 | the `for` loop over the new edges computes `ResolveKeys` |
| `Relabel.AddNodesFrom` | networkm/graph_functions.py:412 | adding the translated nodes to an empty graph gives them in order of first appearance |
| `Relabel.UpdateNodeData` | networkm/graph_functions.py:413 | the node dictionaries are replaced pair by pair, and a later pair overwrites an earlier one |
| `Relabel.CopyNodes` | networkm/graph_functions.py:411-413 | a fresh graph holds the translated nodes in order of first appearance, each with the dictionary of the last pair that names it |
| `Relabel.AddEdgesFrom` | networkm/graph_functions.py:433 | distinct new triples between present nodes are appended in order with their dictionaries |
| `Relabel.RelabelNodes` | networkm/graph_functions.py:410-440 | returns a fresh graph equal to `RelabelledCopy` of `g`, and `g` is unchanged |
| `Relabel.RelabelGraph` | networkm/graph_functions.py:387-444 | `g` becomes the relabelled copy, with the inverse of the applied mapping as `mapping` and the mapping as `inverse_mapping`; it stays well formed |
| `Ring.RingShape` | networkm/graph_functions.py:20-43 | the ring is well formed, and its nodes are `0 .. N-1` with empty dictionaries; it has `N` edges per enabled family, each joining its pair, in order |
| `Ring.LeftFamily` | networkm/graph_functions.py:34 | the left edge of node `i` goes to `i - 1`, and node 0's goes to `N - 1` |
| `Ring.RightFamily` | networkm/graph_functions.py:36 | the right edge of node `i` goes to `i + 1`, and node `N - 1`'s goes to 0 |
| `Ring.LoopFamily` | networkm/graph_functions.py:38 | the self-loop of node `i` goes to `i` |
| `Ring.RingPairsInRange` | networkm/graph_functions.py:33-38 | both ends of every listed pair are among `0 .. N-1` |
| `Ring.RingSources` | networkm/graph_functions.py:33-41 | the edge sources, in order, are `0 .. N-1` once per enabled family |
| `Ring.RingOutDegree` | networkm/graph_functions.py:20-43 | every node has out-degree `left + right + loop`, and no other value has an outgoing edge |
| `AsciiTable.WidthsAreMaxima` | networkm/graph_functions.py:52-57 | each column width is at least its header's length and every cell's length, and equals one of them |
| `AsciiTable.LineLengths` | networkm/graph_functions.py:59-63 | a line is as long as the columns it covers plus its bars; a full row is exactly as long as the header line |
| `AsciiTable.WidenRow` | networkm/graph_functions.py:55-57 | succeeds exactly when the row has no more cells than the header, and then raises each width to its cell |
| `AsciiTable.ColumnWidths` | networkm/graph_functions.py:52-57 | the first loop gives the column widths, or the index error of a row longer than the header |
| `AsciiTable.AppendRows` | networkm/graph_functions.py:61-63 | the second loop appends exactly one line per row, in order, to the header line |
| `AsciiTable.Table` | networkm/graph_functions.py:46-65 | the text is the header line followed by one line per row, every cell padded to its column width |
| `Expand.MaxOutIsMax` | networkm/graph_functions.py:351-352 | a root's trunk length exists exactly when an edge leaves it; it bounds the length of every such edge and equals one of them |
| `Expand.PyIndex` | networkm/graph_functions.py:372-375 | a Python list index, negative indices counting from the end, lands inside the list or is an index error |
| `Expand.AnchorFacts` | networkm/graph_functions.py:371-375 | a branch of the longest length starts at the trunk's end; one of length `1 .. t` starts at trunk node `len - 1` |
| `Expand.ExpandRootsGrow` | networkm/graph_functions.py:363-379 | growing trunks and branches keeps the graph well formed and keeps every node and every edge with its dictionary |
| `Expand.OwnEdgesParsed` | networkm/graph_functions.py:344 | `parse_edges` on the graph's own keyed edges leaves them as they are |
| `Expand.KeyedEdges` | networkm/graph_functions.py:344 | the triples `convert_edges` works on are the graph's edges, in order |
| `Expand.GrowBranch` | networkm/graph_functions.py:371-379 | one branch is the two-node path from the anchor to the key's target, carrying the dictionary the keyed edge has in the graph at that moment; then the anchor is given the node keywords |
| `Expand.GrowEntry` | networkm/graph_functions.py:369-379 | one entry of the lengths: a branch when its key leaves the root, found in the graph as the earlier branches have left it; nothing otherwise |
| `Expand.GrowBranches` | networkm/graph_functions.py:368-379 | the loop over the lengths adds the branches of every key leaving the root, in the lengths' order, whenever each lookup finds its edge |
| `Expand.GrowRoot` | networkm/graph_functions.py:364-379 | one root: a trunk labelled from the node count, the path through it with one parse of the edge keywords, the node keywords for each trunk node, then the branches |
| `Expand.ExpandAll` | networkm/graph_functions.py:363-379 | the outer loop grows every root in the given order |
| `Expand.WithoutEdgesFrame` | networkm/graph_functions.py:382-383 | removing edges one by one removes exactly their dictionaries and leaves nodes and draws alone |
| `Expand.RemoveAll` | networkm/graph_functions.py:382-383 | the last loop removes each original edge in turn |
| `Expand.ConvertEdges` | networkm/graph_functions.py:321-383 | on any input that raises no exception, `g` becomes `Converted` of its old state, with the lengths `parse_lengths` gives |
| `ExpandShape.ConvertedEdges` | networkm/graph_functions.py:381-383 | after the expansion, the removal loop leaves a well formed graph with every node, none of the original edges, and the added edges with their dictionaries |
| `ExpandShape.TrunkEdge` | networkm/graph_functions.py:364-366 | every hop from a root through its trunk is an edge of the result, carrying the edge keywords as parsed for that root |
| `ExpandShape.BranchInBranches` | networkm/graph_functions.py:368-377 | within one root, the branch of each entry leaving the root whose key is already an edge is a new edge from its anchor to the target, with that edge's dictionary |
| `ExpandShape.BranchEdge` | networkm/graph_functions.py:368-383 | every original edge leaving a root becomes an edge of the result, from the anchor on that root's trunk to the edge's target, with the original dictionary |
| `ExpandShape.LabelsContinue` | networkm/graph_functions.py:325 | the default labels continue the integer labels `0 .. n-1` |
| `ExpandShape.ExpandRootsNodes` | networkm/graph_functions.py:363-367 | on a graph labelled `0 .. n-1`, the state `r` after the roots holds exactly the old nodes and the trunk nodes, labelled on from `n` in visiting order |
| `ExpandShape.ConvertedShape` | networkm/graph_functions.py:321-383 | on every accepted input, the result is well formed, keeps every node and drops every original edge; when the nodes were `0 .. n-1`, the nodes become `0 .. n+m-1`, where `m` is the sum of the trunk lengths |
| `ExpandShape.AdmissibleNodes` | networkm/graph_functions.py:344-348 | on an accepted input, every root is a node |
| `ExpandExample.HopLaid` | networkm/graph_functions.py:351-366 | on the graph `0 -> 1` with lengths `{(0,1,0): 1, (0,2,0): 1}`, root 0 grows the one-node trunk `[2]`, and laying it adds the edge `(0,2,0)` |
| `ExpandExample.HopFound` | networkm/graph_functions.py:368-377 | on that input both lookups of root 0's branch loop find their edge, the second one being the trunk hop just laid |
| `ExpandExample.TrunkHopKey` | networkm/graph_functions.py:321-383 | `convert_edges` accepts that input: a length key may name an edge the call itself has created |
| `ExpandExample.StrLengthRejected` | networkm/graph_functions.py:371-375 | on that graph, a string length for the trunk-hop key makes the input unacceptable, as `trunk["a" - 1]` raises there |
| `Sort.GroupsPartition` | networkm/graph_functions.py:511-512 | the rank groups partition the nodes: each node is in the group of its rank, a group holds only nodes of that rank, no group is empty, and no node is in two groups |
| `Sort.SortKeepsGraph` | networkm/graph_functions.py:478-500 | without relabelling, the nodes and edges are permutations of the old ones, in the sorted order, with every dictionary and stored mapping kept; `sorting` holds the rank groups |
| `Sort.RenumberedGroups` | networkm/graph_functions.py:506-511 | after relabelling, label `i` is in the group of node `i`'s rank, and a group holds only such labels |
| `Sort.SortRelabels` | networkm/graph_functions.py:503-512 | with relabelling, node `i` of the sorted order becomes `i` with its dictionary, and the edges are renamed in sorted order with their dictionaries; `mapping` and `inverse_mapping` link each node and its position; `sorting` groups the new labels |
| `Sort.AddNodesWithData` | networkm/graph_functions.py:499 | distinct nodes added to a graph without nodes come in order, each with its dictionary |
| `Sort.Rebuild` | networkm/graph_functions.py:479-499 | after clearing and re-adding, the graph holds the nodes in the sorted order and the edges in the sorted order, with their old dictionaries |
| `Sort.RenameSorting` | networkm/graph_functions.py:506-509 | every node of the sorting is found in `inverse_mapping` under its position, and keeps its rank |
| `Sort.SortGraph` | networkm/graph_functions.py:447-512 | `g` becomes `SortedGraph` of its old state and stays well formed |

## Left out

- Python's dynamic typing is reduced to `Values.Value` (integers, strings, tuples, `None`). Dictionary values that are not `Value`s are outside the model.
- networkx iterates edges grouped by source node, but the model lists them in insertion order. Every order-dependent statement uses the model's order.
- `print_graph`, `node_attrs`, `edge_attrs`, `node_data`, `edge_data`, `argwhere`, `kwargwhere` and `where` are not part of this model.
- sidis.give is taken to merge the parsed dictionary into the target's dictionary, like `dict.update`.
- Kwargs.ParseKwargs models the callables behind deferred values as an uninterpreted oracle indexed by a draw counter. What they compute (random draws, for one) is left out.
- Expand.ConvertEdges ignores its `edges` argument, as the source does: line 344 overwrites it with all of the graph's edges, so every edge is converted.
- Expand.ConvertEdges does not model the unused `leaves` dictionary (line 360).
- Expand.ConvertEdges requires `Admissible`, which excludes exactly the inputs on which the source raises:
  - an unparsable edge or node keyword set, once some root grows a trunk (lines 366-367, 379), since neither set is parsed before that;
  - a length argument that fails in `parse_lengths`, or that leaves some edge of the graph without a length (the lookup at line 351);
  - a length of a graph edge that is not an integer (`max` at line 351 or `range` at line 364 raises);
  - a key of a given length dictionary that leaves a root growing a trunk but is not an edge of the graph as it stands when line 377 looks it up;
  - a length that is not an integer, for a key leaving a root that grows a trunk: it never equals the trunk length, so line 375 subtracts 1 from it and raises (`ExpandExample.StrLengthRejected`);
  - a branch index outside the trunk (line 375).
  A key may name an edge the call itself laid earlier, such as a trunk hop; the lookup then finds it, and the branch carries that edge's dictionary (`ExpandExample.TrunkHopKey`). Keys that leave a node growing no trunk are skipped by the branch loop, as in the source.
- Expand.ConvertEdges takes the root visiting order as a parameter. The source sorts a set, so the order among roots with equal trunk length is not fixed.
- Expand.ConvertEdges models only the default `label`. With it, new labels `len(g) + i` can coincide with existing nodes when the nodes are not `0 .. n-1`. The model follows the source there, and `ExpandShape.ConvertedShape` states the node labels only for graphs labelled `0 .. n-1`.
- Expand.AnchorFacts is proved without proof steps, so it is a statement about `Anchor` rather than a proof that needs work.
- Give.GiveEdges normalises a copy of the target list. When the caller passes a list, the source's `parse_edges` (line 171) rewrites that list in place, and the caller sees the change; the model does not capture that aliasing. `EdgeParse.NormalizeInPlace` models the in-place rewrite on its own.
- Sort.SortGraph takes the node sorting as the `(node, rank)` pairs `sidis.sort` returns, and the edge sorting as the edge triples in their new order. The criteria behind them are `sidis.sort`'s internals, which are not visible here: `by`, `key`, `args`, the `reverse` flags and the default edge key at line 469. Only the fact that both are permutations is used.
- Sort.SortGraph does not model `nodes_by=None` or a non-empty `node_args`. In both cases what `sidis.sort` returns is not visible here, so neither is what the grouping at line 511 makes of it.
- Sort.SortGraph stores each group as a set. The source stores `list(v)` of a set, whose order is not fixed.
- Relabel.RelabelGraph models only directed multigraphs, the only kind the core builds. The undirected and simple-graph branches of `relabel_nodes` (lines 429-430, 434-438) are left out.
- Relabel.RelabelGraph models `mapping.get` and the stored mappings as association lists. A `mapping` that is a callable is applied to the graph's state value.

=== FILE: expand.dfy ===
/** Path-tree expansion (`convert_edges`, graph_functions.py:321-383). Every
    edge of the graph is replaced by a path: each root (a source of some
    edge) grows one trunk of new nodes as long as its longest edge, each
    edge from that root becomes a branch from a trunk node to the edge's
    target carrying the edge's dictionary, and the original edges go. */
module Expand {
  import opened Values
  import opened Assoc
  import opened Kwargs
  import opened Graph
  import opened EdgeParse
  import opened Give

  /** What stays fixed during one expansion: the graph's edges as they were
      at the start, their lengths, the keyword sets for new edges and new
      nodes, and the callables behind deferred keyword values. */
  datatype Setup = Setup(edges: seq<Edge>, lens: Assoc<Edge, Value>, edgeKw: Kwargs, nodeKw: Kwargs, call: Oracle)

  /** The integer a length holds. */
  function LenValue(v: Value): int
  {
    if v.Int? then v.i else 0
  }

  /** `lengths[e]`. */
  function LenOf(lens: Assoc<Edge, Value>, e: Edge): int
  {
    match Lookup(lens, e)
    case Some(v) => LenValue(v)
    case None => 0
  }

  /** The largest length among the edges of `es` leaving `r`, or `None` when
      no edge leaves `r`. */
  function MaxOut(es: seq<Edge>, lens: Assoc<Edge, Value>, r: Value): Option<int>
  {
    if es == [] then None
    else
      var m := MaxOut(es[..|es| - 1], lens, r);
      var e := es[|es| - 1];
      if e.u != r then m
      else if m.Some? && m.value >= LenOf(lens, e) then m
      else Some(LenOf(lens, e))
  }

  /** `MaxOut` is the maximum: it exists exactly when an edge leaves `r`, it
      bounds every such edge's length and is the length of one of them. */
  lemma {:induction false} MaxOutIsMax(es: seq<Edge>, lens: Assoc<Edge, Value>, r: Value)
    ensures MaxOut(es, lens, r).Some? <==> exists i :: 0 <= i < |es| && es[i].u == r
    ensures MaxOut(es, lens, r).Some? ==>
      && (forall i :: 0 <= i < |es| && es[i].u == r ==> LenOf(lens, es[i]) <= MaxOut(es, lens, r).value)
      && (exists i :: 0 <= i < |es| && es[i].u == r && LenOf(lens, es[i]) == MaxOut(es, lens, r).value)
  {
    if es != [] {
      var init := es[..|es| - 1];
      MaxOutIsMax(init, lens, r);
      assert forall i :: 0 <= i < |init| ==> init[i] == es[i];
      var m := MaxOut(es, lens, r);
      if m.Some? {
        if MaxOut(init, lens, r) == m {
          var i :| 0 <= i < |init| && init[i].u == r && LenOf(lens, init[i]) == m.value;
          assert es[i].u == r && LenOf(lens, es[i]) == m.value;
        } else {
          assert es[|es| - 1].u == r && LenOf(lens, es[|es| - 1]) == m.value;
        }
      }
    }
  }

  /** `trunks[r]`: the length of the trunk grown at root `r`. */
  function TrunkLength(es: seq<Edge>, lens: Assoc<Edge, Value>, r: Value): int
  {
    match MaxOut(es, lens, r)
    case Some(t) => t
    case None => 0
  }

  /** `[len(g) + i for i in range(t)]`, the labels the default `label` gives
      a trunk of length `t` on a graph of `m` nodes. */
  function Labels(m: nat, t: int): (r: seq<Value>)
    ensures |r| == (if t > 0 then t else 0)
    ensures forall i :: 0 <= i < |r| ==> r[i] == Int(m + i)
  {
    seq(if t > 0 then t else 0, i => Int(m + i))
  }

  /** Python's `xs[i]` on a list of `n` elements: a negative index counts
      from the end, any other index out of range is an index error. */
  function PyIndex(n: nat, i: int): (r: Option<nat>)
    ensures r.Some? ==> r.value < n
  {
    if 0 <= i < n then Some(i) else if -(n as int) <= i < 0 then Some(n + i) else None
  }

  /** The trunk position a branch of length `len` starts from, on a trunk of
      `n` nodes grown to the longest length `t`: the trunk's end for the
      longest edges, `trunk[len - 1]` for the others. */
  function Anchor(n: nat, t: int, len: int): Option<nat>
  {
    PyIndex(n, if len == t then -1 else len - 1)
  }

  /** A branch from a trunk of the longest length ends at the trunk's end
      and one of length `1 <= len <= t` at the `len`-th trunk node, so the
      path from the root has `len + 1` edges; a branch of length 0 also
      starts at the trunk's end. */
  lemma AnchorFacts(t: int, len: int)
    requires t > 0
    ensures 1 <= len <= t ==> Anchor(t, t, len) == Some(len - 1)
    ensures len == 0 ==> Anchor(t, t, len) == Some(t - 1)
    ensures len > t || len < 1 - t ==> Anchor(t, t, len).None?
  {
  }

  /** The dictionary parsed from `kw` at the given draw; an unparsable set is
      outside the model. */
  function Parsed(kw: Kwargs, call: Oracle, draw: nat): Attrs
  {
    match ParseKwargs(kw, call, draw)
    case Some(a) => a
    case None => map[]
  }

  /** `give_nodes(g, nodes=ns, **kw)` without `data`. */
  function GiveTo(s: GraphState, ns: seq<Value>, kw: Kwargs, call: Oracle): GraphState
  {
    if kw == map[] then s else GiveEach(s, ns, kw, call)
  }

  /** `g.edges[e]`; an edge that is not in the graph is outside the model. */
  function EdgeAttrs(s: GraphState, e: Edge): Attrs
  {
    if e in s.edgeData then s.edgeData[e] else map[]
  }

  /** One branch: a path from the anchor on the trunk to the target of `e`,
      carrying the dictionary of `e`, after which the anchor is given the
      node keywords once more. */
  function Branch(s: GraphState, c: Setup, e: Edge, len: int, t: int, trunk: seq<Value>): GraphState
  {
    match Anchor(|trunk|, t, len)
    case None => s
    case Some(j) =>
      GiveTo(WithPath(s, [trunk[j], e.v], EdgeAttrs(s, e)), [trunk[j]], c.nodeKw, c.call)
  }

  /** The branches of root `r`, one per entry of `lengths` whose edge leaves
      `r`, in the order of `lengths`. */
  function Branches(s: GraphState, c: Setup, entries: seq<(Edge, Value)>, r: Value, trunk: seq<Value>): GraphState
  {
    if entries == [] then s
    else
      var p := Branches(s, c, entries[..|entries| - 1], r, trunk);
      var x := entries[|entries| - 1];
      if x.0.u == r then Branch(p, c, x.0, LenValue(x.1), TrunkLength(c.edges, c.lens, r), trunk) else p
  }

  /** The trunk of root `r` on `s`. */
  function Trunk(s: GraphState, c: Setup, r: Value): seq<Value>
  {
    Labels(|s.nodes|, TrunkLength(c.edges, c.lens, r))
  }

  /** `s` after one more parse of keywords. */
  function Drawn(s: GraphState): (r: GraphState)
    ensures r.draws == s.draws + 1
  {
    s.(draws := s.draws + 1)
  }

  /** `nx.add_path(g, [r] + trunk, **parse_kwargs(**edge_data))`: the edge
      keywords are parsed once, taking one draw, and every edge of the path
      gets that dictionary. */
  function TrunkPath(s: GraphState, c: Setup, r: Value): GraphState
  {
    WithPath(Drawn(s), [r] + Trunk(s, c, r), Parsed(c.edgeKw, c.call, s.draws))
  }

  /** One root: nothing for a trunk of length 0; otherwise the path from the
      root through the trunk, the node keywords given to each trunk node,
      then the branches. */
  function ExpandRoot(s: GraphState, c: Setup, r: Value): GraphState
  {
    var trunk := Trunk(s, c, r);
    if trunk == [] then s
    else Branches(GiveTo(TrunkPath(s, c, r), trunk, c.nodeKw, c.call), c, c.lens, r, trunk)
  }

  /** The roots in the given order. */
  function ExpandRoots(s: GraphState, c: Setup, order: seq<Value>): GraphState
  {
    if order == [] then s else ExpandRoot(ExpandRoots(s, c, order[..|order| - 1]), c, order[|order| - 1])
  }

  /** `remove_edge` of each edge in turn. */
  function WithoutEdges(s: GraphState, es: seq<Edge>): GraphState
  {
    if es == [] then s else WithoutEdge(WithoutEdges(s, es[..|es| - 1]), es[|es| - 1])
  }

  /** The graph after `convert_edges`. */
  function Converted(s: GraphState, c: Setup, order: seq<Value>): GraphState
  {
    WithoutEdges(ExpandRoots(s, c, order), c.edges)
  }

  /** The lengths `parse_lengths` gives for the graph's edges. */
  function LengthsOf(s: GraphState, lengths: LengthArg): Assoc<Edge, Value>
  {
    match ParseLengths(s.edgeData, s.edges, lengths)
    case Some(l) => l
    case None => []
  }

  /** The lengths give every edge of the graph an integer (`max` and `range`
      raise on anything else). */
  predicate LengthsFit(s: GraphState, lens: Assoc<Edge, Value>)
  {
    && DistinctKeys(lens)
    && s.edgeData.Keys <= Elems(Keys(lens))
    && (forall i :: 0 <= i < |lens| && lens[i].0 in s.edgeData ==> lens[i].1.Int?)
  }

  /** `g.edges[edge]` finds every key of `entries` leaving `r` in the graph
      as the branches before it have left it: an original edge, or one the
      expansion itself has laid by then. */
  predicate BranchesFind(s: GraphState, c: Setup, entries: seq<(Edge, Value)>, r: Value, trunk: seq<Value>)
  {
    entries == [] ||
      var init := entries[..|entries| - 1];
      var x := entries[|entries| - 1];
      BranchesFind(s, c, init, r, trunk) && (x.0.u == r ==> x.0 in Branches(s, c, init, r, trunk).edgeData)
  }

  /** Every lookup of the branch loop of root `r` succeeds; a root that grows
      no trunk looks nothing up. */
  predicate RootFinds(s: GraphState, c: Setup, r: Value)
  {
    var trunk := Trunk(s, c, r);
    trunk != [] ==> BranchesFind(GiveTo(TrunkPath(s, c, r), trunk, c.nodeKw, c.call), c, c.lens, r, trunk)
  }

  /** Every lookup of the branch loops of the roots of `order` succeeds,
      each root starting from the graph the roots before it have left. */
  predicate RootsFind(s: GraphState, c: Setup, order: seq<Value>)
  {
    forall j {:trigger ExpandRoots(s, c, order[..j])} :: 0 <= j < |order| ==> RootFinds(ExpandRoots(s, c, order[..j]), c, order[j])
  }

  lemma RootsFindPrefix(s: GraphState, c: Setup, order: seq<Value>, k: nat)
    requires RootsFind(s, c, order) && k <= |order|
    ensures RootsFind(s, c, order[..k])
  {
    forall j | 0 <= j < k ensures RootFinds(ExpandRoots(s, c, order[..k][..j]), c, order[..k][j]) {
      assert order[..k][..j] == order[..j];
      assert RootFinds(ExpandRoots(s, c, order[..j]), c, order[j]);
    }
  }

  lemma {:induction false} BranchesFindPrefix(s: GraphState, c: Setup, entries: seq<(Edge, Value)>, k: nat, r: Value, trunk: seq<Value>)
    requires BranchesFind(s, c, entries, r, trunk) && k <= |entries|
    ensures BranchesFind(s, c, entries[..k], r, trunk)
  {
    if k < |entries| {
      var init := entries[..|entries| - 1];
      assert init[..k] == entries[..k];
      BranchesFindPrefix(s, c, init, k, r, trunk);
    } else {
      assert entries[..k] == entries;
    }
  }

  /** The lookup of entry `k`, when it leaves `r`, finds its edge. */
  lemma BranchesFindAt(s: GraphState, c: Setup, entries: seq<(Edge, Value)>, k: nat, r: Value, trunk: seq<Value>, p: GraphState)
    requires BranchesFind(s, c, entries, r, trunk) && k < |entries| && entries[k].0.u == r
    requires p == Branches(s, c, entries[..k], r, trunk)
    ensures entries[k].0 in p.edgeData
  {
    BranchesFindPrefix(s, c, entries, k + 1, r, trunk);
    assert entries[..k + 1][..k] == entries[..k];
  }

  /** The keyword sets are parsed only once some root grows a trunk. */
  predicate KeywordsFit(es: seq<Edge>, lens: Assoc<Edge, Value>, order: seq<Value>, edgeKw: Kwargs, nodeKw: Kwargs)
  {
    (exists x :: x in order && TrunkLength(es, lens, x) > 0) ==> Resolvable(edgeKw) && Resolvable(nodeKw)
  }

  /** The root order: every source of an edge once, longest trunk first. */
  predicate RootOrder(es: seq<Edge>, lens: Assoc<Edge, Value>, order: seq<Value>)
  {
    && Distinct(order)
    && Elems(order) == Elems(Sources(es))
    && forall i, j :: 0 <= i < j < |order| ==> TrunkLength(es, lens, order[i]) >= TrunkLength(es, lens, order[j])
  }

  /** Every key the branch loop reaches has an integer length (any other
      value differs from the trunk length, and `trunk[length - 1]` raises)
      and so a trunk node to start from. */
  predicate Anchored(es: seq<Edge>, lens: Assoc<Edge, Value>)
  {
    forall i :: 0 <= i < |lens| && TrunkLength(es, lens, lens[i].0.u) > 0 ==>
      && lens[i].1.Int?
      && Anchor(TrunkLength(es, lens, lens[i].0.u), TrunkLength(es, lens, lens[i].0.u), LenValue(lens[i].1)).Some?
  }

  /** What running `convert_edges` without an exception takes. */
  ghost predicate Admissible(s: GraphState, lengths: LengthArg, order: seq<Value>, edgeKw: Kwargs, nodeKw: Kwargs, call: Oracle)
  {
    var lens := LengthsOf(s, lengths);
    && WellFormed(s)
    && ParseLengths(s.edgeData, s.edges, lengths).Some?
    && LengthsFit(s, lens)
    && RootOrder(s.edges, lens, order)
    && Anchored(s.edges, lens)
    && KeywordsFit(s.edges, lens, order, edgeKw, nodeKw)
    && RootsFind(s, Setup(s.edges, lens, edgeKw, nodeKw, call), order)
  }

  /** `r` keeps every node of `s`, and every edge of `s` with its dictionary. */
  ghost predicate Grown(s: GraphState, r: GraphState)
  {
    Extends(s, r) && s.nodeData.Keys <= r.nodeData.Keys
  }

  lemma GrownTrans(a: GraphState, b: GraphState, c: GraphState)
    requires Grown(a, b) && Grown(b, c)
    ensures Grown(a, c)
  {
  }

  /** Giving node keywords changes node dictionaries and the draw count only. */
  lemma GiveToFrame(s: GraphState, ns: seq<Value>, kw: Kwargs, call: Oracle)
    ensures var r := GiveTo(s, ns, kw, call);
      && r.nodes == s.nodes && r.nodeData.Keys == s.nodeData.Keys
      && r.edges == s.edges && r.edgeData == s.edgeData
      && (WellFormed(s) ==> WellFormed(r))
  {
    GiveEachFrame(s, ns, kw, call);
  }

  lemma PathGrow(s: GraphState, path: seq<Value>, attrs: Attrs)
    requires WellFormed(s)
    ensures WellFormed(WithPath(s, path, attrs)) && Grown(s, WithPath(s, path, attrs))
  {
    WithPathWellFormed(s, path, attrs);
    WithPathGrow(s, path, attrs);
    WithPathMembers(s, path, attrs);
  }

  lemma BranchGrow(s: GraphState, c: Setup, e: Edge, len: int, t: int, trunk: seq<Value>)
    requires WellFormed(s)
    ensures WellFormed(Branch(s, c, e, len, t, trunk)) && Grown(s, Branch(s, c, e, len, t, trunk))
  {
    match Anchor(|trunk|, t, len)
    case None =>
    case Some(j) =>
      var path := [trunk[j], e.v];
      PathGrow(s, path, EdgeAttrs(s, e));
      GiveToFrame(WithPath(s, path, EdgeAttrs(s, e)), [trunk[j]], c.nodeKw, c.call);
  }

  lemma BranchesSnoc(s: GraphState, c: Setup, entries: seq<(Edge, Value)>, k: nat, r: Value, trunk: seq<Value>)
    requires k < |entries|
    ensures Branches(s, c, entries[..k + 1], r, trunk) ==
      if entries[k].0.u == r
      then Branch(Branches(s, c, entries[..k], r, trunk), c, entries[k].0, LenValue(entries[k].1), TrunkLength(c.edges, c.lens, r), trunk)
      else Branches(s, c, entries[..k], r, trunk)
  {
    assert entries[..k + 1][..k] == entries[..k];
  }

  lemma {:induction false} BranchesGrow(s: GraphState, c: Setup, entries: seq<(Edge, Value)>, r: Value, trunk: seq<Value>)
    requires WellFormed(s)
    ensures WellFormed(Branches(s, c, entries, r, trunk)) && Grown(s, Branches(s, c, entries, r, trunk))
  {
    if entries != [] {
      var init := entries[..|entries| - 1];
      var x := entries[|entries| - 1];
      BranchesGrow(s, c, init, r, trunk);
      var p := Branches(s, c, init, r, trunk);
      if x.0.u == r {
        BranchGrow(p, c, x.0, LenValue(x.1), TrunkLength(c.edges, c.lens, r), trunk);
        GrownTrans(s, p, Branches(s, c, entries, r, trunk));
      }
    }
  }

  lemma ExpandRootGrow(s: GraphState, c: Setup, r: Value)
    requires WellFormed(s)
    ensures WellFormed(ExpandRoot(s, c, r)) && Grown(s, ExpandRoot(s, c, r))
  {
    var trunk := Trunk(s, c, r);
    if trunk != [] {
      var s1 := TrunkPath(s, c, r);
      var s2 := GiveTo(s1, trunk, c.nodeKw, c.call);
      TrunkPathGrow(s, c, r);
      assert WellFormed(s2) && Grown(s, s2) by {
        GiveToFrame(s1, trunk, c.nodeKw, c.call);
      }
      BranchesGrow(s2, c, c.lens, r, trunk);
      GrownTrans(s, s2, Branches(s2, c, c.lens, r, trunk));
    }
  }

  lemma TrunkPathGrow(s: GraphState, c: Setup, r: Value)
    requires WellFormed(s)
    ensures WellFormed(TrunkPath(s, c, r)) && Grown(s, TrunkPath(s, c, r))
  {
    DrawPathGrow(s, [r] + Trunk(s, c, r), Parsed(c.edgeKw, c.call, s.draws));
  }

  lemma DrawPathGrow(s: GraphState, path: seq<Value>, attrs: Attrs)
    requires WellFormed(s)
    ensures WellFormed(WithPath(Drawn(s), path, attrs))
    ensures Grown(s, WithPath(Drawn(s), path, attrs))
  {
    var s0 := Drawn(s);
    assert WellFormed(s0) && Grown(s, s0);
    PathGrow(s0, path, attrs);
    GrownTrans(s, s0, WithPath(s0, path, attrs));
  }

  lemma {:induction false} ExpandRootsGrow(s: GraphState, c: Setup, order: seq<Value>)
    requires WellFormed(s)
    ensures WellFormed(ExpandRoots(s, c, order)) && Grown(s, ExpandRoots(s, c, order))
  {
    if order != [] {
      var init := order[..|order| - 1];
      ExpandRootsGrow(s, c, init);
      ExpandRootGrow(ExpandRoots(s, c, init), c, order[|order| - 1]);
      GrownTrans(s, ExpandRoots(s, c, init), ExpandRoots(s, c, order));
    }
  }

  /** Iterating over the edge view yields `(u, v, key)` triples, which
      `parse_edges` leaves as they are. */
  lemma OwnEdgesParsed(es: seq<Edge>)
    ensures NormalizeAll(EdgeTuples(es), Int(0)) == EdgeTuples(es)
    ensures forall i :: 0 <= i < |es| ==> AsEdge(NormalizeAll(EdgeTuples(es), Int(0))[i]) == Some(es[i])
  {
    assert forall i :: 0 <= i < |es| ==> |EdgeTuples(es)[i]| == 3;
  }

  /** Every target of a list is a node. */
  lemma AllPresent(keys: set<Value>, ns: seq<Value>)
    requires forall x :: x in ns ==> x in keys
    ensures FirstMissing(keys, ns) == |ns|
  {
  }

  /** One branch: the path `[trunk[j], e.v]` with the dictionary of `e`, then
      the node keywords given to the anchor. */
  method GrowBranch(g: MultiDiGraph, c: Setup, e: Edge, len: int, t: int, trunk: seq<Value>)
    requires g.Valid() && e in g.edgeData
    requires t == |trunk| && Anchor(|trunk|, t, len).Some?
    requires Resolvable(c.nodeKw) && forall x :: x in trunk ==> x in g.nodeData
    modifies g
    ensures g.State() == Branch(old(g.State()), c, e, len, t, trunk)
  {
    ghost var s := g.State();
    var j := PyIndex(|trunk|, if len == t then -1 else len - 1).value;
    var anchor := trunk[j];
    g.AddPath([anchor, e.v], g.edgeData[e]);
    ghost var p := WithPath(s, [anchor, e.v], EdgeAttrs(s, e));
    assert g.State() == p;
    WithPathMembers(s, [anchor, e.v], EdgeAttrs(s, e));
    AllPresent(g.nodeData.Keys, [anchor]);
    var ok := GiveNodes(g, [], Some([anchor]), c.nodeKw, c.call);
    assert g.State() == GiveTo(p, [anchor], c.nodeKw, c.call);
  }

  /** One entry of `lengths.items()` for root `r`: a branch when the entry's
      edge leaves `r`, nothing otherwise. */
  method GrowEntry(g: MultiDiGraph, c: Setup, r: Value, trunk: seq<Value>, k: nat, ghost s: GraphState)
    requires WellFormed(s) && BranchesFind(s, c, c.lens, r, trunk) && k < |c.lens|
    requires g.State() == Branches(s, c, c.lens[..k], r, trunk)
    requires trunk != [] && |trunk| == TrunkLength(c.edges, c.lens, r) && Anchored(c.edges, c.lens)
    requires Resolvable(c.nodeKw) && forall x :: x in trunk ==> x in s.nodeData
    modifies g
    ensures g.State() == Branches(s, c, c.lens[..k + 1], r, trunk)
  {
    var t := |trunk|;
    var (e, length) := c.lens[k];
    BranchesGrow(s, c, c.lens[..k], r, trunk);
    BranchesSnoc(s, c, c.lens, k, r, trunk);
    if e.u == r {
      BranchesFindAt(s, c, c.lens, k, r, trunk, g.State());
      assert Anchor(t, t, LenValue(length)).Some?;
      GrowBranch(g, c, e, LenValue(length), t, trunk);
    }
  }

  /** The inner loop over `lengths.items()` for root `r`. */
  method GrowBranches(g: MultiDiGraph, c: Setup, r: Value, trunk: seq<Value>)
    requires g.Valid() && BranchesFind(g.State(), c, c.lens, r, trunk)
    requires trunk != [] && |trunk| == TrunkLength(c.edges, c.lens, r) && Anchored(c.edges, c.lens)
    requires Resolvable(c.nodeKw) && forall x :: x in trunk ==> x in g.nodeData
    modifies g
    ensures g.State() == Branches(old(g.State()), c, c.lens, r, trunk)
  {
    ghost var s := g.State();
    for k := 0 to |c.lens|
      invariant g.State() == Branches(s, c, c.lens[..k], r, trunk)
    {
      GrowEntry(g, c, r, trunk, k, s);
    }
    assert c.lens[..|c.lens|] == c.lens;
  }

  /** One root of the outer loop: the trunk, labelled from the current node
      count, the path through it with one parse of the edge keywords, the
      node keywords given to the trunk, then the branches. */
  method GrowRoot(g: MultiDiGraph, c: Setup, r: Value)
    requires g.Valid() && RootFinds(g.State(), c, r) && Anchored(c.edges, c.lens)
    requires TrunkLength(c.edges, c.lens, r) > 0 ==> Resolvable(c.edgeKw) && Resolvable(c.nodeKw)
    modifies g
    ensures g.State() == ExpandRoot(old(g.State()), c, r)
  {
    ghost var s := g.State();
    var trunk := Labels(|g.nodes|, TrunkLength(c.edges, c.lens, r));
    if trunk != [] {
      var attrs := ParseKwargs(c.edgeKw, c.call, g.draws).value;
      g.draws := g.draws + 1;
      assert g.State() == Drawn(s);
      g.AddPath([r] + trunk, attrs);
      assert g.State() == TrunkPath(s, c, r);
      TrunkPathGrow(s, c, r);
      WithPathMembers(Drawn(s), [r] + trunk, attrs);
      AllPresent(g.nodeData.Keys, trunk);
      var ok := GiveNodes(g, [], Some(trunk), c.nodeKw, c.call);
      GiveToFrame(TrunkPath(s, c, r), trunk, c.nodeKw, c.call);
      GrowBranches(g, c, r, trunk);
    }
  }

  /** Removing edges one by one removes exactly those edges' dictionaries and
      leaves the nodes alone. */
  lemma {:induction false} WithoutEdgesFrame(s: GraphState, es: seq<Edge>)
    ensures var r := WithoutEdges(s, es);
      && r.edgeData == s.edgeData - Elems(es)
      && r.nodes == s.nodes && r.nodeData == s.nodeData && r.draws == s.draws
  {
    if es != [] {
      WithoutEdgesFrame(s, es[..|es| - 1]);
      ElemsInit(es);
    }
  }

  /** The last loop, `g.remove_edge(*e)` for every original edge. */
  method RemoveAll(g: MultiDiGraph, es: seq<Edge>)
    requires Distinct(es) && Elems(es) <= g.edgeData.Keys
    modifies g
    ensures g.State() == WithoutEdges(old(g.State()), es)
  {
    ghost var s := g.State();
    for k := 0 to |es|
      invariant g.State() == WithoutEdges(s, es[..k])
    {
      WithoutEdgesFrame(s, es[..k]);
      assert es[k] !in Elems(es[..k]);
      assert es[..k + 1][..k] == es[..k];
      g.RemoveEdge(es[k]);
    }
    assert es[..|es|] == es;
  }

  /** `convert_edges(g, lengths=lengths, node_data=nodeKw, **edgeKw)` with the
      default label. `order` is the order in which the sorted root set is
      visited: it is only fixed up to ties in trunk length, because sets are
      unordered. */
  method ConvertEdges(g: MultiDiGraph, lengths: LengthArg, order: seq<Value>, edgeKw: Kwargs, nodeKw: Kwargs, call: Oracle)
    requires Admissible(g.State(), lengths, order, edgeKw, nodeKw, call)
    modifies g
    ensures g.State() == Converted(old(g.State()), Setup(old(g.edges), LengthsOf(old(g.State()), lengths), edgeKw, nodeKw, call), order)
  {
    ghost var s0 := g.State();
    var edges := KeyedEdges(g);
    var lens := ParseLengths(g.edgeData, edges, lengths).value;
    var c := Setup(edges, lens, edgeKw, nodeKw, call);
    ExpandAll(g, c, order);
    ExpandRootsGrow(s0, c, order);
    RemoveAll(g, edges);
  }

  /** `parse_edges(edges=g.edges(keys=True), default_key=0)`: the graph's
      own edges, in order. */
  method KeyedEdges(g: MultiDiGraph) returns (edges: seq<Edge>)
    ensures edges == g.edges
  {
    var tuples := ParseEdges(Collection(EdgeTuples(g.edges)), Int(0));
    OwnEdgesParsed(g.edges);
    edges := seq(|tuples|, i requires 0 <= i < |tuples| && AsEdge(tuples[i]).Some? => AsEdge(tuples[i]).value);
  }

  /** The outer loop over the sorted roots. */
  method ExpandAll(g: MultiDiGraph, c: Setup, order: seq<Value>)
    requires g.Valid() && RootsFind(g.State(), c, order) && Anchored(c.edges, c.lens)
    requires KeywordsFit(c.edges, c.lens, order, c.edgeKw, c.nodeKw)
    modifies g
    ensures g.State() == ExpandRoots(old(g.State()), c, order)
  {
    ghost var s0 := g.State();
    for j := 0 to |order|
      invariant g.State() == ExpandRoots(s0, c, order[..j])
    {
      ExpandRootsGrow(s0, c, order[..j]);
      assert order[..j + 1][..j] == order[..j];
      assert RootFinds(ExpandRoots(s0, c, order[..j]), c, order[j]);
      assert order[j] in order;
      GrowRoot(g, c, order[j]);
    }
    assert order[..|order|] == order;
  }
}

=== FILE: expand_shape.dfy ===
/** What `convert_edges` leaves behind (graph_functions.py:321-383): the
    original edges are gone and nothing else is, every trunk hop and every
    branch is an edge of the result with the dictionary it was given, and on
    a graph labelled `0 .. n-1` the new nodes are labelled `n, n+1, ...` in
    the order the trunks are grown. */
module ExpandShape {
  import opened Values
  import opened Assoc
  import opened Kwargs
  import opened Graph
  import opened EdgeParse
  import opened Expand

  /** Removing one triple from a list without repetitions leaves one. */
  lemma {:induction false} WithoutDistinct(es: seq<Edge>, e: Edge)
    requires Distinct(es)
    ensures Distinct(Without(es, e))
  {
    if es != [] {
      assert Distinct(es[1..]) by {
        forall a, b | 0 <= a < b < |es| - 1 ensures es[1..][a] != es[1..][b] {
          assert es[1..][a] == es[a + 1] && es[1..][b] == es[b + 1];
        }
      }
      WithoutDistinct(es[1..], e);
      if es[0] != e {
        var w := Without(es[1..], e);
        assert es[0] !in Elems(es[1..]) by {
          forall k | 0 <= k < |es| - 1 ensures es[1..][k] != es[0] {
            assert es[1..][k] == es[k + 1];
          }
        }
        assert es[0] !in Elems(w);
        forall a, b | 0 <= a < b < |w| + 1 ensures ([es[0]] + w)[a] != ([es[0]] + w)[b] {
          if a == 0 {
            assert ([es[0]] + w)[b] == w[b - 1] && w[b - 1] in Elems(w);
          } else {
            assert ([es[0]] + w)[a] == w[a - 1] && ([es[0]] + w)[b] == w[b - 1];
          }
        }
      }
    }
  }

  /** Removing edges keeps a graph well formed. */
  lemma {:induction false} WithoutEdgesWellFormed(s: GraphState, es: seq<Edge>)
    requires WellFormed(s)
    ensures WellFormed(WithoutEdges(s, es))
  {
    if es != [] {
      var p := WithoutEdges(s, es[..|es| - 1]);
      WithoutEdgesWellFormed(s, es[..|es| - 1]);
      WithoutDistinct(p.edges, es[|es| - 1]);
    }
  }

  /** The last loop removes exactly the original edges: the result is well
      formed, has the nodes and dictionaries the expansion gave it, and its
      edges are the expansion's edges that were not in the graph before,
      with their dictionaries. */
  lemma ConvertedEdges(s0: GraphState, c: Setup, order: seq<Value>)
    requires WellFormed(s0) && c.edges == s0.edges
    ensures var x := ExpandRoots(s0, c, order);
      var r := Converted(s0, c, order);
      && WellFormed(r)
      && r.nodes == x.nodes && r.nodeData == x.nodeData
      && s0.nodeData.Keys <= r.nodeData.Keys
      && r.edgeData.Keys == x.edgeData.Keys - s0.edgeData.Keys
      && (forall e :: e in s0.edgeData ==> e !in r.edgeData)
      && (forall e :: e in r.edgeData ==> r.edgeData[e] == x.edgeData[e])
  {
    var x := ExpandRoots(s0, c, order);
    ExpandRootsGrow(s0, c, order);
    WithoutEdgesFrame(x, c.edges);
    WithoutEdgesWellFormed(x, c.edges);
  }

  /** Whatever a later root adds, an earlier state is kept. */
  lemma {:induction false} ExpandRootsSuffix(s0: GraphState, c: Setup, order: seq<Value>, j: nat)
    requires WellFormed(s0) && j <= |order|
    ensures Grown(ExpandRoots(s0, c, order[..j]), ExpandRoots(s0, c, order))
  {
    if j == |order| {
      assert order[..j] == order;
    } else {
      var init := order[..|order| - 1];
      assert init[..j] == order[..j];
      ExpandRootsSuffix(s0, c, init, j);
      ExpandRootsGrow(s0, c, init);
      ExpandRootGrow(ExpandRoots(s0, c, init), c, order[|order| - 1]);
      GrownTrans(ExpandRoots(s0, c, order[..j]), ExpandRoots(s0, c, init), ExpandRoots(s0, c, order));
    }
  }

  /** Whatever a later branch adds, an earlier state is kept. */
  lemma {:induction false} BranchesSuffix(s: GraphState, c: Setup, entries: seq<(Edge, Value)>, k: nat, r: Value, trunk: seq<Value>)
    requires WellFormed(s) && k <= |entries|
    ensures Grown(Branches(s, c, entries[..k], r, trunk), Branches(s, c, entries, r, trunk))
  {
    if k == |entries| {
      assert entries[..k] == entries;
    } else {
      var init := entries[..|entries| - 1];
      assert init[..k] == entries[..k];
      BranchesSuffix(s, c, init, k, r, trunk);
      BranchesGrow(s, c, init, r, trunk);
      var p := Branches(s, c, init, r, trunk);
      var x := entries[|entries| - 1];
      if x.0.u == r {
        BranchGrow(p, c, x.0, LenValue(x.1), TrunkLength(c.edges, c.lens, r), trunk);
        GrownTrans(Branches(s, c, entries[..k], r, trunk), p, Branches(s, c, entries, r, trunk));
      }
    }
  }

  /** The graph just before root `order[j]` is handled. */
  function Before(s0: GraphState, c: Setup, order: seq<Value>, j: nat): GraphState
    requires j <= |order|
  {
    ExpandRoots(s0, c, order[..j])
  }

  /** The graph after root `order[j]` is handled. */
  lemma AfterRoot(s0: GraphState, c: Setup, order: seq<Value>, j: nat)
    requires WellFormed(s0) && j < |order|
    ensures ExpandRoots(s0, c, order[..j + 1]) == ExpandRoot(Before(s0, c, order, j), c, order[j])
    ensures WellFormed(Before(s0, c, order, j)) && Grown(s0, Before(s0, c, order, j))
    ensures Grown(ExpandRoots(s0, c, order[..j + 1]), ExpandRoots(s0, c, order))
  {
    assert order[..j + 1][..j] == order[..j];
    ExpandRootsGrow(s0, c, order[..j]);
    ExpandRootsSuffix(s0, c, order, j + 1);
  }

  /** An edge the expansion added that was not an original edge survives
      the removals with its dictionary. */
  lemma Survives(s0: GraphState, c: Setup, order: seq<Value>, e: Edge)
    requires WellFormed(s0) && c.edges == s0.edges
    requires e in ExpandRoots(s0, c, order).edgeData && e !in s0.edgeData
    ensures e in Converted(s0, c, order).edgeData
    ensures Converted(s0, c, order).edgeData[e] == ExpandRoots(s0, c, order).edgeData[e]
  {
    ConvertedEdges(s0, c, order);
  }

  /** Once the trunk is laid, the rest of the root's work keeps it. */
  lemma TrunkKept(s: GraphState, c: Setup, r: Value)
    requires WellFormed(s) && Trunk(s, c, r) != []
    ensures Grown(TrunkPath(s, c, r), ExpandRoot(s, c, r))
  {
    var trunk := Trunk(s, c, r);
    var s1 := TrunkPath(s, c, r);
    var s2 := GiveTo(s1, trunk, c.nodeKw, c.call);
    TrunkPathGrow(s, c, r);
    GiveToFrame(s1, trunk, c.nodeKw, c.call);
    BranchesGrow(s2, c, c.lens, r, trunk);
  }

  /** Every hop of a trunk, from the root through the trunk nodes, is an edge
      of the result carrying the edge keywords as parsed for that root. */
  lemma TrunkEdge(s0: GraphState, c: Setup, order: seq<Value>, j: nat, i: nat)
    requires WellFormed(s0) && c.edges == s0.edges && j < |order|
    requires i < TrunkLength(c.edges, c.lens, order[j])
    ensures var pre := Before(s0, c, order, j);
      var path := [order[j]] + Trunk(pre, c, order[j]);
      var r := Converted(s0, c, order);
      exists e :: e in r.edgeData && e.u == path[i] && e.v == path[i + 1]
        && r.edgeData[e] == Parsed(c.edgeKw, c.call, pre.draws)
  {
    var pre := Before(s0, c, order, j);
    var rt := order[j];
    var path := [rt] + Trunk(pre, c, rt);
    var attrs := Parsed(c.edgeKw, c.call, pre.draws);
    AfterRoot(s0, c, order, j);
    WithPathAt(Drawn(pre), path, attrs, i);
    var tp := TrunkPath(pre, c, rt);
    var e := tp.edges[|pre.edges| + i];
    TrunkKept(pre, c, rt);
    Survives(s0, c, order, e);
  }

  /** Within one root: the branch of entry `k` is an edge of the root's
      result that was not there before, from the anchor to the target,
      carrying the dictionary the edge had. */
  lemma BranchInBranches(s: GraphState, c: Setup, r: Value, trunk: seq<Value>, k: nat)
    requires WellFormed(s) && k < |c.lens| && c.lens[k].0.u == r && c.lens[k].0 in s.edgeData
    requires Anchor(|trunk|, TrunkLength(c.edges, c.lens, r), LenValue(c.lens[k].1)).Some?
    ensures var a := Anchor(|trunk|, TrunkLength(c.edges, c.lens, r), LenValue(c.lens[k].1)).value;
      var e := c.lens[k].0;
      var b := Branches(s, c, c.lens, r, trunk);
      exists f :: f in b.edgeData && f !in s.edgeData && f.u == trunk[a] && f.v == e.v
        && b.edgeData[f] == s.edgeData[e]
  {
    var e := c.lens[k].0;
    var a := Anchor(|trunk|, TrunkLength(c.edges, c.lens, r), LenValue(c.lens[k].1)).value;
    var p := Branches(s, c, c.lens[..k], r, trunk);
    BranchesGrow(s, c, c.lens[..k], r, trunk);
    BranchesSnoc(s, c, c.lens, k, r, trunk);
    var attrs := EdgeAttrs(p, e);
    var w := WithPath(p, [trunk[a], e.v], attrs);
    WithPathAt(p, [trunk[a], e.v], attrs, 0);
    var f := w.edges[|p.edges|];
    GiveToFrame(w, [trunk[a]], c.nodeKw, c.call);
    BranchesSuffix(s, c, c.lens, k + 1, r, trunk);
  }

  /** Every original edge leaving a root becomes a branch: an edge of the
      result from the anchor on that root's trunk to the edge's target,
      carrying the original edge's dictionary. */
  lemma BranchEdge(s0: GraphState, c: Setup, order: seq<Value>, j: nat, k: nat)
    requires WellFormed(s0) && c.edges == s0.edges
    requires j < |order| && k < |c.lens| && c.lens[k].0.u == order[j] && c.lens[k].0 in s0.edgeData
    requires TrunkLength(c.edges, c.lens, order[j]) > 0
    requires Anchor(TrunkLength(c.edges, c.lens, order[j]), TrunkLength(c.edges, c.lens, order[j]), LenValue(c.lens[k].1)).Some?
    ensures var pre := Before(s0, c, order, j);
      var t := TrunkLength(c.edges, c.lens, order[j]);
      var a := Anchor(t, t, LenValue(c.lens[k].1)).value;
      var e := c.lens[k].0;
      var r := Converted(s0, c, order);
      exists f :: f in r.edgeData && f.u == Trunk(pre, c, order[j])[a] && f.v == e.v
        && r.edgeData[f] == s0.edgeData[e]
  {
    var pre := Before(s0, c, order, j);
    var rt := order[j];
    var trunk := Trunk(pre, c, rt);
    var e := c.lens[k].0;
    var a := Anchor(|trunk|, TrunkLength(c.edges, c.lens, rt), LenValue(c.lens[k].1)).value;
    AfterRoot(s0, c, order, j);
    var s1 := TrunkPath(pre, c, rt);
    var s2 := GiveTo(s1, trunk, c.nodeKw, c.call);
    TrunkPathGrow(pre, c, rt);
    GiveToFrame(s1, trunk, c.nodeKw, c.call);
    BranchInBranches(s2, c, rt, trunk, k);
    var f :| f in Branches(s2, c, c.lens, rt, trunk).edgeData && f !in s2.edgeData
      && f.u == trunk[a] && f.v == e.v && Branches(s2, c, c.lens, rt, trunk).edgeData[f] == s2.edgeData[e];
    Survives(s0, c, order, f);
  }

  /** The number of new nodes the roots of `order` grow: the positive trunk
      lengths, added up. */
  function TrunkNodes(c: Setup, order: seq<Value>): nat
  {
    if order == [] then 0
    else
      var t := TrunkLength(c.edges, c.lens, order[|order| - 1]);
      TrunkNodes(c, order[..|order| - 1]) + (if t > 0 then t else 0)
  }

  /** The default labels continue the integer labels `0 .. n-1`. */
  lemma LabelsContinue(n: nat, t: int)
    ensures Ordinals(n) + Labels(n, t) == Ordinals(n + (if t > 0 then t else 0))
  {
    var a := Ordinals(n) + Labels(n, t);
    var b := Ordinals(n + (if t > 0 then t else 0));
    assert |a| == |b|;
    forall i | 0 <= i < |a| ensures a[i] == b[i] {
      if i >= n {
        assert a[i] == Labels(n, t)[i - n];
      }
    }
  }

  /** The trunk path runs from a node of a graph labelled `0 .. n-1`
      through labels the graph does not have, each once. */
  lemma TrunkFresh(s: GraphState, r: Value, t: int)
    requires WellFormed(s) && s.nodes == Ordinals(|s.nodes|) && r in s.nodeData
    ensures var path := [r] + Labels(|s.nodes|, t);
      && Distinct(path)
      && forall i :: 1 <= i < |path| ==> path[i] !in s.nodeData
  {
    var n := |s.nodes|;
    var path := [r] + Labels(n, t);
    assert r in Elems(Ordinals(n));
    assert r.Int? && 0 <= r.i < n;
    forall i | 1 <= i < |path| ensures path[i] !in s.nodeData {
      assert path[i] == Int(n + i - 1);
    }
    forall a, b | 0 <= a < b < |path| ensures path[a] != path[b] {
      assert path[b] == Int(n + b - 1);
    }
  }

  /** A path through fresh nodes, drawn once, appends them in order. */
  lemma DrawnPathFresh(s: GraphState, path: seq<Value>, attrs: Attrs)
    requires path != [] && path[0] in s.nodeData && Distinct(path)
    requires forall i :: 1 <= i < |path| ==> path[i] !in s.nodeData
    ensures WithPath(Drawn(s), path, attrs).nodes == s.nodes + path[1..]
  {
    WithPathFresh(Drawn(s), path, attrs);
  }

  /** A path from a node of a graph labelled `0 .. n-1` through the labels
      `n, n+1, ...` leaves the graph labelled `0 .. n+t-1`. */
  lemma LabelPathNodes(s: GraphState, r: Value, t: int, attrs: Attrs)
    requires WellFormed(s) && s.nodes == Ordinals(|s.nodes|) && r in s.nodeData
    ensures WithPath(Drawn(s), [r] + Labels(|s.nodes|, t), attrs).nodes == Ordinals(|s.nodes| + (if t > 0 then t else 0))
  {
    var trunk := Labels(|s.nodes|, t);
    TrunkFresh(s, r, t);
    DrawnPathFresh(s, [r] + trunk, attrs);
    assert ([r] + trunk)[1..] == trunk;
    LabelsContinue(|s.nodes|, t);
  }

  /** On a graph labelled `0 .. n-1`, a trunk path from a node adds the
      trunk as new nodes `n, n+1, ...`. */
  lemma TrunkPathNodes(s: GraphState, c: Setup, r: Value)
    requires WellFormed(s) && s.nodes == Ordinals(|s.nodes|) && r in s.nodeData
    ensures var t := TrunkLength(c.edges, c.lens, r);
      TrunkPath(s, c, r).nodes == Ordinals(|s.nodes| + (if t > 0 then t else 0))
  {
    LabelPathNodes(s, r, TrunkLength(c.edges, c.lens, r), Parsed(c.edgeKw, c.call, s.draws));
  }

  /** A branch between nodes that are already there adds no node. */
  lemma BranchNodes(s: GraphState, c: Setup, e: Edge, len: int, t: int, trunk: seq<Value>)
    requires WellFormed(s) && e.v in s.nodeData && forall x :: x in trunk ==> x in s.nodeData
    ensures Branch(s, c, e, len, t, trunk).nodes == s.nodes
  {
    match Anchor(|trunk|, t, len)
    case None =>
    case Some(j) =>
      var path := [trunk[j], e.v];
      assert trunk[j] in trunk;
      WithPathPresent(s, path, EdgeAttrs(s, e));
      GiveToFrame(WithPath(s, path, EdgeAttrs(s, e)), [trunk[j]], c.nodeKw, c.call);
  }

  /** Branches add no node when the trunk is there and every lookup finds
      its edge, whose target is then a node already. */
  lemma {:induction false} BranchesNodes(s: GraphState, c: Setup, entries: seq<(Edge, Value)>, r: Value, trunk: seq<Value>)
    requires WellFormed(s) && forall x :: x in trunk ==> x in s.nodeData
    requires BranchesFind(s, c, entries, r, trunk)
    ensures Branches(s, c, entries, r, trunk).nodes == s.nodes
  {
    if entries != [] {
      var init := entries[..|entries| - 1];
      var x := entries[|entries| - 1];
      BranchesNodes(s, c, init, r, trunk);
      BranchesGrow(s, c, init, r, trunk);
      if x.0.u == r {
        var p := Branches(s, c, init, r, trunk);
        assert x.0.v in p.nodeData;
        BranchNodes(p, c, x.0, LenValue(x.1), TrunkLength(c.edges, c.lens, r), trunk);
      }
    }
  }

  /** On a graph labelled `0 .. n-1`, one root adds its trunk as the nodes
      `n .. n+t-1` and nothing else. */
  lemma ExpandRootNodes(s: GraphState, c: Setup, r: Value)
    requires WellFormed(s) && s.nodes == Ordinals(|s.nodes|) && r in s.nodeData
    requires RootFinds(s, c, r)
    ensures var t := TrunkLength(c.edges, c.lens, r);
      ExpandRoot(s, c, r).nodes == Ordinals(|s.nodes| + (if t > 0 then t else 0))
  {
    var trunk := Trunk(s, c, r);
    if trunk != [] {
      var s1 := TrunkPath(s, c, r);
      var s2 := GiveTo(s1, trunk, c.nodeKw, c.call);
      TrunkPathNodes(s, c, r);
      TrunkPathGrow(s, c, r);
      WithPathMembers(Drawn(s), [r] + trunk, Parsed(c.edgeKw, c.call, s.draws));
      GiveToFrame(s1, trunk, c.nodeKw, c.call);
      BranchesNodes(s2, c, c.lens, r, trunk);
    }
  }

  /** A graph whose nodes are `0 .. k-1` in order, for some `k`. */
  predicate Labelled(s: GraphState)
  {
    s.nodes == Ordinals(|s.nodes|)
  }

  /** One root on a labelled graph that has every node of `s0`. */
  lemma NodesStep(s0: GraphState, pre: GraphState, c: Setup, r: Value)
    requires WellFormed(pre) && Labelled(pre)
    requires s0.nodeData.Keys <= pre.nodeData.Keys && r in s0.nodeData
    requires RootFinds(pre, c, r)
    ensures var t := TrunkLength(c.edges, c.lens, r);
      && Labelled(ExpandRoot(pre, c, r))
      && |ExpandRoot(pre, c, r).nodes| == |pre.nodes| + if t > 0 then t else 0
  {
    ExpandRootNodes(pre, c, r);
  }

  /** On a labelled graph, every root keeps the graph labelled and adds as
      many nodes as its trunk is long. */
  lemma {:induction false} ExpandRootsLabelled(s0: GraphState, c: Setup, order: seq<Value>)
    requires WellFormed(s0) && Labelled(s0)
    requires forall x :: x in order ==> x in s0.nodeData
    requires RootsFind(s0, c, order)
    ensures Labelled(ExpandRoots(s0, c, order))
    ensures order != [] ==> var t := TrunkLength(c.edges, c.lens, order[|order| - 1]);
      |ExpandRoots(s0, c, order).nodes| == |ExpandRoots(s0, c, order[..|order| - 1]).nodes| + if t > 0 then t else 0
  {
    if order != [] {
      var init := order[..|order| - 1];
      var last := order[|order| - 1];
      assert forall x :: x in init ==> x in order;
      assert last in order;
      RootsFindPrefix(s0, c, order, |order| - 1);
      assert RootFinds(ExpandRoots(s0, c, order[..|order| - 1]), c, last);
      ExpandRootsLabelled(s0, c, init);
      ExpandRootsGrow(s0, c, init);
      NodesStep(s0, ExpandRoots(s0, c, init), c, last);
    }
  }

  /** On a graph labelled `0 .. n-1`, the roots add exactly their trunks'
      nodes, labelled on from `n` in the order the roots are visited. */
  lemma {:induction false} ExpandRootsNodes(s0: GraphState, c: Setup, order: seq<Value>, r: GraphState)
    requires WellFormed(s0) && Labelled(s0)
    requires forall x :: x in order ==> x in s0.nodeData
    requires RootsFind(s0, c, order)
    requires r == ExpandRoots(s0, c, order)
    ensures r.nodes == Ordinals(|s0.nodes| + TrunkNodes(c, order))
  {
    ExpandRootsCount(s0, c, order);
    LabelledNodes(r, |s0.nodes| + TrunkNodes(c, order));
  }

  lemma LabelledNodes(r: GraphState, n: nat)
    requires Labelled(r) && |r.nodes| == n
    ensures r.nodes == Ordinals(n)
  {
  }

  lemma {:induction false} ExpandRootsCount(s0: GraphState, c: Setup, order: seq<Value>)
    requires WellFormed(s0) && Labelled(s0)
    requires forall x :: x in order ==> x in s0.nodeData
    requires RootsFind(s0, c, order)
    ensures Labelled(ExpandRoots(s0, c, order))
    ensures |ExpandRoots(s0, c, order).nodes| == |s0.nodes| + TrunkNodes(c, order)
  {
    ExpandRootsLabelled(s0, c, order);
    if order != [] {
      var init := order[..|order| - 1];
      assert forall x :: x in init ==> x in order;
      RootsFindPrefix(s0, c, order, |order| - 1);
      ExpandRootsCount(s0, c, init);
    }
  }

  /** The setup `convert_edges` works with on `s`. */
  function SetupOf(s: GraphState, lengths: LengthArg, edgeKw: Kwargs, nodeKw: Kwargs, call: Oracle): Setup
  {
    Setup(s.edges, LengthsOf(s, lengths), edgeKw, nodeKw, call)
  }

  /** On every input it accepts, `convert_edges` leaves a well formed graph
      that keeps every node, has none of the original edges, and consists
      of the new edges; when the nodes were `0 .. n-1` the new nodes are
      `n .. n+m-1`, where `m` adds up the trunk lengths. */
  lemma {:induction false} ConvertedShape(s0: GraphState, lengths: LengthArg, order: seq<Value>, edgeKw: Kwargs, nodeKw: Kwargs, call: Oracle)
    requires Admissible(s0, lengths, order, edgeKw, nodeKw, call)
    ensures var c := SetupOf(s0, lengths, edgeKw, nodeKw, call);
      var r := Converted(s0, c, order);
      && WellFormed(r)
      && s0.nodeData.Keys <= r.nodeData.Keys
      && (forall e :: e in s0.edgeData ==> e !in r.edgeData)
      && r.edgeData.Keys == ExpandRoots(s0, c, order).edgeData.Keys - s0.edgeData.Keys
      && (Labelled(s0) ==> r.nodes == Ordinals(|s0.nodes| + TrunkNodes(c, order)))
  {
    var c := SetupOf(s0, lengths, edgeKw, nodeKw, call);
    ConvertedEdges(s0, c, order);
    if Labelled(s0) {
      AdmissibleNodes(s0, lengths, order, edgeKw, nodeKw, call);
      assert RootsFind(s0, c, order);
      ExpandRootsNodes(s0, c, order, ExpandRoots(s0, c, order));
    }
  }

  /** Every root is a node of the graph. */
  lemma AdmissibleNodes(s0: GraphState, lengths: LengthArg, order: seq<Value>, edgeKw: Kwargs, nodeKw: Kwargs, call: Oracle)
    requires Admissible(s0, lengths, order, edgeKw, nodeKw, call)
    ensures forall x :: x in order ==> x in s0.nodeData
  {
    forall x | x in order ensures x in s0.nodeData {
      assert x in Elems(Sources(s0.edges));
      var i :| 0 <= i < |s0.edges| && Sources(s0.edges)[i] == x;
      assert s0.edges[i] in Elems(s0.edges);
    }
  }
}

/** A length key may name an edge that the expansion itself lays: on the graph
    `0 -> 1` with lengths `{(0,1,0): 1, (0,2,0): 1}`, the trunk hop `(0,2,0)`
    exists by the time the branch loop looks it up, so the call goes through. */
module ExpandExample {
  import opened Values
  import opened Assoc
  import opened Kwargs
  import opened Graph
  import opened EdgeParse
  import opened Expand

  function OneEdge(): GraphState
  {
    var e := Edge(Int(0), Int(1), Int(0));
    GraphState([Int(0), Int(1)], map[Int(0) := map[], Int(1) := map[]], [e], map[e := map[]], None, None, None, 0)
  }

  function HopLengths(): Assoc<Edge, Value>
  {
    [(Edge(Int(0), Int(1), Int(0)), Int(1)), (Edge(Int(0), Int(2), Int(0)), Int(1))]
  }

  lemma OneEdgeWellFormed()
    ensures WellFormed(OneEdge())
  {
    var s0 := OneEdge();
    assert Elems(s0.nodes) == {Int(0), Int(1)} by {
      assert s0.nodes[0] == Int(0) && s0.nodes[1] == Int(1);
    }
    assert Elems(s0.edges) == {s0.edges[0]};
  }

  /** The trunk of root 0 is the single new node 2, and laying it adds the
      hop `(0,2,0)`. */
  lemma HopLaid(call: Oracle)
    ensures var c := Setup(OneEdge().edges, HopLengths(), map[], map[], call);
      && TrunkLength(c.edges, c.lens, Int(0)) == 1
      && Trunk(OneEdge(), c, Int(0)) == [Int(2)]
      && Edge(Int(0), Int(2), Int(0)) in TrunkPath(OneEdge(), c, Int(0)).edgeData
  {
    var s0 := OneEdge();
    var c := Setup(s0.edges, HopLengths(), map[], map[], call);
    assert LenOf(c.lens, s0.edges[0]) == 1;
    assert MaxOut(c.edges, c.lens, Int(0)) == Some(1) by {
      assert c.edges[..0] == [];
    }
    var attrs := Parsed(c.edgeKw, c.call, s0.draws);
    var path := [Int(0), Int(2)];
    assert Trunk(s0, c, Int(0)) == [Int(2)];
    WithPathLast(Drawn(s0), path, attrs);
    assert path[..1] == [Int(0)];
    var d := Drawn(s0);
    assert WithPath(d, path[..1], attrs) == d;
    var s1 := WithNode(WithNode(d, Int(0)), Int(2));
    assert s1.edgeData == s0.edgeData;
    assert KeysBetween(s1.edgeData.Keys, Int(0), Int(2)) == {};
    assert NewEdgeKey(s1.edgeData, Int(0), Int(2)) == 0;
  }

  /** Both lookups of root 0's branch loop succeed: `(0,1,0)` is an original
      edge and `(0,2,0)` the trunk hop. */
  lemma HopFound(call: Oracle)
    ensures RootFinds(OneEdge(), Setup(OneEdge().edges, HopLengths(), map[], map[], call), Int(0))
  {
    var s0 := OneEdge();
    var lens := HopLengths();
    var c := Setup(s0.edges, lens, map[], map[], call);
    HopLaid(call);
    var trunk := [Int(2)];
    var tp := TrunkPath(s0, c, Int(0));
    OneEdgeWellFormed();
    TrunkPathGrow(s0, c, Int(0));
    assert GiveTo(tp, trunk, c.nodeKw, c.call) == tp;
    var first := lens[..1];
    assert first[..0] == [] && first[0] == lens[0] && lens[..|lens| - 1] == first;
    assert lens[0].0 in Branches(tp, c, [], Int(0), trunk).edgeData;
    assert BranchesFind(tp, c, first, Int(0), trunk);
    BranchesGrow(tp, c, first, Int(0), trunk);
    assert lens[1].0 in Branches(tp, c, first, Int(0), trunk).edgeData;
  }

  /** Both lengths are integers, both keys leave root 0, whose trunk has
      length 1, and both branches start at the trunk's end. */
  lemma HopLengthsFit(call: Oracle)
    ensures LengthsFit(OneEdge(), HopLengths())
    ensures Anchored(OneEdge().edges, HopLengths())
  {
    var s0 := OneEdge();
    var lens := HopLengths();
    HopLaid(call);
    assert Anchor(1, 1, 1) == Some(0);
    assert s0.edgeData.Keys <= Elems(Keys(lens)) by {
      assert Keys(lens)[0] == s0.edges[0];
    }
  }

  /** Root 0 is the only source. */
  lemma HopOrder()
    ensures RootOrder(OneEdge().edges, HopLengths(), [Int(0)])
  {
    var s0 := OneEdge();
    assert Elems(Sources(s0.edges)) == {Int(0)} by {
      assert Sources(s0.edges) == [Int(0)];
    }
    assert Elems([Int(0)]) == {Int(0)};
  }

  /** The same graph with the second length a string: the trunk hop is found,
      but `trunk["a" - 1]` raises, so `convert_edges` does not accept it. */
  function StrLengths(): Assoc<Edge, Value>
  {
    [(Edge(Int(0), Int(1), Int(0)), Int(1)), (Edge(Int(0), Int(2), Int(0)), Str("a"))]
  }

  lemma StrLengthRejected(call: Oracle)
    ensures !Admissible(OneEdge(), Given(StrLengths()), [Int(0)], map[], map[], call)
  {
    var s0 := OneEdge();
    var lens := StrLengths();
    assert LengthsOf(s0, Given(lens)) == lens;
    assert LenOf(lens, s0.edges[0]) == 1;
    assert MaxOut(s0.edges, lens, Int(0)) == Some(1) by {
      assert s0.edges[..0] == [];
    }
    assert !lens[1].1.Int? && TrunkLength(s0.edges, lens, lens[1].0.u) > 0;
    assert !Anchored(s0.edges, lens);
  }

  /** The lookups of the only root succeed. */
  lemma HopRootsFind(call: Oracle)
    ensures RootsFind(OneEdge(), Setup(OneEdge().edges, HopLengths(), map[], map[], call), [Int(0)])
  {
    var s0 := OneEdge();
    var c := Setup(s0.edges, HopLengths(), map[], map[], call);
    HopFound(call);
    var order := [Int(0)];
    assert order[..0] == [] && ExpandRoots(s0, c, order[..0]) == s0;
    assert RootFinds(ExpandRoots(s0, c, order[..0]), c, order[0]);
  }

  /** `convert_edges` accepts the graph `0 -> 1` with the lengths
      `{(0,1,0): 1, (0,2,0): 1}`: the second key is the trunk hop. */
  lemma TrunkHopKey(call: Oracle)
    ensures Admissible(OneEdge(), Given(HopLengths()), [Int(0)], map[], map[], call)
  {
    assert LengthsOf(OneEdge(), Given(HopLengths())) == HopLengths();
    OneEdgeWellFormed();
    HopLengthsFit(call);
    HopOrder();
    HopRootsFind(call);
  }
}

=== FILE: give.dfy ===
/** Attribute assignment (`give_nodes`, graph_functions.py:115-135, and
    `give_edges`, graph_functions.py:159-181). Keyword values are parsed
    again for every target, so deferred calls are made once per target, and
    each entry of the per-key `data` dictionary is parsed on its own. */
module Give {
  import opened Values
  import opened Kwargs
  import opened Graph
  import opened EdgeParse

  /** One target node receives one parse of `kw`; a target that is not a
      node, or a keyword set that cannot be parsed, leaves the graph alone. */
  function GiveNode(s: GraphState, n: Value, kw: Kwargs, call: Oracle): GraphState
  {
    match ParseKwargs(kw, call, s.draws)
    case Some(a) =>
      if n in s.nodeData then s.(nodeData := s.nodeData[n := s.nodeData[n] + a], draws := s.draws + 1)
      else s
    case None => s
  }

  lemma GiveNodeStep(s: GraphState, n: Value, kw: Kwargs, call: Oracle)
    ensures GiveNode(s, n, kw, call) ==
      if Resolvable(kw) && n in s.nodeData
      then s.(nodeData := s.nodeData[n := s.nodeData[n] + ParseKwargs(kw, call, s.draws).value],
              draws := s.draws + 1)
      else s
  {
  }

  /** The same keyword set given to each target in turn. */
  function GiveEach(s: GraphState, ns: seq<Value>, kw: Kwargs, call: Oracle): GraphState
  {
    if ns == [] then s else GiveNode(GiveEach(s, ns[..|ns| - 1], kw, call), ns[|ns| - 1], kw, call)
  }

  lemma GiveEachSnoc(s: GraphState, ns: seq<Value>, i: nat, kw: Kwargs, call: Oracle)
    requires i < |ns|
    ensures GiveEach(s, ns[..i + 1], kw, call) == GiveNode(GiveEach(s, ns[..i], kw, call), ns[i], kw, call)
  {
    assert ns[..i + 1][..i] == ns[..i];
  }

  /** Each `(node, kwargs)` entry given in turn. */
  function GiveEntries(s: GraphState, data: seq<(Value, Kwargs)>, call: Oracle): GraphState
  {
    if data == [] then s
    else
      var last := data[|data| - 1];
      GiveNode(GiveEntries(s, data[..|data| - 1], call), last.0, last.1, call)
  }

  /** The number of leading targets that are nodes. */
  function FirstMissing(keys: set<Value>, ns: seq<Value>): (r: nat)
    ensures r <= |ns|
    ensures forall j :: 0 <= j < r ==> ns[j] in keys
    ensures r < |ns| ==> ns[r] !in keys
  {
    if ns == [] || ns[0] !in keys then 0 else 1 + FirstMissing(keys, ns[1..])
  }

  /** The index of the first entry that names a node and cannot be parsed. */
  function FirstUnparsable(keys: set<Value>, data: seq<(Value, Kwargs)>): (r: nat)
    ensures r <= |data|
    ensures forall j :: 0 <= j < r ==> data[j].0 !in keys || Resolvable(data[j].1)
    ensures r < |data| ==> data[r].0 in keys && !Resolvable(data[r].1)
  {
    if data == [] || (data[0].0 in keys && !Resolvable(data[0].1)) then 0
    else 1 + FirstUnparsable(keys, data[1..])
  }

  /** Giving attributes changes node dictionaries and the draw count only. */
  lemma {:induction false} GiveEachFrame(s: GraphState, ns: seq<Value>, kw: Kwargs, call: Oracle)
    ensures var r := GiveEach(s, ns, kw, call);
      r.nodes == s.nodes && r.nodeData.Keys == s.nodeData.Keys && r.edges == s.edges
      && r.edgeData == s.edgeData && r.mapping == s.mapping
      && r.inverseMapping == s.inverseMapping && r.sorting == s.sorting
  {
    if ns != [] {
      GiveEachFrame(s, ns[..|ns| - 1], kw, call);
    }
  }

  lemma {:induction false} GiveEntriesFrame(s: GraphState, data: seq<(Value, Kwargs)>, call: Oracle)
    ensures var r := GiveEntries(s, data, call);
      r.nodes == s.nodes && r.nodeData.Keys == s.nodeData.Keys && r.edges == s.edges
      && r.edgeData == s.edgeData && r.mapping == s.mapping
      && r.inverseMapping == s.inverseMapping && r.sorting == s.sorting
  {
    if data != [] {
      GiveEntriesFrame(s, data[..|data| - 1], call);
    }
  }

  /** Each existing target takes one draw. */
  lemma {:induction false} GiveEachDraws(s: GraphState, ns: seq<Value>, kw: Kwargs, call: Oracle)
    requires Resolvable(kw)
    requires forall n :: n in ns ==> n in s.nodeData
    ensures GiveEach(s, ns, kw, call).draws == s.draws + |ns|
  {
    if ns != [] {
      var init := ns[..|ns| - 1];
      GiveEachDraws(s, init, kw, call);
      GiveEachFrame(s, init, kw, call);
      GiveNodeStep(GiveEach(s, init, kw, call), ns[|ns| - 1], kw, call);
    }
  }

  /** The `i`-th of distinct existing targets receives the parse made at
      draw `draws + i`. */
  lemma {:induction false} GiveEachAt(s: GraphState, ns: seq<Value>, kw: Kwargs, call: Oracle, i: nat)
    requires Resolvable(kw) && Distinct(ns) && i < |ns|
    requires forall n :: n in ns ==> n in s.nodeData
    ensures var r := GiveEach(s, ns, kw, call);
      ns[i] in r.nodeData && r.nodeData[ns[i]] == s.nodeData[ns[i]] + ParseKwargs(kw, call, s.draws + i).value
  {
    var init := ns[..|ns| - 1];
    var last := ns[|ns| - 1];
    var p := GiveEach(s, init, kw, call);
    var r := GiveNode(p, last, kw, call);
    var a := ParseKwargs(kw, call, s.draws + i).value;
    assert forall n :: n in init ==> n in ns;
    assert GiveEach(s, ns, kw, call) == r;
    if i < |ns| - 1 {
      assert ns[i] == init[i] && ns[i] != last;
      assert Distinct(init) by {
        forall x, y | 0 <= x < y < |init| ensures init[x] != init[y] {
          assert init[x] == ns[x] && init[y] == ns[y];
        }
      }
      GiveEachAt(s, init, kw, call, i);
      GiveEachFrame(s, init, kw, call);
      GiveEachLast(p, last, kw, call);
      assert r.nodeData[ns[i]] == p.nodeData[ns[i]];
      assert r.nodeData[ns[i]] == s.nodeData[ns[i]] + a;
    } else {
      assert last !in init by {
        forall j | 0 <= j < |init| ensures init[j] != last {
          assert init[j] == ns[j];
        }
      }
      GiveEachAtLast(s, init, last, kw, call);
      assert r.nodeData[ns[i]] == s.nodeData[ns[i]] + a;
    }
  }

  /** A target not given before receives the parse made after the earlier
      targets' draws. */
  lemma GiveEachAtLast(s: GraphState, init: seq<Value>, last: Value, kw: Kwargs, call: Oracle)
    requires Resolvable(kw) && last !in init && last in s.nodeData
    requires forall n :: n in init ==> n in s.nodeData
    ensures var r := GiveNode(GiveEach(s, init, kw, call), last, kw, call);
      last in r.nodeData && r.nodeData[last] == s.nodeData[last] + ParseKwargs(kw, call, s.draws + |init|).value
  {
    var p := GiveEach(s, init, kw, call);
    GiveEachDraws(s, init, kw, call);
    GiveEachOther(s, init, kw, call, last);
    var d := s.draws + |init|;
    var a := ParseKwargs(kw, call, d).value;
    var r := GiveNode(p, last, kw, call);
    GiveLast(p, s, last, kw, call, d);
    assert r.nodeData[last] == s.nodeData[last] + a;
  }

  lemma GiveLast(p: GraphState, s: GraphState, n: Value, kw: Kwargs, call: Oracle, d: nat)
    requires Resolvable(kw) && n in p.nodeData && n in s.nodeData && p.nodeData[n] == s.nodeData[n]
    requires p.draws == d
    ensures var r := GiveNode(p, n, kw, call);
      n in r.nodeData && r.nodeData[n] == s.nodeData[n] + ParseKwargs(kw, call, d).value
  {
    GiveEachLast(p, n, kw, call);
  }

  /** One existing target, given a parsable keyword set, takes one draw and
      has only its own dictionary extended. */
  lemma GiveEachLast(p: GraphState, n: Value, kw: Kwargs, call: Oracle)
    requires Resolvable(kw) && n in p.nodeData
    ensures var r := GiveNode(p, n, kw, call);
      r.nodeData == p.nodeData[n := p.nodeData[n] + ParseKwargs(kw, call, p.draws).value]
  {
    GiveNodeStep(p, n, kw, call);
  }

  /** A node that is not a target keeps its dictionary. */
  lemma {:induction false} GiveEachOther(s: GraphState, ns: seq<Value>, kw: Kwargs, call: Oracle, n: Value)
    requires n in s.nodeData && n !in ns
    ensures var r := GiveEach(s, ns, kw, call);
      n in r.nodeData && r.nodeData[n] == s.nodeData[n]
  {
    if ns != [] {
      var init := ns[..|ns| - 1];
      GiveEachOther(s, init, kw, call, n);
      GiveNodeStep(GiveEach(s, init, kw, call), ns[|ns| - 1], kw, call);
    }
  }

  /** Deferred values are resolved once per target: the `i`-th of distinct
      existing targets receives the parse made at draw `draws + i`, and the
      nodes that are not targets keep their dictionaries. */
  lemma GiveEachPerTarget(s: GraphState, ns: seq<Value>, kw: Kwargs, call: Oracle)
    requires Resolvable(kw) && Distinct(ns)
    requires forall n :: n in ns ==> n in s.nodeData
    ensures var r := GiveEach(s, ns, kw, call);
      && r.nodeData.Keys == s.nodeData.Keys
      && r.draws == s.draws + |ns|
      && (forall i :: 0 <= i < |ns| ==>
            r.nodeData[ns[i]] == s.nodeData[ns[i]] + ParseKwargs(kw, call, s.draws + i).value)
      && (forall n :: n in s.nodeData && n !in ns ==> r.nodeData[n] == s.nodeData[n])
  {
    GiveEachFrame(s, ns, kw, call);
    GiveEachDraws(s, ns, kw, call);
    forall i | 0 <= i < |ns| {
      GiveEachAt(s, ns, kw, call, i);
    }
    forall n | n in s.nodeData && n !in ns {
      GiveEachOther(s, ns, kw, call, n);
    }
  }

  /** One more existing target, with a parsable keyword set, extends its
      dictionary by one parse and takes one draw. */
  lemma GiveEachExtend(s0: GraphState, ns: seq<Value>, i: nat, kw: Kwargs, call: Oracle, pre: GraphState)
    requires i < |ns| && pre == GiveEach(s0, ns[..i], kw, call)
    requires Resolvable(kw) && ns[i] in pre.nodeData
    ensures GiveEach(s0, ns[..i + 1], kw, call) ==
      pre.(nodeData := pre.nodeData[ns[i] := pre.nodeData[ns[i]] + ParseKwargs(kw, call, pre.draws).value],
           draws := pre.draws + 1)
  {
    GiveEachSnoc(s0, ns, i, kw, call);
    GiveNodeStep(pre, ns[i], kw, call);
  }

  /** How many targets the keyword loop gets through: none when the keyword
      set cannot be parsed, else up to the first target that is not a node. */
  function KwReach(keys: set<Value>, ns: seq<Value>, kw: Kwargs): (r: nat)
    ensures r <= |ns|
  {
    if Resolvable(kw) then FirstMissing(keys, ns) else 0
  }

  /** The keyword loop of `give_nodes`: each target in turn receives its own
      parse of `kw`. It fails at the first target that is not a node, or at
      once when `kw` cannot be parsed, keeping what was given before. */
  method GiveKeywords(g: MultiDiGraph, ns: seq<Value>, kw: Kwargs, call: Oracle) returns (ok: bool)
    modifies g
    ensures ok <==> (ns == [] || Resolvable(kw)) && FirstMissing(old(g.nodeData).Keys, ns) == |ns|
    ensures g.State() == GiveEach(old(g.State()), ns[..KwReach(old(g.nodeData).Keys, ns, kw)], kw, call)
  {
    ghost var s0 := g.State();
    ghost var stop := KwReach(s0.nodeData.Keys, ns, kw);
    ok := true;
    var i := 0;
    while i < |ns|
      invariant i <= stop && i <= |ns|
      invariant g.State() == GiveEach(s0, ns[..i], kw, call)
      invariant g.nodeData.Keys == s0.nodeData.Keys
    {
      if ns[i] !in g.nodeData {
        assert stop == i;
        ok := false;
        break;
      }
      var a := ParseKwargs(kw, call, g.draws);
      if a.None? {
        assert stop == 0 == i;
        ok := false;
        break;
      }
      GiveEachExtend(s0, ns, i, kw, call, g.State());
      g.nodeData := g.nodeData[ns[i] := g.nodeData[ns[i]] + a.value];
      g.draws := g.draws + 1;
      i := i + 1;
    }
    assert ok ==> ns[..i] == ns;
  }


  /** The `data` loop of `give_nodes`: entries whose key is not a node are
      skipped, the others receive their own keyword set; an unparsable one
      ends the loop with a failure. */
  method GiveData(g: MultiDiGraph, data: seq<(Value, Kwargs)>, call: Oracle) returns (ok: bool)
    modifies g
    ensures ok <==> FirstUnparsable(old(g.nodeData).Keys, data) == |data|
    ensures g.State() == GiveEntries(old(g.State()), data[..FirstUnparsable(old(g.nodeData).Keys, data)], call)
  {
    ghost var s0 := g.State();
    for i := 0 to |data|
      invariant g.State() == GiveEntries(s0, data[..i], call)
      invariant g.nodeData.Keys == s0.nodeData.Keys
      invariant i <= FirstUnparsable(s0.nodeData.Keys, data)
    {
      var (k, v) := data[i];
      assert data[..i + 1][..i] == data[..i];
      GiveNodeStep(g.State(), k, v, call);
      if k in g.nodeData {
        var a := ParseKwargs(v, call, g.draws);
        if a.None? {
          return false;
        }
        g.nodeData := g.nodeData[k := g.nodeData[k] + a.value];
        g.draws := g.draws + 1;
      }
    }
    assert data[..|data|] == data;
    return true;
  }

  /** `give_nodes(g, data, nodes, **kwargs)`. The keyword set is parsed anew
      for each target (`nodes`, or every node); a target that is not a node
      is a lookup failure, as is an unparsable keyword set. Then each entry
      of `data` whose key is a node has its own keyword set parsed and merged;
      other entries are skipped, but an unparsable one is a failure. `ok` is
      false on failure, and the graph keeps what was done before it. */
  method GiveNodes(g: MultiDiGraph, data: seq<(Value, Kwargs)>, nodes: Option<seq<Value>>,
                   kw: Kwargs, call: Oracle) returns (ok: bool)
    modifies g
    ensures var s0 := old(g.State());
      var ns := if nodes.Some? then nodes.value else s0.nodes;
      var kwOk := kw == map[] || ((ns == [] || Resolvable(kw)) && FirstMissing(s0.nodeData.Keys, ns) == |ns|);
      var s1 := if kw == map[] then s0 else GiveEach(s0, ns, kw, call);
      var d := FirstUnparsable(s0.nodeData.Keys, data);
      && (!kwOk ==> !ok && g.State() == GiveEach(s0, ns[..KwReach(s0.nodeData.Keys, ns, kw)], kw, call))
      && (kwOk ==> ok == (d == |data|) && g.State() == GiveEntries(s1, data[..d], call))
  {
    ghost var s0 := g.State();
    var ns := if nodes.Some? then nodes.value else g.nodes;
    if kw != map[] {
      ok := GiveKeywords(g, ns, kw, call);
      if !ok {
        return;
      }
      assert ns[..|ns|] == ns;
      GiveEachFrame(s0, ns, kw, call);
    }
    ok := GiveData(g, data, call);
  }

  /** One target edge receives one parse of `kw`; a tuple that is not an
      edge of the graph, or an unparsable keyword set, leaves it alone. */
  function GiveEdge(s: GraphState, t: EdgeTuple, kw: Kwargs, call: Oracle): GraphState
  {
    if NamesEdge(s.edgeData.Keys, t) then GiveEdgeTo(s, AsEdge(t).value, kw, call) else s
  }

  /** Edge `e` of the graph receives one parse of `kw`, unless it cannot be
      parsed. */
  function GiveEdgeTo(s: GraphState, e: Edge, kw: Kwargs, call: Oracle): GraphState
    requires e in s.edgeData
  {
    match ParseKwargs(kw, call, s.draws)
    case Some(a) => s.(edgeData := s.edgeData[e := s.edgeData[e] + a], draws := s.draws + 1)
    case None => s
  }

  lemma GiveEdgeStep(s: GraphState, t: EdgeTuple, kw: Kwargs, call: Oracle)
    ensures GiveEdge(s, t, kw, call) ==
      if Resolvable(kw) && NamesEdge(s.edgeData.Keys, t)
      then s.(edgeData := s.edgeData[AsEdge(t).value := s.edgeData[AsEdge(t).value] + ParseKwargs(kw, call, s.draws).value],
              draws := s.draws + 1)
      else s
  {
  }

  function GiveEdgeEach(s: GraphState, ts: seq<EdgeTuple>, kw: Kwargs, call: Oracle): GraphState
  {
    if ts == [] then s else GiveEdge(GiveEdgeEach(s, ts[..|ts| - 1], kw, call), ts[|ts| - 1], kw, call)
  }

  lemma GiveEdgeEachSnoc(s: GraphState, ts: seq<EdgeTuple>, i: nat, kw: Kwargs, call: Oracle)
    requires i < |ts|
    ensures GiveEdgeEach(s, ts[..i + 1], kw, call) == GiveEdge(GiveEdgeEach(s, ts[..i], kw, call), ts[i], kw, call)
  {
    assert ts[..i + 1][..i] == ts[..i];
  }

  function GiveEdgeEntries(s: GraphState, data: seq<(EdgeTuple, Kwargs)>, call: Oracle): GraphState
  {
    if data == [] then s
    else
      var last := data[|data| - 1];
      GiveEdge(GiveEdgeEntries(s, data[..|data| - 1], call), last.0, last.1, call)
  }

  /** Whether a tuple names an edge of the graph. */
  predicate NamesEdge(keys: set<Edge>, t: EdgeTuple)
  {
    AsEdge(t).Some? && AsEdge(t).value in keys
  }

  /** The number of leading tuples that name edges. */
  function FirstNotEdge(keys: set<Edge>, ts: seq<EdgeTuple>): (r: nat)
    ensures r <= |ts|
    ensures forall j :: 0 <= j < r ==> NamesEdge(keys, ts[j])
    ensures r < |ts| ==> !NamesEdge(keys, ts[r])
  {
    if ts == [] || !NamesEdge(keys, ts[0]) then 0 else 1 + FirstNotEdge(keys, ts[1..])
  }

  /** Every edge of the graph as a `(source, target, key)` tuple, as iterating
      over the edge view yields them. */
  function EdgeTuples(es: seq<Edge>): (r: seq<EdgeTuple>)
    ensures |r| == |es| && forall i :: 0 <= i < |es| ==> AsEdge(r[i]) == Some(es[i])
  {
    seq(|es|, i requires 0 <= i < |es| => [es[i].u, es[i].v, es[i].key])
  }

  lemma {:induction false} GiveEdgeEachFrame(s: GraphState, ts: seq<EdgeTuple>, kw: Kwargs, call: Oracle)
    ensures var r := GiveEdgeEach(s, ts, kw, call);
      r.nodes == s.nodes && r.nodeData == s.nodeData && r.edges == s.edges
      && r.edgeData.Keys == s.edgeData.Keys && r.mapping == s.mapping
      && r.inverseMapping == s.inverseMapping && r.sorting == s.sorting
  {
    if ts != [] {
      GiveEdgeEachFrame(s, ts[..|ts| - 1], kw, call);
    }
  }

  /** Every tuple names an edge of the graph. */
  predicate AllNameEdges(keys: set<Edge>, ts: seq<EdgeTuple>)
  {
    forall i :: 0 <= i < |ts| ==> NamesEdge(keys, ts[i])
  }

  /** No two tuples name the same edge. */
  predicate DistinctEdges(ts: seq<EdgeTuple>)
  {
    forall i, j :: 0 <= i < j < |ts| ==> AsEdge(ts[i]) != AsEdge(ts[j])
  }

  /** Each tuple naming an edge, with a parsable keyword set, takes one draw. */
  lemma {:induction false} GiveEdgeEachDraws(s: GraphState, ts: seq<EdgeTuple>, kw: Kwargs, call: Oracle)
    requires Resolvable(kw) && AllNameEdges(s.edgeData.Keys, ts)
    ensures GiveEdgeEach(s, ts, kw, call).draws == s.draws + |ts|
  {
    if ts != [] {
      var init := ts[..|ts| - 1];
      assert AllNameEdges(s.edgeData.Keys, init) by {
        forall i | 0 <= i < |init| ensures NamesEdge(s.edgeData.Keys, init[i]) {
          assert init[i] == ts[i];
        }
      }
      GiveEdgeEachDraws(s, init, kw, call);
      GiveEdgeEachFrame(s, init, kw, call);
      GiveEdgeStep(GiveEdgeEach(s, init, kw, call), ts[|ts| - 1], kw, call);
    }
  }

  /** An edge that no tuple names keeps its dictionary. */
  lemma {:induction false} GiveEdgeEachOther(s: GraphState, ts: seq<EdgeTuple>, kw: Kwargs, call: Oracle, e: Edge)
    requires e in s.edgeData && forall i :: 0 <= i < |ts| ==> AsEdge(ts[i]) != Some(e)
    ensures var r := GiveEdgeEach(s, ts, kw, call);
      e in r.edgeData && r.edgeData[e] == s.edgeData[e]
  {
    if ts != [] {
      var init := ts[..|ts| - 1];
      assert forall i :: 0 <= i < |init| ==> init[i] == ts[i];
      GiveEdgeEachOther(s, init, kw, call, e);
      GiveEdgeStep(GiveEdgeEach(s, init, kw, call), ts[|ts| - 1], kw, call);
    }
  }

  /** One tuple naming an edge, given a parsable keyword set, has only that
      edge's dictionary extended. */
  lemma GiveEdgeLast(p: GraphState, t: EdgeTuple, kw: Kwargs, call: Oracle)
    requires Resolvable(kw) && NamesEdge(p.edgeData.Keys, t)
    ensures var r := GiveEdge(p, t, kw, call);
      var e := AsEdge(t).value;
      r.edgeData == p.edgeData[e := p.edgeData[e] + ParseKwargs(kw, call, p.draws).value]
  {
    GiveEdgeStep(p, t, kw, call);
  }

  lemma GiveEdgeKeep(p: GraphState, t: EdgeTuple, kw: Kwargs, call: Oracle, e: Edge)
    requires e in p.edgeData && AsEdge(t) != Some(e)
    ensures var r := GiveEdge(p, t, kw, call);
      e in r.edgeData && r.edgeData[e] == p.edgeData[e]
  {
    GiveEdgeStep(p, t, kw, call);
  }

  /** A tuple naming an edge no earlier tuple names receives the parse made
      after the earlier tuples' draws. */
  lemma GiveEdgeEachAtLast(s: GraphState, init: seq<EdgeTuple>, last: EdgeTuple, e: Edge, kw: Kwargs, call: Oracle)
    requires Resolvable(kw) && AllNameEdges(s.edgeData.Keys, init) && AsEdge(last) == Some(e) && e in s.edgeData
    requires forall j :: 0 <= j < |init| ==> AsEdge(init[j]) != Some(e)
    ensures var r := GiveEdge(GiveEdgeEach(s, init, kw, call), last, kw, call);
      e in r.edgeData && r.edgeData[e] == s.edgeData[e] + ParseKwargs(kw, call, s.draws + |init|).value
  {
    var p := GiveEdgeEach(s, init, kw, call);
    GiveEdgeEachDraws(s, init, kw, call);
    GiveEdgeEachOther(s, init, kw, call, e);
    GiveEdgeAfter(p, s, last, e, kw, call, s.draws + |init|);
  }

  lemma GiveEdgeAfter(p: GraphState, s: GraphState, t: EdgeTuple, e: Edge, kw: Kwargs, call: Oracle, d: nat)
    requires Resolvable(kw) && AsEdge(t) == Some(e)
    requires e in p.edgeData && e in s.edgeData && p.edgeData[e] == s.edgeData[e]
    requires p.draws == d
    ensures var r := GiveEdge(p, t, kw, call);
      e in r.edgeData && r.edgeData[e] == s.edgeData[e] + ParseKwargs(kw, call, d).value
  {
    GiveEdgeLast(p, t, kw, call);
  }

  /** The `i`-th of tuples naming distinct edges receives the parse made at
      draw `draws + i`. */
  lemma {:induction false} GiveEdgeEachAt(s: GraphState, ts: seq<EdgeTuple>, kw: Kwargs, call: Oracle, i: nat, e: Edge)
    requires Resolvable(kw) && AllNameEdges(s.edgeData.Keys, ts) && DistinctEdges(ts)
    requires i < |ts| && AsEdge(ts[i]) == Some(e)
    ensures var r := GiveEdgeEach(s, ts, kw, call);
      e in r.edgeData && r.edgeData[e] == s.edgeData[e] + ParseKwargs(kw, call, s.draws + i).value
  {
    var init := ts[..|ts| - 1];
    var last := ts[|ts| - 1];
    assert forall j :: 0 <= j < |init| ==> init[j] == ts[j];
    assert AllNameEdges(s.edgeData.Keys, init);
    var p := GiveEdgeEach(s, init, kw, call);
    assert GiveEdgeEach(s, ts, kw, call) == GiveEdge(p, last, kw, call);
    if i < |ts| - 1 {
      assert AsEdge(last) != Some(e);
      assert DistinctEdges(init);
      GiveEdgeEachFrame(s, init, kw, call);
      GiveEdgeKeep(p, last, kw, call, e);
      GiveEdgeEachAt(s, init, kw, call, i, e);
    } else {
      assert |init| == i && last == ts[i];
      GiveEdgeEachAtLast(s, init, last, e, kw, call);
    }
  }

  /** Deferred values are resolved once per target edge: the `i`-th of
      tuples naming distinct edges receives the parse made at draw
      `draws + i`, the draw count grows by the number of tuples, and every
      edge no tuple names keeps its dictionary. */
  lemma GiveEdgeEachPerTarget(s: GraphState, ts: seq<EdgeTuple>, kw: Kwargs, call: Oracle)
    requires Resolvable(kw) && AllNameEdges(s.edgeData.Keys, ts) && DistinctEdges(ts)
    ensures var r := GiveEdgeEach(s, ts, kw, call);
      && r.edgeData.Keys == s.edgeData.Keys
      && r.draws == s.draws + |ts|
      && (forall i :: 0 <= i < |ts| ==>
            var e := AsEdge(ts[i]).value;
            r.edgeData[e] == s.edgeData[e] + ParseKwargs(kw, call, s.draws + i).value)
      && (forall e :: e in s.edgeData && (forall i :: 0 <= i < |ts| ==> AsEdge(ts[i]) != Some(e)) ==>
            r.edgeData[e] == s.edgeData[e])
  {
    GiveEdgeEachFrame(s, ts, kw, call);
    GiveEdgeEachDraws(s, ts, kw, call);
    forall i | 0 <= i < |ts| {
      GiveEdgeEachAt(s, ts, kw, call, i, AsEdge(ts[i]).value);
    }
    forall e | e in s.edgeData && (forall i :: 0 <= i < |ts| ==> AsEdge(ts[i]) != Some(e)) {
      GiveEdgeEachOther(s, ts, kw, call, e);
    }
  }

  function EdgeReach(keys: set<Edge>, ts: seq<EdgeTuple>, kw: Kwargs): (r: nat)
    ensures r <= |ts|
  {
    if Resolvable(kw) then FirstNotEdge(keys, ts) else 0
  }

  /** One more tuple naming an edge, with a parsable keyword set, extends
      that edge's dictionary by one parse and takes one draw. */
  lemma GiveEdgeEachExtend(s0: GraphState, ts: seq<EdgeTuple>, i: nat, kw: Kwargs, call: Oracle, pre: GraphState)
    requires i < |ts| && pre == GiveEdgeEach(s0, ts[..i], kw, call)
    requires Resolvable(kw) && NamesEdge(pre.edgeData.Keys, ts[i])
    ensures GiveEdgeEach(s0, ts[..i + 1], kw, call) ==
      pre.(edgeData := pre.edgeData[AsEdge(ts[i]).value :=
                         pre.edgeData[AsEdge(ts[i]).value] + ParseKwargs(kw, call, pre.draws).value],
           draws := pre.draws + 1)
  {
    GiveEdgeEachSnoc(s0, ts, i, kw, call);
    GiveEdgeStep(pre, ts[i], kw, call);
  }

  /** The keyword loop of `give_edges`: each target tuple in turn receives its
      own parse of `kw`; it fails at the first tuple that names no edge, or at
      once when `kw` cannot be parsed. */
  method GiveEdgeKeywords(g: MultiDiGraph, ts: seq<EdgeTuple>, kw: Kwargs, call: Oracle) returns (ok: bool)
    modifies g
    ensures ok <==> (ts == [] || Resolvable(kw)) && FirstNotEdge(old(g.edgeData).Keys, ts) == |ts|
    ensures g.State() == GiveEdgeEach(old(g.State()), ts[..EdgeReach(old(g.edgeData).Keys, ts, kw)], kw, call)
  {
    ghost var s0 := g.State();
    ghost var stop := EdgeReach(s0.edgeData.Keys, ts, kw);
    ok := true;
    var i := 0;
    while i < |ts|
      invariant i <= stop && i <= |ts|
      invariant g.State() == GiveEdgeEach(s0, ts[..i], kw, call)
      invariant g.edgeData.Keys == s0.edgeData.Keys
    {
      var e := AsEdge(ts[i]);
      var a := ParseKwargs(kw, call, g.draws);
      if e.None? || e.value !in g.edgeData || a.None? {
        assert stop == i;
        ok := false;
        break;
      }
      GiveEdgeEachExtend(s0, ts, i, kw, call, g.State());
      g.edgeData := g.edgeData[e.value := g.edgeData[e.value] + a.value];
      g.draws := g.draws + 1;
      i := i + 1;
    }
    assert ok ==> ts[..i] == ts;
  }


  /** The `data` loop of `give_edges`: every entry that names an edge and
      parses is merged into it, every other entry is skipped. */
  method GiveEdgeData(g: MultiDiGraph, data: seq<(EdgeTuple, Kwargs)>, call: Oracle)
    modifies g
    ensures g.State() == GiveEdgeEntries(old(g.State()), data, call)
  {
    ghost var s0 := g.State();
    for i := 0 to |data|
      invariant g.State() == GiveEdgeEntries(s0, data[..i], call)
    {
      var (k, v) := data[i];
      assert data[..i + 1][..i] == data[..i];
      GiveEdgeStep(g.State(), k, v, call);
      var e := AsEdge(k);
      if e.Some? && e.value in g.edgeData {
        var a := ParseKwargs(v, call, g.draws);
        if a.Some? {
          g.edgeData := g.edgeData[e.value := g.edgeData[e.value] + a.value];
          g.draws := g.draws + 1;
        }
      }
    }
    assert data[..|data|] == data;
  }

  /** `give_edges(g, data, edges, **kwargs)`. The targets (`edges`, or every
      edge) are normalised as by `parse_edges`; the keyword set is parsed anew
      for each target, and a target that names no edge, or an unparsable
      keyword set, is a failure. Every entry of `data` that names an edge and
      parses is merged into it; every other entry is skipped, since the source
      swallows all errors there. */
  method GiveEdges(g: MultiDiGraph, data: seq<(EdgeTuple, Kwargs)>, edges: Option<seq<EdgeTuple>>,
                   kw: Kwargs, call: Oracle) returns (ok: bool)
    modifies g
    ensures var s0 := old(g.State());
      var ts := NormalizeAll(if edges.Some? then edges.value else EdgeTuples(s0.edges), Int(0));
      var kwOk := kw == map[] || ((ts == [] || Resolvable(kw)) && FirstNotEdge(s0.edgeData.Keys, ts) == |ts|);
      var s1 := if kw == map[] then s0 else GiveEdgeEach(s0, ts, kw, call);
      && ok == kwOk
      && (!kwOk ==> g.State() == GiveEdgeEach(s0, ts[..EdgeReach(s0.edgeData.Keys, ts, kw)], kw, call))
      && (kwOk ==> g.State() == GiveEdgeEntries(s1, data, call))
  {
    ghost var s0 := g.State();
    var given := if edges.Some? then edges.value else EdgeTuples(g.edges);
    var ts := ParseEdges(Collection(given), Int(0));
    ok := true;
    if kw != map[] {
      ok := GiveEdgeKeywords(g, ts, kw, call);
      if !ok {
        return;
      }
      assert ts[..|ts|] == ts;
    }
    GiveEdgeData(g, data, call);
  }
}

=== FILE: graph.dfy ===
/** The directed multigraph the graph functions operate on, reduced to what
    they use: an ordered sequence of distinct nodes, an ordered sequence of
    `(source, target, key)` edges, an attribute dictionary per node and per
    edge, and the graph-level fields `mapping`, `inverse_mapping` and
    `sorting`. The container operations below are the few the core calls
    (add a node, add an edge with or without a key, remove an edge, clear). */
module Graph {
  import opened Values
  import opened Assoc

  /** The whole observable state of a graph, as a value. `draws` counts the
      keyword parses made so far; it stands for the state of the random stream
      that deferred callables draw from. */
  datatype GraphState = GraphState(
    nodes: seq<Value>,
    nodeData: map<Value, Attrs>,
    edges: seq<Edge>,
    edgeData: map<Edge, Attrs>,
    mapping: Option<Assoc<Value, Value>>,
    inverseMapping: Option<Assoc<Value, Value>>,
    sorting: Option<map<Value, set<Value>>>,
    draws: nat)

  /** A graph with no nodes, no edges and no graph-level fields. */
  function EmptyGraph(): GraphState
  {
    GraphState([], map[], [], map[], None, None, None, 0)
  }

  /** The container's invariant: nodes and edge triples are listed once each,
      the attribute dictionaries are exactly those of the listed nodes and
      edges, and every edge joins two nodes of the graph. */
  ghost predicate WellFormed(s: GraphState)
  {
    && Distinct(s.nodes)
    && Elems(s.nodes) == s.nodeData.Keys
    && Distinct(s.edges)
    && Elems(s.edges) == s.edgeData.Keys
    && forall e :: e in s.edgeData ==> e.u in s.nodeData && e.v in s.nodeData
  }

  /** `add_node(n)`: appends `n` with an empty dictionary unless present. */
  function WithNode(s: GraphState, n: Value): GraphState
  {
    if n in s.nodeData then s
    else s.(nodes := s.nodes + [n], nodeData := s.nodeData[n := map[]])
  }

  /** `add_nodes_from([(n, attrs)])`: a new node gets a copy of `attrs`, an
      existing one has `attrs` merged into its dictionary. */
  function WithNodeData(s: GraphState, n: Value, attrs: Attrs): GraphState
  {
    if n in s.nodeData then s.(nodeData := s.nodeData[n := s.nodeData[n] + attrs])
    else s.(nodes := s.nodes + [n], nodeData := s.nodeData[n := attrs])
  }

  /** The keys of the edges from `u` to `v` among `edges`. */
  function KeysBetween(edges: set<Edge>, u: Value, v: Value): set<Value>
  {
    set e | e in edges && e.u == u && e.v == v :: e.key
  }

  lemma KeysBetweenMember(edges: set<Edge>, u: Value, v: Value, k: Value)
    ensures k in KeysBetween(edges, u, v) <==> Edge(u, v, k) in edges
  {
    if Edge(u, v, k) in edges {
      var e := Edge(u, v, k);
      assert e.key in KeysBetween(edges, u, v);
    }
  }

  /** The integer keys at or above `k`. */
  function IntsFrom(keys: set<Value>, k: int): set<Value>
  {
    set x | x in keys && x.Int? && x.i >= k
  }

  lemma IntsFromShrinks(keys: set<Value>, k: int)
    requires Int(k) in keys
    ensures |IntsFrom(keys, k + 1)| < |IntsFrom(keys, k)|
  {
    assert IntsFrom(keys, k) == IntsFrom(keys, k + 1) + {Int(k)};
  }

  /** The first integer at or above `k` that is not a key. */
  function FreeFrom(keys: set<Value>, k: int): (r: int)
    ensures r >= k && Int(r) !in keys
    ensures forall j :: k <= j < r ==> Int(j) in keys
    decreases |IntsFrom(keys, k)|
  {
    if Int(k) in keys then
      IntsFromShrinks(keys, k);
      FreeFrom(keys, k + 1)
    else k
  }

  /** networkx's `new_edge_key(u, v)`: start at the number of existing keys
      between `u` and `v` and step up past every integer already taken. */
  function NewEdgeKey(data: map<Edge, Attrs>, u: Value, v: Value): (k: int)
    ensures Edge(u, v, Int(k)) !in data
  {
    var k := FreeFrom(KeysBetween(data.Keys, u, v), |KeysBetween(data.Keys, u, v)|);
    KeysBetweenMember(data.Keys, u, v, Int(k));
    k
  }

  /** `add_edge(u, v, **attrs)` without a key: adds missing endpoints (source
      first) and a new edge under a fresh key. */
  function WithEdge(s: GraphState, u: Value, v: Value, attrs: Attrs): GraphState
  {
    var s1 := WithNode(WithNode(s, u), v);
    var e := Edge(u, v, Int(NewEdgeKey(s1.edgeData, u, v)));
    s1.(edges := s1.edges + [e], edgeData := s1.edgeData[e := attrs])
  }

  /** `add_edge(u, v, key, **attrs)`: an existing triple has `attrs` merged
      into its dictionary, a new one is appended with a copy of `attrs`. */
  function WithKeyedEdge(s: GraphState, e: Edge, attrs: Attrs): GraphState
  {
    var s1 := WithNode(WithNode(s, e.u), e.v);
    if e in s1.edgeData then s1.(edgeData := s1.edgeData[e := s1.edgeData[e] + attrs])
    else s1.(edges := s1.edges + [e], edgeData := s1.edgeData[e := attrs])
  }

  /** The sequence without any occurrence of `e`. */
  function Without(es: seq<Edge>, e: Edge): (r: seq<Edge>)
    ensures Elems(r) == Elems(es) - {e}
    ensures |r| <= |es|
  {
    if es == [] then []
    else if es[0] == e then Without(es[1..], e)
    else
      var r := [es[0]] + Without(es[1..], e);
      assert Elems(r) == {es[0]} + Elems(Without(es[1..], e));
      assert Elems(es) == {es[0]} + Elems(es[1..]);
      r
  }

  /** `remove_edge(u, v, key)`. */
  function WithoutEdge(s: GraphState, e: Edge): GraphState
  {
    s.(edges := Without(s.edges, e), edgeData := s.edgeData - {e})
  }

  /** `clear()`: all nodes and edges go; the graph-level fields stay. */
  function Cleared(s: GraphState): GraphState
  {
    s.(nodes := [], nodeData := map[], edges := [], edgeData := map[])
  }

  lemma WithNodeFacts(s: GraphState, n: Value)
    requires WellFormed(s)
    ensures var r := WithNode(s, n);
      && WellFormed(r)
      && r.nodes == s.nodes + (if n in s.nodeData then [] else [n])
      && r.edges == s.edges && r.edgeData == s.edgeData
      && (forall m :: m in s.nodeData ==> m in r.nodeData && r.nodeData[m] == s.nodeData[m])
  {
    if n !in s.nodeData {
      var r := WithNode(s, n);
      assert Elems(r.nodes) == Elems(s.nodes) + {n};
    }
  }

  /** Adding a new keyed triple between present nodes appends it. */
  lemma KeyedEdgeAppend(s: GraphState, e: Edge, attrs: Attrs)
    requires e.u in s.nodeData && e.v in s.nodeData && e !in s.edgeData
    ensures WithKeyedEdge(s, e, attrs) == s.(edges := s.edges + [e], edgeData := s.edgeData[e := attrs])
  {
  }

  /** The triple `add_edge(u, v)` appends. */
  function NewEdge(s: GraphState, u: Value, v: Value): Edge
  {
    Edge(u, v, Int(NewEdgeKey(WithNode(WithNode(s, u), v).edgeData, u, v)))
  }

  /** Adding an edge without a key always appends exactly one new triple
      from `u` to `v` carrying `attrs`, adds only the missing endpoints and
      leaves every existing edge and its dictionary as it was. */
  lemma WithEdgeFacts(s: GraphState, u: Value, v: Value, attrs: Attrs)
    requires WellFormed(s)
    ensures NewEdge(s, u, v) !in s.edgeData
    ensures WithEdge(s, u, v, attrs) == WithNode(WithNode(s, u), v).(edges := s.edges + [NewEdge(s, u, v)],
                                          edgeData := s.edgeData[NewEdge(s, u, v) := attrs])
  {
    WithNodeFacts(s, u);
    WithNodeFacts(WithNode(s, u), v);
    var s1 := WithNode(WithNode(s, u), v);
    assert s1.edgeData == s.edgeData && s1.edges == s.edges;
  }

  /** Appending a new triple between present nodes keeps a graph well formed. */
  lemma AppendEdgeWellFormed(s: GraphState, e: Edge, attrs: Attrs)
    requires WellFormed(s) && e.u in s.nodeData && e.v in s.nodeData && e !in s.edgeData
    ensures WellFormed(s.(edges := s.edges + [e], edgeData := s.edgeData[e := attrs]))
  {
    ElemsAppend(s.edges, e);
    var es := s.edges + [e];
    forall i, j | 0 <= i < j < |es| ensures es[i] != es[j] {
      assert es[i] == s.edges[i] && s.edges[i] in Elems(s.edges);
      if j < |s.edges| {
        assert es[j] == s.edges[j];
      }
    }
  }

  /** ... so the graph stays well formed. */
  lemma WithEdgeWellFormed(s: GraphState, u: Value, v: Value, attrs: Attrs)
    requires WellFormed(s)
    ensures WellFormed(WithEdge(s, u, v, attrs))
  {
    WithEdgeFacts(s, u, v, attrs);
    WithNodeFacts(s, u);
    WithNodeFacts(WithNode(s, u), v);
    var s1 := WithNode(WithNode(s, u), v);
    AppendEdgeWellFormed(s1, NewEdge(s, u, v), attrs);
  }

  /** `add_nodes_from(ns)`: each node in turn. */
  function WithNodes(s: GraphState, ns: seq<Value>): GraphState
  {
    if ns == [] then s else WithNode(WithNodes(s, ns[..|ns| - 1]), ns[|ns| - 1])
  }

  /** After `add_nodes_from(ns)` the nodes are the old ones and those of `ns`. */
  lemma {:induction false} WithNodesMembers(s: GraphState, ns: seq<Value>)
    ensures WithNodes(s, ns).nodeData.Keys == s.nodeData.Keys + Elems(ns)
  {
    if ns != [] {
      WithNodesMembers(s, ns[..|ns| - 1]);
      ElemsInit(ns);
    }
  }

  /** Adding distinct new nodes appends them, each with an empty dictionary. */
  lemma {:induction false} WithNodesFresh(s: GraphState, ns: seq<Value>)
    requires WellFormed(s) && Distinct(ns)
    requires forall n :: n in ns ==> n !in s.nodeData
    ensures var r := WithNodes(s, ns);
      && WellFormed(r)
      && r == s.(nodes := s.nodes + ns, nodeData := r.nodeData)
      && (forall n :: n in s.nodeData ==> r.nodeData[n] == s.nodeData[n])
      && (forall n :: n in ns ==> r.nodeData[n] == map[])
  {
    if ns != [] {
      var init := ns[..|ns| - 1];
      InitDistinct(ns);
      WithNodesFresh(s, init);
      var p := WithNodes(s, init);
      assert ns[|ns| - 1] !in p.nodeData by {
        WithNodesMembers(s, init);
      }
      WithNodeFacts(p, ns[|ns| - 1]);
      AppendInit(s.nodes, ns);
    }
  }

  /** `add_edges_from` of `(u, v)` pairs, each edge with a copy of `attrs`. */
  function WithEdges(s: GraphState, ps: seq<(Value, Value)>, attrs: Attrs): GraphState
  {
    if ps == [] then s
    else WithEdge(WithEdges(s, ps[..|ps| - 1], attrs), ps[|ps| - 1].0, ps[|ps| - 1].1, attrs)
  }

  /** Every existing edge keeps its dictionary. */
  ghost predicate Extends(s: GraphState, r: GraphState)
  {
    forall e :: e in s.edgeData ==> e in r.edgeData && r.edgeData[e] == s.edgeData[e]
  }

  /** Adding edges between present nodes keeps the graph well formed, keeps
      the nodes, and only appends edges. */
  lemma {:induction false} WithEdgesFrame(s: GraphState, ps: seq<(Value, Value)>, attrs: Attrs)
    requires WellFormed(s)
    requires forall i :: 0 <= i < |ps| ==> ps[i].0 in s.nodeData && ps[i].1 in s.nodeData
    ensures var r := WithEdges(s, ps, attrs);
      && WellFormed(r)
      && r == s.(edges := r.edges, edgeData := r.edgeData)
      && |r.edges| == |s.edges| + |ps|
      && r.edges[..|s.edges|] == s.edges
      && Extends(s, r)
  {
    if ps != [] {
      var init := ps[..|ps| - 1];
      var last := ps[|ps| - 1];
      WithEdgesFrame(s, init, attrs);
      var p := WithEdges(s, init, attrs);
      WithEdgeFacts(p, last.0, last.1, attrs);
      WithEdgeWellFormed(p, last.0, last.1, attrs);
      var r := WithEdges(s, ps, attrs);
      assert r.edges[..|s.edges|] == p.edges[..|s.edges|];
    }
  }

  /** Adding edges, with or without their endpoints, keeps the graph well
      formed ... */
  lemma {:induction false} WithEdgesWellFormed(s: GraphState, ps: seq<(Value, Value)>, attrs: Attrs)
    requires WellFormed(s)
    ensures WellFormed(WithEdges(s, ps, attrs))
  {
    if ps != [] {
      WithEdgesWellFormed(s, ps[..|ps| - 1], attrs);
      WithEdgeWellFormed(WithEdges(s, ps[..|ps| - 1], attrs), ps[|ps| - 1].0, ps[|ps| - 1].1, attrs);
    }
  }

  /** ... only appends edges, and keeps every existing edge dictionary. */
  lemma {:induction false} WithEdgesGrow(s: GraphState, ps: seq<(Value, Value)>, attrs: Attrs)
    requires WellFormed(s)
    ensures var r := WithEdges(s, ps, attrs);
      && r == s.(nodes := r.nodes, nodeData := r.nodeData, edges := r.edges, edgeData := r.edgeData)
      && |r.edges| == |s.edges| + |ps|
      && r.edges[..|s.edges|] == s.edges
      && Extends(s, r)
  {
    if ps != [] {
      var init := ps[..|ps| - 1];
      var last := ps[|ps| - 1];
      WithEdgesGrow(s, init, attrs);
      WithEdgesWellFormed(s, init, attrs);
      var p := WithEdges(s, init, attrs);
      WithEdgeFacts(p, last.0, last.1, attrs);
      var e := NewEdge(p, last.0, last.1);
      var r := WithEdges(s, ps, attrs);
      assert r.edges == p.edges + [e] && r.edgeData == p.edgeData[e := attrs];
      assert Extends(s, r) by {
        forall x | x in s.edgeData ensures x in r.edgeData && r.edgeData[x] == s.edgeData[x] {
          assert x in p.edgeData && x != e;
        }
      }
      assert r.edges[..|s.edges|] == p.edges[..|s.edges|];
    }
  }

  /** Nodes are only ever appended, and existing nodes keep their dictionary. */
  ghost predicate NodesKept(s: GraphState, r: GraphState)
  {
    && |r.nodes| >= |s.nodes| && r.nodes[..|s.nodes|] == s.nodes
    && forall n :: n in s.nodeData ==> n in r.nodeData && r.nodeData[n] == s.nodeData[n]
  }

  lemma WithNodeKept(s: GraphState, n: Value)
    ensures NodesKept(s, WithNode(s, n))
  {
  }

  lemma {:induction false} WithEdgesNodesKept(s: GraphState, ps: seq<(Value, Value)>, attrs: Attrs)
    ensures NodesKept(s, WithEdges(s, ps, attrs))
  {
    if ps != [] {
      var init := ps[..|ps| - 1];
      var last := ps[|ps| - 1];
      WithEdgesNodesKept(s, init, attrs);
      var p := WithEdges(s, init, attrs);
      WithNodeKept(p, last.0);
      WithNodeKept(WithNode(p, last.0), last.1);
      var r := WithEdges(s, ps, attrs);
      assert r.nodes[..|s.nodes|] == p.nodes[..|s.nodes|];
    }
  }

  lemma {:induction false} WithEdgesCount(s: GraphState, ps: seq<(Value, Value)>, attrs: Attrs)
    ensures |WithEdges(s, ps, attrs).edges| == |s.edges| + |ps|
  {
    if ps != [] {
      WithEdgesCount(s, ps[..|ps| - 1], attrs);
    }
  }

  /** ... one new triple per pair, joining that pair and carrying `attrs`:
      the `i`-th pair's triple comes `i` places after the existing edges. */
  lemma {:induction false} WithEdgesAt(s: GraphState, ps: seq<(Value, Value)>, attrs: Attrs, i: nat)
    requires WellFormed(s) && i < |ps|
    ensures var r := WithEdges(s, ps, attrs);
      && |s.edges| + i < |r.edges|
      && r.edges[|s.edges| + i].u == ps[i].0 && r.edges[|s.edges| + i].v == ps[i].1
      && r.edges[|s.edges| + i] !in s.edgeData && r.edges[|s.edges| + i] in r.edgeData
      && r.edgeData[r.edges[|s.edges| + i]] == attrs
  {
    var init := ps[..|ps| - 1];
    var last := ps[|ps| - 1];
    var p := WithEdges(s, init, attrs);
    WithEdgesWellFormed(s, init, attrs);
    WithEdgeFacts(p, last.0, last.1, attrs);
    var e := NewEdge(p, last.0, last.1);
    var r := WithEdges(s, ps, attrs);
    assert r.edges == p.edges + [e] && r.edgeData == p.edgeData[e := attrs];
    WithEdgesGrow(s, init, attrs);
    if i < |ps| - 1 {
      WithEdgesAt(s, init, attrs, i);
      assert ps[i] == init[i] && r.edges[|s.edges| + i] == p.edges[|s.edges| + i];
    } else {
      assert r.edges[|s.edges| + i] == e;
    }
  }

  lemma WithEdgesFacts(s: GraphState, ps: seq<(Value, Value)>, attrs: Attrs)
    requires WellFormed(s)
    ensures var r := WithEdges(s, ps, attrs);
      |r.edges| == |s.edges| + |ps|
      && forall j :: |s.edges| <= j < |r.edges| ==>
           && r.edges[j].u == ps[j - |s.edges|].0 && r.edges[j].v == ps[j - |s.edges|].1
           && r.edges[j] !in s.edgeData && r.edges[j] in r.edgeData && r.edgeData[r.edges[j]] == attrs
  {
    WithEdgesCount(s, ps, attrs);
    var r := WithEdges(s, ps, attrs);
    forall j | |s.edges| <= j < |r.edges|
      ensures && r.edges[j].u == ps[j - |s.edges|].0 && r.edges[j].v == ps[j - |s.edges|].1
              && r.edges[j] !in s.edgeData && r.edges[j] in r.edgeData && r.edgeData[r.edges[j]] == attrs
    {
      WithEdgesAt(s, ps, attrs, j - |s.edges|);
    }
  }

  /** `add_edges_from(ps)` on a graph without edges: the edges are exactly
      one triple per pair, in order. */
  lemma WithEdgesOnNodes(s: GraphState, ps: seq<(Value, Value)>, attrs: Attrs)
    requires WellFormed(s) && s.edges == []
    requires forall i :: 0 <= i < |ps| ==> ps[i].0 in s.nodeData && ps[i].1 in s.nodeData
    ensures var r := WithEdges(s, ps, attrs);
      && WellFormed(r) && r.nodes == s.nodes && r.nodeData == s.nodeData && |r.edges| == |ps|
      && forall i :: 0 <= i < |ps| ==>
           r.edges[i].u == ps[i].0 && r.edges[i].v == ps[i].1 && r.edgeData[r.edges[i]] == attrs
  {
    WithEdgesFrame(s, ps, attrs);
    var r := WithEdges(s, ps, attrs);
    forall i | 0 <= i < |ps|
      ensures r.edges[i].u == ps[i].0 && r.edges[i].v == ps[i].1 && r.edgeData[r.edges[i]] == attrs
    {
      WithEdgesAt(s, ps, attrs, i);
      assert |s.edges| + i == i;
    }
  }

  /** The sources of `es`, in order. */
  function Sources(es: seq<Edge>): (r: seq<Value>)
    ensures |r| == |es| && forall i :: 0 <= i < |es| ==> r[i] == es[i].u
  {
    seq(|es|, i requires 0 <= i < |es| => es[i].u)
  }

  /** `g.out_degree(n)`: the number of edges leaving `n`. */
  function OutDegree(s: GraphState, n: Value): nat
  {
    multiset(Sources(s.edges))[n]
  }

  /** `nx.add_path(g, path, **attrs)`: the first node, then one new edge per
      consecutive pair, in order, each with a copy of `attrs`; an empty path
      changes nothing. */
  function WithPath(s: GraphState, path: seq<Value>, attrs: Attrs): GraphState
  {
    if path == [] then s
    else if |path| == 1 then WithNode(s, path[0])
    else WithEdge(WithPath(s, path[..|path| - 1], attrs), path[|path| - 2], path[|path| - 1], attrs)
  }

  lemma WithPathSnoc(s: GraphState, path: seq<Value>, attrs: Attrs, i: nat)
    requires 1 <= i < |path|
    ensures WithPath(s, path[..i + 1], attrs) == WithEdge(WithPath(s, path[..i], attrs), path[i - 1], path[i], attrs)
  {
    var p := path[..i + 1];
    assert p[..|p| - 1] == path[..i];
    assert p[|p| - 2] == path[i - 1] && p[|p| - 1] == path[i];
    WithPathLast(s, p, attrs);
  }

  lemma WithPathLast(s: GraphState, p: seq<Value>, attrs: Attrs)
    requires |p| >= 2
    ensures WithPath(s, p, attrs) == WithEdge(WithPath(s, p[..|p| - 1], attrs), p[|p| - 2], p[|p| - 1], attrs)
  {
  }

  lemma WithEdgeNodeKeys(s: GraphState, u: Value, v: Value, attrs: Attrs)
    ensures WithEdge(s, u, v, attrs).nodeData.Keys == s.nodeData.Keys + {u, v}
    ensures u in s.nodeData && v !in s.nodeData ==>
      && WithEdge(s, u, v, attrs).nodes == s.nodes + [v]
      && WithEdge(s, u, v, attrs).nodeData == s.nodeData[v := map[]]
  {
  }

  /** An edge added to a graph that extends `s` leaves it extending `s`. */
  lemma EdgeGrow(s: GraphState, p: GraphState, u: Value, v: Value, attrs: Attrs)
    requires WellFormed(p)
    requires p == s.(nodes := p.nodes, nodeData := p.nodeData, edges := p.edges, edgeData := p.edgeData)
    requires |p.edges| >= |s.edges| && p.edges[..|s.edges|] == s.edges && Extends(s, p)
    ensures var r := WithEdge(p, u, v, attrs);
      && r == s.(nodes := r.nodes, nodeData := r.nodeData, edges := r.edges, edgeData := r.edgeData)
      && |r.edges| >= |s.edges| && r.edges[..|s.edges|] == s.edges
      && Extends(s, r)
  {
    WithEdgeFacts(p, u, v, attrs);
    var e := NewEdge(p, u, v);
    var r := WithEdge(p, u, v, attrs);
    assert r.edges == p.edges + [e] && r.edgeData == p.edgeData[e := attrs];
    assert Extends(s, r) by {
      forall y | y in s.edgeData ensures y in r.edgeData && r.edgeData[y] == s.edgeData[y] {
        assert y in p.edgeData && y != e;
      }
    }
    assert r.edges[..|s.edges|] == p.edges[..|s.edges|];
  }

  /** A path's nodes are all present afterwards, and no others are added. */
  lemma {:induction false} WithPathMembers(s: GraphState, path: seq<Value>, attrs: Attrs)
    ensures WithPath(s, path, attrs).nodeData.Keys == s.nodeData.Keys + Elems(path)
  {
    if |path| == 1 {
      assert Elems(path) == {path[0]};
    } else if |path| > 1 {
      var q := path[..|path| - 1];
      WithPathMembers(s, q, attrs);
      WithEdgeNodeKeys(WithPath(s, q, attrs), path[|path| - 2], path[|path| - 1], attrs);
      ElemsInit(path);
    }
  }

  /** A path that starts at a node and continues through distinct new nodes
      appends those nodes ... */
  lemma {:induction false} WithPathFresh(s: GraphState, path: seq<Value>, attrs: Attrs)
    requires path != [] && path[0] in s.nodeData && Distinct(path)
    requires forall i :: 1 <= i < |path| ==> path[i] !in s.nodeData
    ensures WithPath(s, path, attrs).nodes == s.nodes + path[1..]
    ensures WithPath(s, path, attrs).nodeData.Keys == s.nodeData.Keys + Elems(path)
  {
    WithPathMembers(s, path, attrs);
    if |path| == 1 {
      assert WithNode(s, path[0]) == s;
    } else {
      var q := path[..|path| - 1];
      InitDistinct(path);
      WithPathFresh(s, q, attrs);
      var p := WithPath(s, q, attrs);
      assert path[|path| - 2] in p.nodeData && path[|path| - 1] !in p.nodeData by {
        ElemsInit(path);
      }
      WithEdgeNodeKeys(p, path[|path| - 2], path[|path| - 1], attrs);
      TailSnoc(s.nodes, path);
    }
  }

  /** ... each with an empty dictionary. */
  lemma {:induction false} WithPathFreshData(s: GraphState, path: seq<Value>, attrs: Attrs)
    requires path != [] && path[0] in s.nodeData && Distinct(path)
    requires forall i :: 1 <= i < |path| ==> path[i] !in s.nodeData
    ensures forall i :: 1 <= i < |path| ==>
      path[i] in WithPath(s, path, attrs).nodeData && WithPath(s, path, attrs).nodeData[path[i]] == map[]
  {
    if |path| > 1 {
      var q := path[..|path| - 1];
      InitDistinct(path);
      WithPathFreshData(s, q, attrs);
      WithPathFresh(s, q, attrs);
      var p := WithPath(s, q, attrs);
      assert path[|path| - 2] in p.nodeData && path[|path| - 1] !in p.nodeData by {
        ElemsInit(path);
      }
      assert forall i :: 1 <= i < |path| - 1 ==> path[i] == q[i];
      FreshDataStep(p, path, attrs);
      WithPathLast(s, path, attrs);
    }
  }

  lemma FreshDataStep(p: GraphState, path: seq<Value>, attrs: Attrs)
    requires |path| >= 2 && Distinct(path)
    requires forall i :: 1 <= i < |path| - 1 ==> path[i] in p.nodeData && p.nodeData[path[i]] == map[]
    requires path[|path| - 2] in p.nodeData && path[|path| - 1] !in p.nodeData
    ensures forall i :: 1 <= i < |path| ==>
      && path[i] in WithEdge(p, path[|path| - 2], path[|path| - 1], attrs).nodeData
      && WithEdge(p, path[|path| - 2], path[|path| - 1], attrs).nodeData[path[i]] == map[]
  {
    var a, b := path[|path| - 2], path[|path| - 1];
    WithEdgeNodeKeys(p, a, b, attrs);
    var r := WithEdge(p, a, b, attrs);
    assert r.nodeData == p.nodeData[b := map[]];
  }

  /** A path keeps the graph well formed ... */
  lemma {:induction false} WithPathWellFormed(s: GraphState, path: seq<Value>, attrs: Attrs)
    requires WellFormed(s)
    ensures WellFormed(WithPath(s, path, attrs))
  {
    if |path| == 1 {
      WithNodeFacts(s, path[0]);
    } else if |path| > 1 {
      var q := path[..|path| - 1];
      WithPathWellFormed(s, q, attrs);
      WithEdgeWellFormed(WithPath(s, q, attrs), path[|path| - 2], path[|path| - 1], attrs);
    }
  }

  /** A path through nodes that are all present adds no node. */
  lemma {:induction false} WithPathPresent(s: GraphState, path: seq<Value>, attrs: Attrs)
    requires forall i :: 0 <= i < |path| ==> path[i] in s.nodeData
    ensures WithPath(s, path, attrs).nodes == s.nodes
    ensures WithPath(s, path, attrs).nodeData == s.nodeData
  {
    if |path| > 1 {
      var q := path[..|path| - 1];
      assert forall i :: 0 <= i < |q| ==> q[i] == path[i];
      WithPathPresent(s, q, attrs);
      assert path[|path| - 2] in s.nodeData && path[|path| - 1] in s.nodeData;
    }
  }

  /** ... only appends edges and keeps every existing edge dictionary ... */
  lemma {:induction false} WithPathGrow(s: GraphState, path: seq<Value>, attrs: Attrs)
    requires WellFormed(s)
    ensures var r := WithPath(s, path, attrs);
      && r == s.(nodes := r.nodes, nodeData := r.nodeData, edges := r.edges, edgeData := r.edgeData)
      && |r.edges| >= |s.edges| && r.edges[..|s.edges|] == s.edges
      && Extends(s, r)
  {
    if |path| == 1 {
      WithNodeFacts(s, path[0]);
    } else if |path| > 1 {
      var q := path[..|path| - 1];
      WithPathGrow(s, q, attrs);
      WithPathWellFormed(s, q, attrs);
      EdgeGrow(s, WithPath(s, q, attrs), path[|path| - 2], path[|path| - 1], attrs);
    }
  }

  lemma {:induction false} WithPathCount(s: GraphState, path: seq<Value>, attrs: Attrs)
    requires path != []
    ensures |WithPath(s, path, attrs).edges| == |s.edges| + |path| - 1
  {
    if |path| > 1 {
      WithPathCount(s, path[..|path| - 1], attrs);
    }
  }

  /** ... and adds one new edge per consecutive pair: the `i`-th pair's edge
      comes `i` places after the existing ones and carries `attrs`. */
  lemma {:induction false} WithPathAt(s: GraphState, path: seq<Value>, attrs: Attrs, i: nat)
    requires WellFormed(s) && i + 1 < |path|
    ensures var r := WithPath(s, path, attrs);
      && |s.edges| + i < |r.edges|
      && r.edges[|s.edges| + i].u == path[i] && r.edges[|s.edges| + i].v == path[i + 1]
      && r.edges[|s.edges| + i] !in s.edgeData && r.edges[|s.edges| + i] in r.edgeData
      && r.edgeData[r.edges[|s.edges| + i]] == attrs
  {
    var q := path[..|path| - 1];
    var x := path[|path| - 1];
    var p := WithPath(s, q, attrs);
    WithPathWellFormed(s, q, attrs);
    WithEdgeFacts(p, q[|q| - 1], x, attrs);
    var e := NewEdge(p, q[|q| - 1], x);
    var r := WithPath(s, path, attrs);
    assert r.edges == p.edges + [e] && r.edgeData == p.edgeData[e := attrs];
    WithPathCount(s, q, attrs);
    WithPathGrow(s, q, attrs);
    if i + 2 < |path| {
      WithPathAt(s, q, attrs, i);
      assert path[i] == q[i] && path[i + 1] == q[i + 1];
      assert r.edges[|s.edges| + i] == p.edges[|s.edges| + i];
    } else {
      assert r.edges[|s.edges| + i] == e;
    }
  }

  /** The graph as the source mutates it: the same fields as `GraphState`,
      changed in place by the operations below. */
  class MultiDiGraph {
    var nodes: seq<Value>
    var nodeData: map<Value, Attrs>
    var edges: seq<Edge>
    var edgeData: map<Edge, Attrs>
    var mapping: Option<Assoc<Value, Value>>
    var inverseMapping: Option<Assoc<Value, Value>>
    var sorting: Option<map<Value, set<Value>>>
    var draws: nat

    /** The current state, as a value. */
    function State(): GraphState
      reads this
    {
      GraphState(nodes, nodeData, edges, edgeData, mapping, inverseMapping, sorting, draws)
    }

    ghost predicate Valid()
      reads this
    {
      WellFormed(State())
    }

    /** `nx.MultiDiGraph()`. */
    constructor ()
      ensures State() == EmptyGraph() && Valid()
    {
      nodes, nodeData, edges, edgeData := [], map[], [], map[];
      mapping, inverseMapping, sorting, draws := None, None, None, 0;
    }

    method AddNode(n: Value)
      modifies this
      ensures State() == WithNode(old(State()), n)
    {
      if n !in nodeData {
        nodes := nodes + [n];
        nodeData := nodeData[n := map[]];
      }
    }

    method AddNodeData(n: Value, attrs: Attrs)
      modifies this
      ensures State() == WithNodeData(old(State()), n, attrs)
    {
      if n in nodeData {
        nodeData := nodeData[n := nodeData[n] + attrs];
      } else {
        nodes := nodes + [n];
        nodeData := nodeData[n := attrs];
      }
    }

    method AddEdge(u: Value, v: Value, attrs: Attrs)
      modifies this
      ensures State() == WithEdge(old(State()), u, v, attrs)
    {
      AddNode(u);
      AddNode(v);
      var e := Edge(u, v, Int(NewEdgeKey(edgeData, u, v)));
      edges := edges + [e];
      edgeData := edgeData[e := attrs];
    }

    method AddKeyedEdge(e: Edge, attrs: Attrs)
      modifies this
      ensures State() == WithKeyedEdge(old(State()), e, attrs)
    {
      AddNode(e.u);
      AddNode(e.v);
      if e in edgeData {
        edgeData := edgeData[e := edgeData[e] + attrs];
      } else {
        edges := edges + [e];
        edgeData := edgeData[e := attrs];
      }
    }

    /** `nx.add_path(self, path, **attrs)`. */
    method AddPath(path: seq<Value>, attrs: Attrs)
      modifies this
      ensures State() == WithPath(old(State()), path, attrs)
    {
      if path == [] {
        return;
      }
      ghost var s0 := State();
      AddNode(path[0]);
      assert |path[..1]| == 1 && path[..1][0] == path[0];
      for i := 1 to |path|
        invariant State() == WithPath(s0, path[..i], attrs)
      {
        WithPathSnoc(s0, path, attrs, i);
        AddEdge(path[i - 1], path[i], attrs);
      }
      assert path[..|path|] == path;
    }

    /** networkx refuses to remove an edge that is not there. */
    method RemoveEdge(e: Edge)
      requires e in edgeData
      modifies this
      ensures State() == WithoutEdge(old(State()), e)
    {
      edges := Without(edges, e);
      edgeData := edgeData - {e};
    }

    method Clear()
      modifies this
      ensures State() == Cleared(old(State()))
    {
      nodes, nodeData, edges, edgeData := [], map[], [], map[];
    }
  }
}

=== FILE: kwargs.dfy ===
/** Deferred keyword arguments (`parse_kwargs`, graph_functions.py:94-112).
    A keyword value written as a tuple `(f, *args)` whose first element is
    callable stands for the call `f(*args)`, made at the moment the keyword
    set is parsed. */
module Kwargs {
  import opened Values

  /** A keyword value: a plain value, or a deferred call `(fn, *args)`. */
  datatype Arg = Plain(v: Value) | Deferred(fn: string, args: seq<Value>)

  type Kwargs = map<string, Arg>

  /** What the callables return. The callables themselves (random generators,
      for one) are outside the model: `Oracle(draw, key, fn, args)` is the
      value the call `fn(*args)` for keyword `key` yields during the `draw`-th
      parse, so two parses may see different values. */
  type Oracle = (nat, string, string, seq<Value>) -> Value

  /** Parsing fails with an index error exactly when some plain value is the
      empty tuple, because the source inspects `v[0]` of every tuple. */
  predicate Resolvable(kw: Kwargs)
  {
    forall k :: k in kw ==> kw[k] != Plain(Tup([]))
  }

  function Resolve(key: string, a: Arg, call: Oracle, draw: nat): Value
  {
    match a
    case Plain(v) => v
    case Deferred(fn, args) => call(draw, key, fn, args)
  }

  /** A fresh dictionary with the same keys in which every deferred call has
      been made and every plain value is kept. */
  function ParseKwargs(kw: Kwargs, call: Oracle, draw: nat): (r: Option<Attrs>)
    ensures r.Some? <==> Resolvable(kw)
    ensures r.Some? ==> r.value.Keys == kw.Keys
    ensures r.Some? ==> forall k :: k in kw && kw[k].Plain? ==> r.value[k] == kw[k].v
    ensures r.Some? ==> forall k :: k in kw && kw[k].Deferred? ==>
                          r.value[k] == call(draw, k, kw[k].fn, kw[k].args)
  {
    if Resolvable(kw) then Some(map k | k in kw :: Resolve(k, kw[k], call, draw)) else None
  }

  /** Whether any value is deferred. */
  predicate HasDeferred(kw: Kwargs)
  {
    exists k :: k in kw && kw[k].Deferred?
  }

  /** A keyword set without deferred calls parses to the same value on every
      draw, so only deferred values can differ between targets. */
  lemma PlainParseStable(kw: Kwargs, call: Oracle, d1: nat, d2: nat)
    requires !HasDeferred(kw) && Resolvable(kw)
    ensures ParseKwargs(kw, call, d1) == ParseKwargs(kw, call, d2)
  {
    var r1, r2 := ParseKwargs(kw, call, d1).value, ParseKwargs(kw, call, d2).value;
    forall k | k in kw ensures r1[k] == r2[k] {
      assert !kw[k].Deferred?;
    }
    assert r1 == r2;
  }
}

=== FILE: parse.dfy ===
/** Edge and length normalisation (`parse_edges`, graph_functions.py:139-156,
    and `parse_lengths`, graph_functions.py:306-318). */
module EdgeParse {
  import opened Values
  import opened Assoc

  /** An edge as the caller writes it: a tuple of any length. `(s, t)`,
      `(s, t, key)` and `(s, t, key, data)` are the meaningful shapes. */
  type EdgeTuple = seq<Value>

  /** The argument of `parse_edges`: one tuple, or a collection of tuples
      that is not a Python list (an edge view), which is copied into a new list.
      A Python list is rewritten in place by `NormalizeInPlace`. */
  datatype EdgeArg = Single(t: EdgeTuple) | Collection(ts: seq<EdgeTuple>)

  function Items(arg: EdgeArg): seq<EdgeTuple>
  {
    match arg
    case Single(t) => [t]
    case Collection(ts) => ts
  }

  /** The rewrite applied to one tuple: drop the data of a 4-tuple, add the
      default key to a 2-tuple, leave every other tuple alone. */
  function NormalizeEdge(t: EdgeTuple, defaultKey: Value): EdgeTuple
  {
    if |t| == 4 then t[..3]
    else if |t| == 2 then t + [defaultKey]
    else t
  }

  function NormalizeAll(ts: seq<EdgeTuple>, defaultKey: Value): (r: seq<EdgeTuple>)
    ensures |r| == |ts| && forall i :: 0 <= i < |ts| ==> r[i] == NormalizeEdge(ts[i], defaultKey)
  {
    seq(|ts|, i requires 0 <= i < |ts| => NormalizeEdge(ts[i], defaultKey))
  }

  /** The index loop of `parse_edges`, which overwrites the list entry by entry. */
  method NormalizeInPlace(edges: array<EdgeTuple>, defaultKey: Value)
    modifies edges
    ensures forall i :: 0 <= i < edges.Length ==> edges[i] == NormalizeEdge(old(edges[i]), defaultKey)
  {
    for i := 0 to edges.Length
      invariant forall j :: 0 <= j < i ==> edges[j] == NormalizeEdge(old(edges[j]), defaultKey)
      invariant forall j :: i <= j < edges.Length ==> edges[j] == old(edges[j])
    {
      if |edges[i]| == 4 {
        edges[i] := edges[i][..3];
      }
      if |edges[i]| == 2 {
        edges[i] := edges[i] + [defaultKey];
      }
    }
  }

  /** `parse_edges` on a single tuple or a non-list collection: a new list of
      the same length and order in which 2-tuples gain the default key,
      4-tuples lose their data and every other tuple is unchanged. */
  method ParseEdges(arg: EdgeArg, defaultKey: Value) returns (r: seq<EdgeTuple>)
    ensures r == NormalizeAll(Items(arg), defaultKey)
    ensures |r| == |Items(arg)|
    ensures arg.Single? ==> |r| == 1
    ensures forall i :: 0 <= i < |r| && |Items(arg)[i]| == 2 ==> r[i] == Items(arg)[i] + [defaultKey]
    ensures forall i :: 0 <= i < |r| && |Items(arg)[i]| == 4 ==> r[i] == Items(arg)[i][..3]
    ensures forall i :: 0 <= i < |r| && |Items(arg)[i]| != 2 && |Items(arg)[i]| != 4 ==> r[i] == Items(arg)[i]
  {
    var items := Items(arg);
    var a := new EdgeTuple[|items|](i requires 0 <= i < |items| => items[i]);
    NormalizeInPlace(a, defaultKey);
    r := a[..];
  }

  /** Every normalised tuple is left unchanged by a second normalisation. */
  lemma NormalizeIdempotent(ts: seq<EdgeTuple>, defaultKey: Value)
    ensures forall i :: 0 <= i < |ts| ==>
      NormalizeEdge(NormalizeEdge(ts[i], defaultKey), defaultKey) == NormalizeEdge(ts[i], defaultKey)
  {
  }

  /** A 3-tuple names a graph edge; any other shape names none. */
  function AsEdge(t: EdgeTuple): Option<Edge>
  {
    if |t| == 3 then Some(Edge(t[0], t[1], t[2])) else None
  }

  /** The `lengths` argument: one integer for all edges, the name of an edge
      attribute, or any other value (a dictionary keyed by edge). */
  datatype LengthArg = Uniform(n: int) | Attr(name: string) | Given(d: Assoc<Edge, Value>)

  function LengthPairs(edgeData: map<Edge, Attrs>, edges: seq<Edge>, arg: LengthArg): seq<(Edge, Value)>
    requires arg.Uniform? || (arg.Attr? && forall e :: e in edges ==> e in edgeData)
  {
    match arg
    case Uniform(n) => seq(|edges|, i requires 0 <= i < |edges| => (edges[i], Int(n)))
    case Attr(name) =>
      seq(|edges|, i requires 0 <= i < |edges| =>
        (edges[i], if name in edgeData[edges[i]] then edgeData[edges[i]][name] else Null))
  }

  /** `parse_lengths`. With an integer every given edge is mapped to it; with
      an attribute name every given edge is mapped to its attribute value, or
      to `None` where the edge lacks it, and an edge absent from the graph is
      a lookup failure; any other argument is returned as it is. */
  function ParseLengths(edgeData: map<Edge, Attrs>, edges: seq<Edge>, arg: LengthArg): (r: Option<Assoc<Edge, Value>>)
    ensures arg.Given? ==> r == Some(arg.d)
    ensures arg.Uniform? ==> r.Some?
    ensures arg.Attr? ==> (r.Some? <==> forall e :: e in edges ==> e in edgeData)
    ensures r.Some? && !arg.Given? ==> DistinctKeys(r.value) && Elems(Keys(r.value)) == Elems(edges)
    ensures r.Some? && arg.Uniform? ==> forall e :: e in edges ==> Lookup(r.value, e) == Some(Int(arg.n))
    ensures r.Some? && arg.Attr? ==> forall e :: e in edges ==>
      Lookup(r.value, e) == Some(if arg.name in edgeData[e] then edgeData[e][arg.name] else Null)
  {
    if arg.Given? then Some(arg.d)
    else if arg.Attr? && !(forall e :: e in edges ==> e in edgeData) then None
    else
      var ps := LengthPairs(edgeData, edges, arg);
      FromPairsDistinct(ps);
      assert Keys(ps) == edges;
      forall e | e in edges
        ensures Lookup(FromPairs(ps), e) == Some(
          if arg.Uniform? then Int(arg.n)
          else if arg.name in edgeData[e] then edgeData[e][arg.name] else Null)
      {
        LookupFromPairs(ps, e);
        LastValueOfKey(ps, e);
      }
      Some(FromPairs(ps))
  }

  /** The last pair with key `k` is found whenever `k` occurs. */
  lemma {:induction false} LastValueOfKey<K(!new), V>(ps: seq<(K, V)>, k: K)
    requires k in Keys(ps)
    ensures exists i :: 0 <= i < |ps| && ps[i].0 == k && LastValue(ps, k) == Some(ps[i].1)
  {
    var last := ps[|ps| - 1];
    if last.0 != k {
      assert Keys(ps) == Keys(ps[..|ps| - 1]) + [last.0];
      LastValueOfKey(ps[..|ps| - 1], k);
    }
  }
}

=== FILE: relabel.dfy ===
/** Relabelling (`relabel_graph` and its nested `relabel_nodes`,
    graph_functions.py:387-444). Nodes are renamed through a mapping, edge
    triples that the renaming makes collide get fresh integer keys, and the
    graph remembers the inverse of the mapping so that a second call without
    arguments renames the nodes back. */
module Relabel {
  import opened Values
  import opened Assoc
  import opened Graph

  /** The `mapping` argument: absent, a dictionary, or a callable applied to
      the graph. */
  datatype MappingArg = NoMapping | Explicit(m: Assoc<Value, Value>) | Computed(f: GraphState -> Assoc<Value, Value>)

  /** The pairs of `{n: i for i, n in enumerate(nodes)}`. */
  function OrdinalPairs(ns: seq<Value>): (r: seq<(Value, Value)>)
    ensures |r| == |ns| && forall i :: 0 <= i < |ns| ==> r[i] == (ns[i], Int(i))
  {
    seq(|ns|, i requires 0 <= i < |ns| => (ns[i], Int(i)))
  }

  /** The mapping actually applied: with no argument, the stored mapping when
      it is truthy (present and non-empty), else node to ordinal position; a
      callable is applied to the graph as it is before the call. */
  function ResolveMapping(s: GraphState, arg: MappingArg): Assoc<Value, Value>
  {
    match arg
    case NoMapping =>
      if s.mapping.None? || s.mapping.value == [] then FromPairs(OrdinalPairs(s.nodes))
      else s.mapping.value
    case Explicit(m) => m
    case Computed(f) => f(s)
  }

  /** `mapping.get(n, n)`. */
  function Translate(m: Assoc<Value, Value>, n: Value): Value
  {
    Get(m, n, n)
  }

  function TranslateAll(m: Assoc<Value, Value>, ns: seq<Value>): (r: seq<Value>)
    ensures |r| == |ns| && forall i :: 0 <= i < |ns| ==> r[i] == Translate(m, ns[i])
  {
    seq(|ns|, i requires 0 <= i < |ns| => Translate(m, ns[i]))
  }

  /** Both endpoints renamed, key kept. */
  function TranslateEdges(m: Assoc<Value, Value>, es: seq<Edge>): (r: seq<Edge>)
    ensures |r| == |es|
    ensures forall i :: 0 <= i < |es| ==> r[i] == Edge(Translate(m, es[i].u), Translate(m, es[i].v), es[i].key)
  {
    seq(|es|, i requires 0 <= i < |es| => Edge(Translate(m, es[i].u), Translate(m, es[i].v), es[i].key))
  }

  /** The first key the collision loop tries after a collision: one above an
      integer key, and 1 for any other key (which is first reset to 0). */
  function BumpStart(key: Value): int
  {
    if key.Int? then key.i + 1 else 1
  }

  lemma KeysBetweenAll(seen: set<Edge>, u: Value, v: Value)
    ensures forall k :: k in KeysBetween(seen, u, v) <==> Edge(u, v, k) in seen
  {
    forall k ensures k in KeysBetween(seen, u, v) <==> Edge(u, v, k) in seen {
      KeysBetweenMember(seen, u, v, k);
    }
  }

  /** The key the triple `(u, v, key)` ends up with when the triples in `seen`
      are taken: `key` itself if it is free, else the first free integer at
      or above `BumpStart(key)`. */
  function Bump(seen: set<Edge>, u: Value, v: Value, key: Value): (r: Value)
    ensures Edge(u, v, r) !in seen
    ensures Edge(u, v, key) !in seen ==> r == key
    ensures Edge(u, v, key) in seen ==>
      && r.Int? && r.i >= BumpStart(key)
      && forall j :: BumpStart(key) <= j < r.i ==> Edge(u, v, Int(j)) in seen
  {
    if Edge(u, v, key) !in seen then key
    else
      KeysBetweenAll(seen, u, v);
      Int(FreeFrom(KeysBetween(seen, u, v), BumpStart(key)))
  }

  /** The collision loop over the translated edges, in order: each triple is
      checked against the triples already kept. */
  function ResolveKeys(es: seq<Edge>): (r: seq<Edge>)
    ensures |r| == |es|
  {
    if es == [] then []
    else
      var p := ResolveKeys(es[..|es| - 1]);
      var e := es[|es| - 1];
      p + [Edge(e.u, e.v, Bump(Elems(p), e.u, e.v, e.key))]
  }

  lemma {:induction false} ResolveKeysPrefix(es: seq<Edge>, i: nat)
    requires i <= |es|
    ensures ResolveKeys(es)[..i] == ResolveKeys(es[..i])
    decreases |es|
  {
    if i < |es| {
      ResolveKeysPrefix(es[..|es| - 1], i);
      assert es[..|es| - 1][..i] == es[..i];
    } else {
      assert es[..i] == es;
    }
  }

  /** The `i`-th edge out of the collision loop is the `i`-th edge in, with
      its key bumped against the edges kept before it. */
  lemma ResolveKeysAt(es: seq<Edge>, i: nat)
    requires i < |es|
    ensures var r := ResolveKeys(es);
      r[i] == Edge(es[i].u, es[i].v, Bump(Elems(r[..i]), es[i].u, es[i].v, es[i].key))
  {
    ResolveKeysPrefix(es, i + 1);
    ResolveKeysPrefix(es, i);
    assert es[..i + 1][..i] == es[..i];
    assert ResolveKeys(es)[i] == ResolveKeys(es)[..i + 1][i];
  }

  lemma {:induction false} ResolveKeysDistinct(es: seq<Edge>)
    ensures Distinct(ResolveKeys(es))
  {
    if es != [] {
      ResolveKeysDistinct(es[..|es| - 1]);
    }
  }

  /** The collision loop keeps the count, order and endpoints of the edges and
      makes every triple distinct: an edge keeps its key unless its triple
      was already taken by an earlier edge, and then it gets the first free
      integer key at or above `BumpStart` of its old key. */
  lemma ResolveKeysFacts(es: seq<Edge>)
    ensures var r := ResolveKeys(es);
      && |r| == |es|
      && Distinct(r)
      && (forall i :: 0 <= i < |es| ==> r[i].u == es[i].u && r[i].v == es[i].v)
      && (forall i :: 0 <= i < |es| && es[i] !in r[..i] ==> r[i] == es[i])
      && (forall i :: 0 <= i < |es| && es[i] in r[..i] ==>
            && r[i].key.Int? && r[i].key.i >= BumpStart(es[i].key)
            && forall j :: BumpStart(es[i].key) <= j < r[i].key.i ==> Edge(es[i].u, es[i].v, Int(j)) in r[..i])
  {
    ResolveKeysDistinct(es);
    forall i | 0 <= i < |es| {
      ResolveKeysAt(es, i);
    }
  }

  /** Distinct triples come through the collision loop unchanged. */
  lemma {:induction false} ResolveKeysIdentity(es: seq<Edge>)
    requires Distinct(es)
    ensures ResolveKeys(es) == es
  {
    if es != [] {
      var init := es[..|es| - 1];
      ResolveKeysIdentity(init);
      assert es[|es| - 1] !in Elems(init);
      assert init + [es[|es| - 1]] == es;
    }
  }

  /** The graph `relabel_nodes` builds: the translated nodes in order of first
      appearance, each carrying the dictionary of the last old node that
      translates to it; the translated edges with their keys resolved, each
      carrying the dictionary of its old edge. */
  function RelabelledCopy(s: GraphState, m: Assoc<Value, Value>): GraphState
    requires WellFormed(s)
  {
    var ts := TranslateAll(m, s.nodes);
    var es := ResolveKeys(TranslateEdges(m, s.edges));
    EmptyGraph().(nodes := Dedup(ts), nodeData := ZipMap(ts, Along(s.nodeData, s.nodes)),
                  edges := es, edgeData := ZipMap(es, Along(s.edgeData, s.edges)))
  }

  /** `g` after `relabel_graph` with mapping `m`: the copy's nodes and edges,
      `mapping` set to the inverse of `m` and `inverse_mapping` to `m`; the
      other graph-level fields stay. */
  function Relabelled(s: GraphState, m: Assoc<Value, Value>): GraphState
    requires WellFormed(s)
  {
    var h := RelabelledCopy(s, m);
    s.(nodes := h.nodes, nodeData := h.nodeData, edges := h.edges, edgeData := h.edgeData,
       mapping := Some(Invert(m)), inverseMapping := Some(m))
  }

  lemma ResolveKeysEnds(es: seq<Edge>)
    ensures var r := ResolveKeys(es);
      forall i :: 0 <= i < |es| ==> r[i].u == es[i].u && r[i].v == es[i].v
  {
    forall i | 0 <= i < |es| {
      ResolveKeysAt(es, i);
    }
  }

  /** Renamed edges join renamed nodes. */
  lemma TranslatedEnds(s: GraphState, m: Assoc<Value, Value>)
    requires WellFormed(s)
    ensures var ts := TranslateAll(m, s.nodes);
      forall e :: e in TranslateEdges(m, s.edges) ==> e.u in ts && e.v in ts
  {
    var ts := TranslateAll(m, s.nodes);
    var te := TranslateEdges(m, s.edges);
    forall e | e in te ensures e.u in ts && e.v in ts {
      var i :| 0 <= i < |te| && te[i] == e;
      var x := s.edges[i];
      assert x in Elems(s.edges);
      assert x.u in Elems(s.nodes) && x.v in Elems(s.nodes);
      TranslateMember(m, s.nodes, x.u);
      TranslateMember(m, s.nodes, x.v);
    }
  }

  lemma TranslateMember(m: Assoc<Value, Value>, ns: seq<Value>, x: Value)
    requires x in ns
    ensures Translate(m, x) in TranslateAll(m, ns)
  {
    var a :| 0 <= a < |ns| && ns[a] == x;
    assert TranslateAll(m, ns)[a] == Translate(m, x);
  }

  /** The resolved, renamed triples are distinct and join renamed nodes. */
  lemma CopyEdgesJoin(s: GraphState, m: Assoc<Value, Value>)
    requires WellFormed(s)
    ensures Distinct(ResolveKeys(TranslateEdges(m, s.edges)))
    ensures forall e :: e in ResolveKeys(TranslateEdges(m, s.edges)) ==>
      e.u in Elems(TranslateAll(m, s.nodes)) && e.v in Elems(TranslateAll(m, s.nodes))
  {
    var te := TranslateEdges(m, s.edges);
    var es := ResolveKeys(te);
    TranslatedEnds(s, m);
    ResolveKeysEnds(te);
    ResolveKeysDistinct(te);
    forall e | e in es ensures e.u in Elems(TranslateAll(m, s.nodes)) && e.v in Elems(TranslateAll(m, s.nodes)) {
      var i :| 0 <= i < |es| && es[i] == e;
      assert te[i] in te;
    }
  }

  /** The relabelled graph is again a well-formed multigraph. */
  lemma RelabelWellFormed(s: GraphState, m: Assoc<Value, Value>)
    requires WellFormed(s)
    ensures WellFormed(RelabelledCopy(s, m)) && WellFormed(Relabelled(s, m))
  {
    var ts := TranslateAll(m, s.nodes);
    var te := TranslateEdges(m, s.edges);
    var es := ResolveKeys(te);
    TranslatedEnds(s, m);
    ResolveKeysEnds(te);
    ResolveKeysDistinct(te);
    var h := RelabelledCopy(s, m);
    assert h.nodeData.Keys == Elems(ts);
    assert h.edges == es && h.edgeData.Keys == Elems(es);
    forall e | e in h.edgeData ensures e.u in h.nodeData && e.v in h.nodeData {
      var i :| 0 <= i < |es| && es[i] == e;
      assert te[i] in te;
    }
  }

  /** `m2` renames every node of `ns` renamed by `m1` back to itself. */
  ghost predicate Undoes(m1: Assoc<Value, Value>, m2: Assoc<Value, Value>, ns: seq<Value>)
  {
    forall n :: n in ns ==> Translate(m2, Translate(m1, n)) == n
  }

  /** Every endpoint of `es` is in `ns`. */
  ghost predicate Joins(es: seq<Edge>, ns: seq<Value>)
  {
    forall e :: e in es ==> e.u in ns && e.v in ns
  }

  /** A renaming that can be undone is one-to-one on the nodes, and renaming
      back recovers them. */
  lemma NodesBack(ns: seq<Value>, m1: Assoc<Value, Value>, m2: Assoc<Value, Value>)
    requires Distinct(ns) && Undoes(m1, m2, ns)
    ensures Distinct(TranslateAll(m1, ns))
    ensures TranslateAll(m2, TranslateAll(m1, ns)) == ns
  {
    var ts := TranslateAll(m1, ns);
    var bs := TranslateAll(m2, ts);
    assert bs == ns;
    forall i, j | 0 <= i < j < |ts| ensures ts[i] != ts[j] {
      assert bs[i] == ns[i] && bs[j] == ns[j];
    }
  }

  /** ... and on edge triples whose endpoints are among the nodes. */
  lemma EdgesBack(es: seq<Edge>, ns: seq<Value>, m1: Assoc<Value, Value>, m2: Assoc<Value, Value>)
    requires Distinct(es) && Joins(es, ns) && Undoes(m1, m2, ns)
    ensures Distinct(TranslateEdges(m1, es))
    ensures TranslateEdges(m2, TranslateEdges(m1, es)) == es
  {
    var te := TranslateEdges(m1, es);
    var be := TranslateEdges(m2, te);
    forall i | 0 <= i < |es| ensures be[i] == es[i] {
      assert es[i] in es;
    }
    assert be == es;
    forall i, j | 0 <= i < j < |te| ensures te[i] != te[j] {
      assert be[i] == es[i] && be[j] == es[j];
    }
  }

  lemma WellFormedJoins(s: GraphState)
    requires WellFormed(s)
    ensures Joins(s.edges, s.nodes)
  {
    forall e | e in s.edges ensures e.u in s.nodes && e.v in s.nodes {
      assert e in s.edgeData;
      assert e.u in Elems(s.nodes) && e.v in Elems(s.nodes);
    }
  }

  /** Renaming nodes one-to-one keeps them in order, each with its own
      dictionary; renaming back gives the nodes and dictionaries again. */
  lemma NodeDataBack(ns: seq<Value>, d: map<Value, Attrs>, m1: Assoc<Value, Value>, m2: Assoc<Value, Value>)
    requires Distinct(ns) && Elems(ns) == d.Keys && Undoes(m1, m2, ns)
    ensures Distinct(TranslateAll(m1, ns)) && Dedup(TranslateAll(m1, ns)) == TranslateAll(m1, ns)
    ensures forall i :: 0 <= i < |ns| ==>
      ZipMap(TranslateAll(m1, ns), Along(d, ns))[TranslateAll(m1, ns)[i]] == d[ns[i]]
    ensures TranslateAll(m2, TranslateAll(m1, ns)) == ns && Dedup(ns) == ns
    ensures ZipMap(ns, Along(ZipMap(TranslateAll(m1, ns), Along(d, ns)), TranslateAll(m1, ns))) == d
  {
    NodesBack(ns, m1, m2);
    DedupDistinct(TranslateAll(m1, ns));
    DedupDistinct(ns);
    ZipMapBack(TranslateAll(m1, ns), ns, d);
  }

  /** The same for edges: no key changes, and renaming back restores the
      triples and their dictionaries. */
  lemma EdgeDataBack(es: seq<Edge>, ns: seq<Value>, d: map<Edge, Attrs>, m1: Assoc<Value, Value>, m2: Assoc<Value, Value>)
    requires Distinct(es) && Elems(es) == d.Keys && Joins(es, ns) && Undoes(m1, m2, ns)
    ensures Distinct(TranslateEdges(m1, es)) && ResolveKeys(TranslateEdges(m1, es)) == TranslateEdges(m1, es)
    ensures forall i :: 0 <= i < |es| ==>
      ZipMap(TranslateEdges(m1, es), Along(d, es))[TranslateEdges(m1, es)[i]] == d[es[i]]
    ensures TranslateEdges(m2, TranslateEdges(m1, es)) == es && ResolveKeys(es) == es
    ensures ZipMap(es, Along(ZipMap(TranslateEdges(m1, es), Along(d, es)), TranslateEdges(m1, es))) == d
  {
    EdgesBack(es, ns, m1, m2);
    ResolveKeysIdentity(TranslateEdges(m1, es));
    ResolveKeysIdentity(es);
    ZipMapBack(TranslateEdges(m1, es), es, d);
  }

  /** With a renaming that can be undone, `relabel_nodes` renames node for
      node, in order, and every node keeps its attribute dictionary. */
  lemma RelabelInjectiveNodes(s: GraphState, m1: Assoc<Value, Value>, m2: Assoc<Value, Value>)
    requires WellFormed(s) && Undoes(m1, m2, s.nodes)
    ensures var h := RelabelledCopy(s, m1);
      && h.nodes == TranslateAll(m1, s.nodes)
      && (forall i :: 0 <= i < |s.nodes| ==> h.nodeData[h.nodes[i]] == s.nodeData[s.nodes[i]])
  {
    NodeDataBack(s.nodes, s.nodeData, m1, m2);
  }

  /** ... and edge for edge, in order, with no key changed, every edge
      keeping its attribute dictionary. */
  lemma RelabelInjectiveEdges(s: GraphState, m1: Assoc<Value, Value>, m2: Assoc<Value, Value>)
    requires WellFormed(s) && Undoes(m1, m2, s.nodes)
    ensures var h := RelabelledCopy(s, m1);
      && h.edges == TranslateEdges(m1, s.edges)
      && (forall i :: 0 <= i < |s.edges| ==> h.edgeData[h.edges[i]] == s.edgeData[s.edges[i]])
  {
    WellFormedJoins(s);
    EdgeDataBack(s.edges, s.nodes, s.edgeData, m1, m2);
  }

  /** Renaming and then renaming back restores the nodes, their order and
      dictionaries, and the edge triples with their order and dictionaries. */
  lemma RelabelUndo(s: GraphState, m1: Assoc<Value, Value>, m2: Assoc<Value, Value>)
    requires WellFormed(s) && Undoes(m1, m2, s.nodes)
    ensures WellFormed(Relabelled(s, m1))
    ensures var h := RelabelledCopy(Relabelled(s, m1), m2);
      h.nodes == s.nodes && h.nodeData == s.nodeData && h.edges == s.edges && h.edgeData == s.edgeData
  {
    RelabelWellFormed(s, m1);
    WellFormedJoins(s);
    NodeDataBack(s.nodes, s.nodeData, m1, m2);
    EdgeDataBack(s.edges, s.nodes, s.edgeData, m1, m2);
  }

  /** An injective dictionary covering the nodes is undone by its inverse. */
  lemma InverseUndoes(m: Assoc<Value, Value>, ns: seq<Value>)
    requires DistinctKeys(m) && Distinct(Vals(m))
    requires forall n :: n in ns ==> n in Keys(m)
    ensures Undoes(m, Invert(m), ns)
  {
    forall n | n in ns ensures Translate(Invert(m), Translate(m, n)) == n {
      var i :| 0 <= i < |m| && Keys(m)[i] == n;
      LookupDistinct(m, i);
      LookupInvert(m, i);
    }
  }

  /** Relabelling with a one-to-one dictionary that covers the nodes, then
      calling `relabel_graph` again without arguments, gives back the original
      graph (nodes, order, edge triples and dictionaries); only the stored
      mappings differ, now holding `m` and its inverse. */
  lemma RelabelRoundTrip(s: GraphState, m: Assoc<Value, Value>)
    requires WellFormed(s)
    requires DistinctKeys(m) && Distinct(Vals(m))
    requires forall n :: n in s.nodes ==> n in Keys(m)
    ensures WellFormed(Relabelled(s, m))
    ensures var s1 := Relabelled(s, m);
      Relabelled(s1, ResolveMapping(s1, NoMapping)) == s.(mapping := Some(m), inverseMapping := Some(Invert(m)))
  {
    InvertInjective(m);
    InverseUndoes(m, s.nodes);
    RelabelUndo(s, m, Invert(m));
    var s1 := Relabelled(s, m);
    if m == [] {
      assert s.nodes == [];
      assert s1.nodes == [];
      assert FromPairs(OrdinalPairs(s1.nodes)) == [];
    }
    assert ResolveMapping(s1, NoMapping) == Invert(m);
  }

  /** Position numbering of distinct nodes is a one-to-one dictionary from
      the nodes onto `0 .. n-1`, undone by its inverse. */
  lemma OrdinalMapping(ns: seq<Value>)
    requires Distinct(ns)
    ensures var m := OrdinalPairs(ns);
      && FromPairs(m) == m
      && TranslateAll(m, ns) == Ordinals(|ns|)
      && Undoes(m, Invert(m), ns)
      && (forall i :: 0 <= i < |ns| ==> Lookup(Invert(m), Int(i)) == Some(ns[i]))
  {
    OrdinalForward(ns);
    OrdinalBackward(ns);
  }

  lemma OrdinalForward(ns: seq<Value>)
    requires Distinct(ns)
    ensures var m := OrdinalPairs(ns);
      && DistinctKeys(m)
      && FromPairs(m) == m
      && TranslateAll(m, ns) == Ordinals(|ns|)
  {
    var m := OrdinalPairs(ns);
    assert DistinctKeys(m);
    FromPairsOfDistinct(m);
    forall i | 0 <= i < |ns| ensures Translate(m, ns[i]) == Int(i) {
      LookupDistinct(m, i);
    }
  }

  lemma OrdinalBackward(ns: seq<Value>)
    requires Distinct(ns)
    ensures var m := OrdinalPairs(ns);
      && Undoes(m, Invert(m), ns)
      && (forall i :: 0 <= i < |ns| ==> Lookup(Invert(m), Int(i)) == Some(ns[i]))
  {
    var m := OrdinalPairs(ns);
    assert DistinctKeys(m);
    assert Vals(m) == Ordinals(|ns|);
    forall n | n in ns ensures n in Keys(m) {
      var i :| 0 <= i < |ns| && ns[i] == n;
      assert Keys(m)[i] == n;
    }
    InverseUndoes(m, ns);
    forall i | 0 <= i < |ns| ensures Lookup(Invert(m), Int(i)) == Some(ns[i]) {
      LookupInvert(m, i);
    }
  }

  /** With no argument and no truthy stored mapping, node `i` of the order is
      renamed to the integer `i`: the nodes become `0 .. n-1` with their
      dictionaries, the edges are renamed in order with their keys, and the
      stored mapping takes `i` back to the old node. */
  lemma RelabelToOrdinals(s: GraphState)
    requires WellFormed(s)
    requires s.mapping.None? || s.mapping.value == []
    ensures var m := ResolveMapping(s, NoMapping);
      var r := Relabelled(s, m);
      && m == OrdinalPairs(s.nodes)
      && r.nodes == Ordinals(|s.nodes|)
      && (forall i :: 0 <= i < |s.nodes| ==> r.nodeData[Int(i)] == s.nodeData[s.nodes[i]])
      && r.edges == TranslateEdges(m, s.edges)
      && (forall i :: 0 <= i < |s.nodes| ==> Lookup(r.mapping.value, Int(i)) == Some(s.nodes[i]))
  {
    OrdinalMapping(s.nodes);
    RelabelByPosition(s);
  }

  /** Relabelling with `{n: i for i, n in enumerate(nodes)}` renames node `i`
      to `i` with its dictionary, renames the edges in order with their keys
      and dictionaries, and stores mappings between each node and its
      position in both directions. */
  lemma RelabelByPosition(s: GraphState)
    requires WellFormed(s)
    ensures var m := OrdinalPairs(s.nodes);
      var r := Relabelled(s, FromPairs(m));
      && WellFormed(r)
      && r.nodes == Ordinals(|s.nodes|)
      && (forall i :: 0 <= i < |s.nodes| ==> r.nodeData[Int(i)] == s.nodeData[s.nodes[i]])
      && r.edges == TranslateEdges(m, s.edges)
      && (forall i :: 0 <= i < |s.edges| ==> r.edgeData[r.edges[i]] == s.edgeData[s.edges[i]])
      && (forall i :: 0 <= i < |s.nodes| ==> Lookup(r.mapping.value, Int(i)) == Some(s.nodes[i]))
      && (forall i :: 0 <= i < |s.nodes| ==> Lookup(r.inverseMapping.value, s.nodes[i]) == Some(Int(i)))
  {
    var m := OrdinalPairs(s.nodes);
    OrdinalMapping(s.nodes);
    RelabelWellFormed(s, m);
    RelabelInjectiveNodes(s, m, Invert(m));
    RelabelInjectiveEdges(s, m, Invert(m));
    forall i | 0 <= i < |s.nodes| ensures Lookup(m, s.nodes[i]) == Some(Int(i)) {
      LookupDistinct(m, i);
    }
  }

  /** Two first-free keys above the same start are the same key. */
  lemma FreeUnique(seen: set<Edge>, u: Value, v: Value, start: int, a: int, b: int)
    requires start <= a && start <= b
    requires Edge(u, v, Int(a)) !in seen && Edge(u, v, Int(b)) !in seen
    requires forall j :: start <= j < a ==> Edge(u, v, Int(j)) in seen
    requires forall j :: start <= j < b ==> Edge(u, v, Int(j)) in seen
    ensures a == b
  {
  }

  /** The inner `while` of the collision loop: bump the key while the triple
      is taken, resetting a non-integer key to 0 first. */
  method BumpKey(seen: set<Edge>, u: Value, v: Value, key0: Value) returns (key: Value)
    ensures key == Bump(seen, u, v, key0)
  {
    key := key0;
    while Edge(u, v, key) in seen
      invariant key == key0 || (key.Int? && key.i >= BumpStart(key0) && Edge(u, v, key0) in seen)
      invariant key != key0 ==> forall j :: BumpStart(key0) <= j < key.i ==> Edge(u, v, Int(j)) in seen
      decreases if key.Int? then 0 else 1,
                |IntsFrom(KeysBetween(seen, u, v), if key.Int? then key.i else 0)|
    {
      if !key.Int? {
        key := Int(0);
      } else {
        KeysBetweenMember(seen, u, v, key);
        IntsFromShrinks(KeysBetween(seen, u, v), key.i);
      }
      key := Int(key.i + 1);
    }
    if key != key0 {
      FreeUnique(seen, u, v, BumpStart(key0), key.i, Bump(seen, u, v, key0).i);
    }
  }

  /** The collision loop: `seen` grows by one triple per edge, and each
      triple is rewritten in place with its resolved key. */
  method ResolveEdgeKeys(newEdges: seq<Edge>) returns (r: seq<Edge>)
    ensures r == ResolveKeys(newEdges)
  {
    r := newEdges;
    var seen: set<Edge> := {};
    for i := 0 to |r|
      invariant |r| == |newEdges|
      invariant r[..i] == ResolveKeys(newEdges[..i])
      invariant r[i..] == newEdges[i..]
      invariant seen == Elems(r[..i])
    {
      var e := r[i];
      assert e == newEdges[i] by {
        assert r[i..][0] == newEdges[i..][0];
      }
      var key := BumpKey(seen, e.u, e.v, e.key);
      assert newEdges[..i + 1][..i] == newEdges[..i];
      ghost var prev := r[..i];
      assert r[i + 1..] == r[i..][1..];
      ghost var rest := r[i + 1..];
      r := r[i := Edge(e.u, e.v, key)];
      assert r[..i + 1] == prev + [Edge(e.u, e.v, key)];
      assert r[i + 1..] == rest;
      seen := seen + {Edge(e.u, e.v, key)};
    }
    assert r[..|r|] == r && newEdges[..|r|] == newEdges;
  }

  /** `H.add_nodes_from(ts)` on an empty graph. */
  method AddNodesFrom(h: MultiDiGraph, ts: seq<Value>)
    requires h.State() == EmptyGraph()
    modifies h
    ensures h.State() == EmptyGraph().(nodes := Dedup(ts), nodeData := h.nodeData)
    ensures h.nodeData.Keys == Elems(ts)
  {
    for i := 0 to |ts|
      invariant h.State() == EmptyGraph().(nodes := Dedup(ts[..i]), nodeData := h.nodeData)
      invariant h.nodeData.Keys == Elems(ts[..i])
    {
      h.AddNode(ts[i]);
      assert ts[..i + 1] == ts[..i] + [ts[i]];
    }
    assert ts[..|ts|] == ts;
  }

  /** `H._node.update(zip(ts, ds))` when every key is already a node: a later
      pair overwrites an earlier one. */
  method UpdateNodeData(h: MultiDiGraph, ts: seq<Value>, ds: seq<Attrs>)
    requires |ts| == |ds| && h.nodeData.Keys == Elems(ts)
    modifies h
    ensures h.State() == old(h.State()).(nodeData := ZipMap(ts, ds))
  {
    var nd := ZipInto(h.nodeData, ts, ds);
    UnionCovered(h.nodeData, ZipMap(ts, ds));
    h.nodeData := nd;
  }

  /** `base.update(zip(ts, ds))`, pair by pair. */
  method ZipInto(base: map<Value, Attrs>, ts: seq<Value>, ds: seq<Attrs>) returns (nd: map<Value, Attrs>)
    requires |ts| == |ds|
    ensures nd == base + ZipMap(ts, ds)
  {
    nd := base;
    for i := 0 to |ts|
      invariant nd == base + ZipMap(ts[..i], ds[..i])
    {
      ZipMapSnoc(ts, ds, i);
      UnionUpdate(base, ZipMap(ts[..i], ds[..i]), ts[i], ds[i]);
      nd := nd[ts[i] := ds[i]];
    }
    assert ts[..|ts|] == ts && ds[..|ds|] == ds;
  }

  /** `H.add_edges_from(zip(es, ds))` for distinct triples that join nodes
      already present and are not yet edges: each one is appended. */
  method AddEdgesFrom(h: MultiDiGraph, es: seq<Edge>, ds: seq<Attrs>)
    requires |es| == |ds| && Distinct(es)
    requires h.edges == [] && h.edgeData == map[]
    requires forall e :: e in es ==> e.u in h.nodeData && e.v in h.nodeData
    modifies h
    ensures h.State() == old(h.State()).(edges := es, edgeData := ZipMap(es, ds))
  {
    for i := 0 to |es|
      invariant h.State() == old(h.State()).(edges := es[..i], edgeData := ZipMap(es[..i], ds[..i]))
    {
      var e := es[i];
      assert e !in es[..i];
      KeyedEdgeAppend(h.State(), e, ds[i]);
      h.AddKeyedEdge(e, ds[i]);
      assert es[..i + 1] == es[..i] + [e];
      assert es[..i + 1][..i] == es[..i] && ds[..i + 1][..i] == ds[..i];
    }
    assert es[..|es|] == es && ds[..|ds|] == ds;
  }

  /** `relabel_nodes(G, mapping)`: a new graph receives the translated nodes,
      then each translated node's dictionary is replaced by a copy of its old
      node's, then the edges with their keys resolved are added with copies
      of their dictionaries. `g` itself is not changed. */
  method RelabelNodes(g: MultiDiGraph, m: Assoc<Value, Value>) returns (h: MultiDiGraph)
    requires g.Valid()
    ensures fresh(h)
    ensures h.State() == RelabelledCopy(g.State(), m)
  {
    var ts := TranslateAll(m, g.nodes);
    var te := TranslateEdges(m, g.edges);
    var nds := Along(g.nodeData, g.nodes);
    var eds := Along(g.edgeData, g.edges);
    CopyEdgesJoin(g.State(), m);
    h := CopyNodes(ts, nds);
    var resolved := ResolveEdgeKeys(te);
    AddEdgesFrom(h, resolved, eds);
  }

  /** A new graph holding the nodes `ts`, in first-seen order, with the
      dictionaries `ds` (a later duplicate's dictionary wins). */
  method CopyNodes(ts: seq<Value>, ds: seq<Attrs>) returns (h: MultiDiGraph)
    requires |ts| == |ds|
    ensures fresh(h)
    ensures h.State() == EmptyGraph().(nodes := Dedup(ts), nodeData := ZipMap(ts, ds))
    ensures h.nodeData.Keys == Elems(ts)
  {
    h := new MultiDiGraph();
    AddNodesFrom(h, ts);
    UpdateNodeData(h, ts, ds);
  }

  /** `relabel_graph(g, mapping)`: resolve the mapping, rebuild the graph
      through `relabel_nodes`, take over its nodes and edges, and store the
      inverse of the applied mapping as `mapping` and the applied mapping as
      `inverse_mapping`. */
  method RelabelGraph(g: MultiDiGraph, arg: MappingArg)
    requires g.Valid()
    modifies g
    ensures g.State() == Relabelled(old(g.State()), ResolveMapping(old(g.State()), arg))
    ensures g.Valid()
  {
    ghost var s := g.State();
    var m: Assoc<Value, Value>;
    match arg {
      case NoMapping =>
        if g.mapping.None? || g.mapping.value == [] {
          m := FromPairs(OrdinalPairs(g.nodes));
        } else {
          m := g.mapping.value;
        }
      case Explicit(given) =>
        m := given;
      case Computed(f) =>
        m := f(g.State());
    }
    assert m == ResolveMapping(s, arg);
    var inverse := Invert(m);
    var h := RelabelNodes(g, m);
    g.nodes, g.nodeData, g.edges, g.edgeData := h.nodes, h.nodeData, h.edges, h.edgeData;
    g.mapping, g.inverseMapping := Some(inverse), Some(m);
    assert g.State() == Relabelled(s, m);
    RelabelWellFormed(s, m);
  }
}

=== FILE: ring.dfy ===
/** Ring graphs (`ring`, graph_functions.py:20-43): nodes `0 .. N-1` and,
    per enabled family, one edge out of every node. */
module Ring {
  import opened Values
  import opened Assoc
  import opened Graph

  /** `range(N)` has `N` elements when `N` is positive and none otherwise. */
  function Size(n: int): nat
  {
    if n > 0 then n else 0
  }

  /** `[(i, (i + d) % N) for i in range(N)]`; Python's `%` with a positive
      divisor agrees with Dafny's. */
  function Family(n: nat, d: int): (r: seq<(Value, Value)>)
    ensures |r| == n
    ensures forall i :: 0 <= i < n ==> r[i] == (Int(i), Int((i + d) % n))
  {
    seq(n, i requires 0 <= i < n => (Int(i), Int((i + d) % n)))
  }

  /** The edge list of `ring`: the left edges, then the right edges, then the
      self-loops, each family in node order. */
  function RingPairs(n: int, left: bool, right: bool, loop: bool): seq<(Value, Value)>
  {
    (if left then Family(Size(n), -1) else [])
    + (if right then Family(Size(n), 1) else [])
    + (if loop then Family(Size(n), 0) else [])
  }

  function Ring(n: int, left: bool, right: bool, loop: bool): GraphState
  {
    WithEdges(WithNodes(EmptyGraph(), Ordinals(Size(n))), RingPairs(n, left, right, loop), map[])
  }

  function B(b: bool): nat
  {
    if b then 1 else 0
  }

  /** The left edge of node `i` goes to `i - 1`, and node 0's to `N - 1`. */
  lemma LeftFamily(k: nat)
    ensures forall i :: 0 <= i < k ==> Family(k, -1)[i] == (Int(i), Int(if i == 0 then k - 1 else i - 1))
  {
    forall i | 0 <= i < k ensures Family(k, -1)[i] == (Int(i), Int(if i == 0 then k - 1 else i - 1)) {
      LeftEdge(k, i);
    }
  }

  lemma LeftEdge(k: nat, i: nat)
    requires i < k
    ensures Family(k, -1)[i] == (Int(i), Int(if i == 0 then k - 1 else i - 1))
  {
    PredMod(i, k);
  }

  lemma PredMod(i: int, k: int)
    requires 0 <= i < k
    ensures (i + -1) % k == if i == 0 then k - 1 else i - 1
  {
    if i == 0 {
      assert -1 == (-1) * k + (k - 1);
    }
  }

  /** The right edge of node `i` goes to `i + 1`, and node `N - 1`'s to 0. */
  lemma RightFamily(k: nat)
    ensures forall i :: 0 <= i < k ==> Family(k, 1)[i] == (Int(i), Int(if i == k - 1 then 0 else i + 1))
  {
    forall i | 0 <= i < k ensures Family(k, 1)[i] == (Int(i), Int(if i == k - 1 then 0 else i + 1)) {
      RightEdge(k, i);
    }
  }

  lemma RightEdge(k: nat, i: nat)
    requires i < k
    ensures Family(k, 1)[i] == (Int(i), Int(if i == k - 1 then 0 else i + 1))
  {
    SuccMod(i, k);
  }

  lemma SuccMod(i: int, k: int)
    requires 0 <= i < k
    ensures (i + 1) % k == if i == k - 1 then 0 else i + 1
  {
    if i == k - 1 {
      assert k == 1 * k + 0;
    }
  }

  /** The self-loop of node `i` goes to `i`. */
  lemma LoopFamily(k: nat)
    ensures forall i :: 0 <= i < k ==> Family(k, 0)[i] == (Int(i), Int(i))
  {
    forall i | 0 <= i < k ensures Family(k, 0)[i] == (Int(i), Int(i)) {
      LoopEdge(k, i);
    }
  }

  lemma LoopEdge(k: nat, i: nat)
    requires i < k
    ensures Family(k, 0)[i] == (Int(i), Int(i))
  {
    SelfMod(i, k);
  }

  lemma SelfMod(i: int, k: int)
    requires 0 <= i < k
    ensures (i + 0) % k == i
  {
    assert i + 0 == 0 * k + i;
  }

  /** `ring` lists `N` edges per enabled family. */
  lemma RingPairsCount(n: int, left: bool, right: bool, loop: bool)
    ensures |RingPairs(n, left, right, loop)| == Size(n) * (B(left) + B(right) + B(loop))
  {
    var k := Size(n);
    assert k * (B(left) + B(right) + B(loop)) == k * B(left) + k * B(right) + k * B(loop);
  }

  /** Both ends of every pair are among `0 .. N-1`. */
  lemma RingPairsInRange(n: int, left: bool, right: bool, loop: bool)
    ensures forall p :: p in RingPairs(n, left, right, loop) ==>
      p.0 in Ordinals(Size(n)) && p.1 in Ordinals(Size(n))
  {
    var k := Size(n);
    OrdinalsDistinct(k);
    forall d: int, i | 0 <= i < k
      ensures Family(k, d)[i].0 in Ordinals(k) && Family(k, d)[i].1 in Ordinals(k)
    {
      assert Family(k, d)[i].1 == Int((i + d) % k);
    }
  }

  lemma OrdinalsDistinct(n: nat)
    ensures Distinct(Ordinals(n))
    ensures forall x :: x in Ordinals(n) <==> x.Int? && 0 <= x.i < n
  {
    forall x: Value | x.Int? && 0 <= x.i < n ensures x in Ordinals(n) {
      assert Ordinals(n)[x.i] == x;
    }
  }

  /** `ring(N, left, right, loop)` has the nodes `0 .. N-1` in order, each
      with an empty dictionary, and one edge per pair of `RingPairs`, in
      order, joining that pair with an empty dictionary. */
  lemma RingShape(n: int, left: bool, right: bool, loop: bool)
    ensures WellFormed(Ring(n, left, right, loop))
    ensures Ring(n, left, right, loop).nodes == Ordinals(Size(n))
    ensures forall x :: x in Ring(n, left, right, loop).nodeData ==> Ring(n, left, right, loop).nodeData[x] == map[]
    ensures |Ring(n, left, right, loop).edges| == |RingPairs(n, left, right, loop)|
    ensures |RingPairs(n, left, right, loop)| == Size(n) * (B(left) + B(right) + B(loop))
    ensures var g := Ring(n, left, right, loop);
      var ps := RingPairs(n, left, right, loop);
      forall i :: 0 <= i < |ps| ==>
        g.edges[i].u == ps[i].0 && g.edges[i].v == ps[i].1 && g.edgeData[g.edges[i]] == map[]
  {
    var k := Size(n);
    var s := RingNodes(k);
    var ps := RingPairs(n, left, right, loop);
    RingPairsCount(n, left, right, loop);
    RingPairsInRange(n, left, right, loop);
    forall i | 0 <= i < |ps| ensures ps[i].0 in s.nodeData && ps[i].1 in s.nodeData {
      assert ps[i] in ps;
    }
    WithEdgesOnNodes(s, ps, map[]);
  }

  /** The graph after `add_nodes_from(range(N))`. */
  lemma RingNodes(k: nat) returns (s: GraphState)
    ensures s == WithNodes(EmptyGraph(), Ordinals(k))
    ensures WellFormed(s) && s.nodes == Ordinals(k) && s.edges == [] && s.edgeData == map[]
    ensures forall x :: x in s.nodeData ==> s.nodeData[x] == map[]
    ensures forall x :: x in Ordinals(k) ==> x in s.nodeData
  {
    OrdinalsDistinct(k);
    WithNodesFresh(EmptyGraph(), Ordinals(k));
    s := WithNodes(EmptyGraph(), Ordinals(k));
    assert [] + Ordinals(k) == Ordinals(k);
  }

  /** The sources of the edges of `ring`, in order: `0 .. N-1` once per
      enabled family. */
  lemma RingSources(n: int, left: bool, right: bool, loop: bool)
    ensures Sources(Ring(n, left, right, loop).edges) ==
      (if left then Ordinals(Size(n)) else [])
      + (if right then Ordinals(Size(n)) else [])
      + (if loop then Ordinals(Size(n)) else [])
  {
    RingShape(n, left, right, loop);
    RingPairSources(n, left, right, loop);
    var g := Ring(n, left, right, loop);
    var ps := RingPairs(n, left, right, loop);
    assert Sources(g.edges) == Keys(ps);
  }

  lemma RingPairSources(n: int, left: bool, right: bool, loop: bool)
    ensures Keys(RingPairs(n, left, right, loop)) ==
      (if left then Ordinals(Size(n)) else [])
      + (if right then Ordinals(Size(n)) else [])
      + (if loop then Ordinals(Size(n)) else [])
  {
    var k := Size(n);
    var l := if left then Family(k, -1) else [];
    var r := if right then Family(k, 1) else [];
    var o := if loop then Family(k, 0) else [];
    KeysAppend(l + r, o);
    KeysAppend(l, r);
    assert Keys(l) == if left then Ordinals(k) else [];
    assert Keys(r) == if right then Ordinals(k) else [];
    assert Keys(o) == if loop then Ordinals(k) else [];
  }

  /** Every node of `ring(N, left, right, loop)` has out-degree
      `left + right + loop`, and no other value has an edge leaving it. */
  lemma RingOutDegree(n: int, left: bool, right: bool, loop: bool, x: Value)
    ensures var g := Ring(n, left, right, loop);
      OutDegree(g, x) == if x in g.nodes then B(left) + B(right) + B(loop) else 0
  {
    FamiliesCount(Size(n), left, right, loop, x);
    RingSources(n, left, right, loop);
    RingShape(n, left, right, loop);
  }

  /** Each enabled family contributes one occurrence of every node. */
  lemma FamiliesCount(k: nat, left: bool, right: bool, loop: bool, x: Value)
    ensures var srcs := (if left then Ordinals(k) else []) + (if right then Ordinals(k) else []) + (if loop then Ordinals(k) else []);
      multiset(srcs)[x] == if x in Ordinals(k) then B(left) + B(right) + B(loop) else 0
  {
    OrdinalsDistinct(k);
    DistinctCount(Ordinals(k), x);
    var c := multiset(Ordinals(k))[x];
    var srcs := (if left then Ordinals(k) else []) + (if right then Ordinals(k) else []) + (if loop then Ordinals(k) else []);
    assert multiset(srcs)[x] == B(left) * c + B(right) * c + B(loop) * c;
  }
}

=== FILE: sort.dfy ===
/** Sorting a graph in place (`sort_graph`, graph_functions.py:447-512): the
    graph is cleared and rebuilt with its nodes and edges in the sorted
    order, optionally renamed to their positions, and the nodes are grouped
    by rank into the graph's `sorting` field.

    The sorted orders themselves come from an external sort whose criteria
    are not part of this model: the node sorting is given as the
    `(node, rank)` pairs that sort returns, and the edge sorting as the edge
    triples in their new order. */
module Sort {
  import opened Values
  import opened Assoc
  import opened Graph
  import opened Relabel

  /** The external sort returned every node once, each with its rank, and
      every edge once. */
  predicate SortsGraph(s: GraphState, nodeSorting: Assoc<Value, Value>, edgeSorting: seq<Edge>)
  {
    && Distinct(Keys(nodeSorting)) && Elems(Keys(nodeSorting)) == s.nodeData.Keys
    && Distinct(edgeSorting) && Elems(edgeSorting) == s.edgeData.Keys
  }

  /** The graph after `clear()`, `add_nodes_from(nodes)` and
      `add_edges_from(edges)`: the old nodes and edges with their old
      dictionaries, listed in the sorted order. */
  function Rebuilt(s: GraphState, nodeSorting: Assoc<Value, Value>, edgeSorting: seq<Edge>): GraphState
  {
    s.(nodes := Keys(nodeSorting), edges := edgeSorting)
  }

  /** The node sorting after relabelling: node `i` of the order is now called
      `i` and keeps its rank. */
  function Renumbered(nodeSorting: Assoc<Value, Value>): (r: Assoc<Value, Value>)
    ensures |r| == |nodeSorting|
    ensures forall i :: 0 <= i < |nodeSorting| ==> r[i] == (Int(i), nodeSorting[i].1)
  {
    seq(|nodeSorting|, i requires 0 <= i < |nodeSorting| => (Int(i), nodeSorting[i].1))
  }

  /** `nx.utils.groups(dict(node_sorting))`: each rank to the set of nodes
      holding it. */
  function Groups(ps: Assoc<Value, Value>): map<Value, set<Value>>
  {
    map k | k in Elems(Vals(ps)) :: set p | p in ps && p.1 == k :: p.0
  }

  /** The graph after `sort_graph`. */
  function SortedGraph(s: GraphState, nodeSorting: Assoc<Value, Value>, edgeSorting: seq<Edge>, relabel: bool): GraphState
    requires WellFormed(s) && SortsGraph(s, nodeSorting, edgeSorting)
  {
    var r := Rebuilt(s, nodeSorting, edgeSorting);
    RebuiltWellFormed(s, nodeSorting, edgeSorting);
    if relabel then
      Relabelled(r, FromPairs(OrdinalPairs(Keys(nodeSorting)))).(sorting := Some(Groups(Renumbered(nodeSorting))))
    else
      r.(sorting := Some(Groups(nodeSorting)))
  }

  lemma RebuiltWellFormed(s: GraphState, nodeSorting: Assoc<Value, Value>, edgeSorting: seq<Edge>)
    requires WellFormed(s) && SortsGraph(s, nodeSorting, edgeSorting)
    ensures WellFormed(Rebuilt(s, nodeSorting, edgeSorting))
  {
  }

  /** The groups partition the sorted nodes by rank: every node sits in the
      group of its own rank, a group holds only nodes of that rank, no group
      is empty, and no node sits in two groups. */
  lemma GroupsPartition(ps: Assoc<Value, Value>)
    requires Distinct(Keys(ps))
    ensures var g := Groups(ps);
      && (forall p :: p in ps ==> p.1 in g && p.0 in g[p.1])
      && (forall k, x :: k in g && x in g[k] ==> (x, k) in ps)
      && (forall k :: k in g ==> g[k] != {})
      && (forall k1, k2, x :: k1 in g && k2 in g && x in g[k1] && x in g[k2] ==> k1 == k2)
  {
    GroupsCover(ps);
    GroupsDisjoint(ps);
  }

  lemma GroupsCover(ps: Assoc<Value, Value>)
    ensures var g := Groups(ps);
      && (forall p :: p in ps ==> p.1 in g && p.0 in g[p.1])
      && (forall k :: k in g ==> g[k] != {})
  {
    var g := Groups(ps);
    forall p | p in ps ensures p.1 in g && p.0 in g[p.1] {
      var i :| 0 <= i < |ps| && ps[i] == p;
      assert Vals(ps)[i] == p.1;
    }
    forall k | k in g ensures g[k] != {} {
      var i :| 0 <= i < |ps| && Vals(ps)[i] == k;
      assert ps[i].0 in g[k];
    }
  }

  lemma GroupsDisjoint(ps: Assoc<Value, Value>)
    requires Distinct(Keys(ps))
    ensures var g := Groups(ps);
      forall k1, k2, x :: k1 in g && k2 in g && x in g[k1] && x in g[k2] ==> k1 == k2
  {
    var g := Groups(ps);
    forall k1, k2, x | k1 in g && k2 in g && x in g[k1] && x in g[k2] ensures k1 == k2 {
      var i :| 0 <= i < |ps| && ps[i] == (x, k1);
      var j :| 0 <= j < |ps| && ps[j] == (x, k2);
      assert Keys(ps)[i] == Keys(ps)[j];
    }
  }

  /** Without relabelling, sorting only changes the order: the nodes are a
      permutation of the old nodes, in the sorted order, the edges a
      permutation of the old edges, in the sorted order, every dictionary
      and the stored mappings are kept, and `sorting` holds the rank groups. */
  lemma SortKeepsGraph(s: GraphState, nodeSorting: Assoc<Value, Value>, edgeSorting: seq<Edge>)
    requires WellFormed(s) && SortsGraph(s, nodeSorting, edgeSorting)
    ensures var r := SortedGraph(s, nodeSorting, edgeSorting, false);
      && WellFormed(r)
      && r.nodes == Keys(nodeSorting) && multiset(r.nodes) == multiset(s.nodes)
      && r.nodeData == s.nodeData
      && r.edges == edgeSorting && multiset(r.edges) == multiset(s.edges)
      && r.edgeData == s.edgeData
      && r.mapping == s.mapping && r.inverseMapping == s.inverseMapping && r.draws == s.draws
      && r.sorting == Some(Groups(nodeSorting))
  {
    RebuiltWellFormed(s, nodeSorting, edgeSorting);
    DistinctPermutation(Keys(nodeSorting), s.nodes);
    DistinctPermutation(edgeSorting, s.edges);
  }

  /** After relabelling, the rank groups are stated over the new labels:
      label `i` sits in the group of the rank of node `i` of the sorted
      order, and a group holds only such labels. */
  lemma RenumberedGroups(nodeSorting: Assoc<Value, Value>)
    ensures var g := Groups(Renumbered(nodeSorting));
      && (forall i :: 0 <= i < |nodeSorting| ==> nodeSorting[i].1 in g && Int(i) in g[nodeSorting[i].1])
      && (forall k: Value, x: Value :: k in g && x in g[k] ==>
            x.Int? && 0 <= x.i < |nodeSorting| && nodeSorting[x.i].1 == k)
  {
    var ps := Renumbered(nodeSorting);
    GroupsCover(ps);
    var g := Groups(ps);
    forall i | 0 <= i < |nodeSorting| ensures nodeSorting[i].1 in g && Int(i) in g[nodeSorting[i].1] {
      assert ps[i] in ps;
    }
    RenumberedOnly(nodeSorting);
  }

  lemma RenumberedOnly(nodeSorting: Assoc<Value, Value>)
    ensures var g := Groups(Renumbered(nodeSorting));
      forall k: Value, x: Value :: k in g && x in g[k] ==>
        x.Int? && 0 <= x.i < |nodeSorting| && nodeSorting[x.i].1 == k
  {
    var ps := Renumbered(nodeSorting);
    var g := Groups(ps);
    forall k: Value, x: Value | k in g && x in g[k] ensures x.Int? && 0 <= x.i < |nodeSorting| && nodeSorting[x.i].1 == k {
      var p :| p in ps && p.1 == k && p.0 == x;
    }
  }

  /** With relabelling, node `i` of the sorted order becomes the integer `i`
      with its old dictionary, the edges are renamed in the sorted order with
      their keys and dictionaries, `mapping` takes each new label back to its
      node and `inverse_mapping` each node to its new label, and `sorting`
      holds the rank groups over the new labels. */
  lemma SortRelabels(s: GraphState, nodeSorting: Assoc<Value, Value>, edgeSorting: seq<Edge>)
    requires WellFormed(s) && SortsGraph(s, nodeSorting, edgeSorting)
    ensures var r := SortedGraph(s, nodeSorting, edgeSorting, true);
      var m := OrdinalPairs(Keys(nodeSorting));
      && WellFormed(r)
      && |nodeSorting| == |s.nodes|
      && r.nodes == Ordinals(|s.nodes|)
      && (forall i :: 0 <= i < |nodeSorting| ==> r.nodeData[Int(i)] == s.nodeData[nodeSorting[i].0])
      && r.edges == TranslateEdges(m, edgeSorting)
      && (forall i :: 0 <= i < |edgeSorting| ==> r.edgeData[r.edges[i]] == s.edgeData[edgeSorting[i]])
      && (forall i :: 0 <= i < |nodeSorting| ==> Lookup(r.mapping.value, Int(i)) == Some(nodeSorting[i].0))
      && (forall i :: 0 <= i < |nodeSorting| ==> Lookup(r.inverseMapping.value, nodeSorting[i].0) == Some(Int(i)))
      && r.sorting == Some(Groups(Renumbered(nodeSorting)))
  {
    var r0 := Rebuilt(s, nodeSorting, edgeSorting);
    RebuiltWellFormed(s, nodeSorting, edgeSorting);
    DistinctPermutation(Keys(nodeSorting), s.nodes);
    RelabelByPosition(r0);
  }

  /** `g.add_nodes_from(nodes)` for `(node, dictionary)` pairs on a graph
      without nodes: each node is appended with a copy of its dictionary. */
  method AddNodesWithData(g: MultiDiGraph, ns: seq<Value>, ds: seq<Attrs>)
    requires |ns| == |ds| && Distinct(ns)
    requires g.nodes == [] && g.nodeData == map[]
    modifies g
    ensures g.State() == old(g.State()).(nodes := ns, nodeData := ZipMap(ns, ds))
  {
    for i := 0 to |ns|
      invariant g.State() == old(g.State()).(nodes := ns[..i], nodeData := ZipMap(ns[..i], ds[..i]))
    {
      assert ns[i] !in ns[..i];
      ZipMapSnoc(ns, ds, i);
      g.AddNodeData(ns[i], ds[i]);
      assert ns[..i + 1] == ns[..i] + [ns[i]];
    }
    assert ns[..|ns|] == ns && ds[..|ds|] == ds;
  }

  /** `node_sorting` rewritten through `g.inverse_mapping` after relabelling
      by position: each node is looked up, and found, under its new label. */
  method RenameSorting(g: MultiDiGraph, nodeSorting: Assoc<Value, Value>) returns (renamed: Assoc<Value, Value>)
    requires Distinct(Keys(nodeSorting))
    requires g.inverseMapping == Some(OrdinalPairs(Keys(nodeSorting)))
    ensures renamed == Renumbered(nodeSorting)
  {
    var m := OrdinalPairs(Keys(nodeSorting));
    renamed := [];
    for i := 0 to |nodeSorting|
      invariant renamed == Renumbered(nodeSorting)[..i]
    {
      LookupDistinct(m, i);
      var newLabel := Lookup(g.inverseMapping.value, nodeSorting[i].0);
      renamed := renamed + [(newLabel.value, nodeSorting[i].1)];
      assert Renumbered(nodeSorting)[..i + 1] == Renumbered(nodeSorting)[..i] + [Renumbered(nodeSorting)[i]];
    }
    assert Renumbered(nodeSorting)[..|nodeSorting|] == Renumbered(nodeSorting);
  }

  /** `sort_graph(g, ..., relabel)`: take each node's and edge's dictionary
      in the sorted order, clear the graph, add the nodes and then the edges
      back, relabel the nodes to their positions if asked, and store the rank
      groups. */
  method SortGraph(g: MultiDiGraph, nodeSorting: Assoc<Value, Value>, edgeSorting: seq<Edge>, relabel: bool)
    requires g.Valid() && SortsGraph(g.State(), nodeSorting, edgeSorting)
    modifies g
    ensures g.State() == SortedGraph(old(g.State()), nodeSorting, edgeSorting, relabel)
    ensures g.Valid()
  {
    ghost var s := g.State();
    Rebuild(g, nodeSorting, edgeSorting);
    RebuiltWellFormed(s, nodeSorting, edgeSorting);
    var sorting := nodeSorting;
    if relabel {
      var order := Keys(nodeSorting);
      var mapping := FromPairs(OrdinalPairs(order));
      OrdinalMapping(order);
      RelabelGraph(g, Explicit(mapping));
      sorting := RenameSorting(g, nodeSorting);
    }
    g.sorting := Some(Groups(sorting));
  }

  /** The first half of `sort_graph`: the dictionaries taken in the sorted
      order, the graph cleared, then the nodes and the edges added back. */
  method Rebuild(g: MultiDiGraph, nodeSorting: Assoc<Value, Value>, edgeSorting: seq<Edge>)
    requires g.Valid() && SortsGraph(g.State(), nodeSorting, edgeSorting)
    modifies g
    ensures g.State() == Rebuilt(old(g.State()), nodeSorting, edgeSorting)
  {
    ghost var s := g.State();
    var order := Keys(nodeSorting);
    var nodeAttrs := Along(g.nodeData, order);
    var edgeAttrs := Along(g.edgeData, edgeSorting);
    g.Clear();
    AddNodesWithData(g, order, nodeAttrs);
    ZipMapAlong(order, s.nodeData);
    AddEdgesFrom(g, edgeSorting, edgeAttrs);
    ZipMapAlong(edgeSorting, s.edgeData);
  }
}

=== FILE: table.dfy ===
/** The ASCII table helper (`table`, graph_functions.py:46-65): every column
    is as wide as its longest entry, every cell is padded with spaces to that
    width, and each line is `|cell|cell|...|` followed by a newline. */
module AsciiTable {
  import opened Values

  /** A row of the iterable: a list or tuple of cells, or any other value,
      which is a row of one cell. Cells are given as the text `str()` makes
      of them. */
  datatype Row = Cells(cs: seq<string>) | Scalar(c: string)

  function CellsOf(row: Row): seq<string>
  {
    match row
    case Cells(cs) => cs
    case Scalar(c) => [c]
  }

  /** One row's pass over the widths: each of its cells raises the width of
      its column to the cell's length. */
  function Widen(w: seq<nat>, cs: seq<string>): (r: seq<nat>)
    requires |cs| <= |w|
    ensures |r| == |w|
  {
    seq(|w|, j requires 0 <= j < |w| => if j < |cs| && w[j] < |cs[j]| then |cs[j]| else w[j])
  }

  /** No row has more cells than the header has columns. */
  predicate Fits(rows: seq<Row>, header: seq<string>)
  {
    forall i :: 0 <= i < |rows| ==> |CellsOf(rows[i])| <= |header|
  }

  function HeaderWidths(header: seq<string>): (r: seq<nat>)
    ensures |r| == |header| && forall j :: 0 <= j < |header| ==> r[j] == |header[j]|
  {
    seq(|header|, j requires 0 <= j < |header| => |header[j]|)
  }

  /** `max_len` after the first loop. */
  function Widths(rows: seq<Row>, header: seq<string>): (r: seq<nat>)
    requires Fits(rows, header)
    ensures |r| == |header|
  {
    if rows == [] then HeaderWidths(header)
    else Widen(Widths(rows[..|rows| - 1], header), CellsOf(rows[|rows| - 1]))
  }

  /** Every column is at least as wide as its header and as every cell in it,
      and exactly as wide as one of them. */
  lemma {:induction false} WidthsAreMaxima(rows: seq<Row>, header: seq<string>)
    requires Fits(rows, header)
    ensures var w := Widths(rows, header);
      && (forall j :: 0 <= j < |header| ==> w[j] >= |header[j]|)
      && (forall i, j :: 0 <= i < |rows| && 0 <= j < |CellsOf(rows[i])| ==> w[j] >= |CellsOf(rows[i])[j]|)
      && (forall j :: 0 <= j < |header| ==>
            w[j] == |header[j]| ||
            exists i :: 0 <= i < |rows| && j < |CellsOf(rows[i])| && w[j] == |CellsOf(rows[i])[j]|)
  {
    if rows != [] {
      var init := rows[..|rows| - 1];
      assert Fits(init, header) by {
        forall i | 0 <= i < |init| ensures |CellsOf(init[i])| <= |header| {
          assert init[i] == rows[i];
        }
      }
      WidthsAreMaxima(init, header);
      var p := Widths(init, header);
      var w := Widths(rows, header);
      forall i, j | 0 <= i < |rows| && 0 <= j < |CellsOf(rows[i])|
        ensures w[j] >= |CellsOf(rows[i])[j]|
      {
        if i < |rows| - 1 {
          assert rows[i] == init[i];
        }
      }
      forall j | 0 <= j < |header| && w[j] != |header[j]|
        ensures exists i :: 0 <= i < |rows| && j < |CellsOf(rows[i])| && w[j] == |CellsOf(rows[i])[j]|
      {
        if w[j] == p[j] {
          var i :| 0 <= i < |init| && j < |CellsOf(init[i])| && p[j] == |CellsOf(init[i])[j]|;
          assert rows[i] == init[i];
        } else {
          assert w[j] == |CellsOf(rows[|rows| - 1])[j]|;
        }
      }
    }
  }

  /** `' ' * n`, which is empty for `n <= 0`. */
  function Spaces(n: int): (r: string)
    ensures |r| == if n > 0 then n else 0
    ensures forall k :: 0 <= k < |r| ==> r[k] == ' '
  {
    if n > 0 then seq(n, _ => ' ') else ""
  }

  /** `c + ' ' * (l - len(c))`. */
  function Pad(c: string, l: nat): string
  {
    c + Spaces(l - |c|)
  }

  /** The cells of `zip(cs, w)`, each padded and followed by `|`; `zip` stops
      at the shorter of the two. */
  function Joined(cs: seq<string>, w: seq<nat>): string
  {
    if cs == [] || w == [] then "" else Pad(cs[0], w[0]) + "|" + Joined(cs[1..], w[1..])
  }

  function Line(cs: seq<string>, w: seq<nat>): string
  {
    "|" + Joined(cs, w) + "\n"
  }

  function Min(a: nat, b: nat): nat
  {
    if a <= b then a else b
  }

  /** The width of the first `m` columns, each with its closing `|`. */
  function Span(w: seq<nat>, m: nat): nat
    requires m <= |w|
  {
    if m == 0 then 0 else Span(w, m - 1) + w[m - 1] + 1
  }

  lemma {:induction false} SpanShift(w: seq<nat>, m: nat)
    requires 0 < m <= |w|
    ensures Span(w, m) == w[0] + 1 + Span(w[1..], m - 1)
  {
    if m > 1 {
      SpanShift(w, m - 1);
    }
  }

  /** A padded cell no longer than its column is exactly as wide as the
      column: the cell's text, then spaces. */
  lemma PadFacts(c: string, l: nat)
    requires |c| <= l
    ensures |Pad(c, l)| == l && Pad(c, l)[..|c|] == c
    ensures forall k :: |c| <= k < l ==> Pad(c, l)[k] == ' '
  {
  }

  /** When every cell fits its column, a line is as long as the columns it
      covers plus the opening `|` and the newline. */
  lemma {:induction false} LineLength(cs: seq<string>, w: seq<nat>)
    requires forall j :: 0 <= j < Min(|cs|, |w|) ==> |cs[j]| <= w[j]
    ensures |Line(cs, w)| == Span(w, Min(|cs|, |w|)) + 2
  {
    JoinedLength(cs, w);
  }

  lemma {:induction false} JoinedLength(cs: seq<string>, w: seq<nat>)
    requires forall j :: 0 <= j < Min(|cs|, |w|) ==> |cs[j]| <= w[j]
    ensures |Joined(cs, w)| == Span(w, Min(|cs|, |w|))
    decreases |cs|
  {
    if cs != [] && w != [] {
      var cs', w' := cs[1..], w[1..];
      forall j | 0 <= j < Min(|cs'|, |w'|)
        ensures |cs'[j]| <= w'[j]
      {
        assert cs'[j] == cs[j + 1] && w'[j] == w[j + 1];
      }
      JoinedLength(cs', w');
      assert |Pad(cs[0], w[0])| == w[0];
      SpanShift(w, Min(|cs|, |w|));
      assert Joined(cs, w) == Pad(cs[0], w[0]) + "|" + Joined(cs', w');
    }
  }

  /** The table text, or `None` for the index error a row with more cells
      than the header raises. */
  function TableText(rows: seq<Row>, header: seq<string>): Option<string>
  {
    if Fits(rows, header) then Some(Line(header, Widths(rows, header)) + RowLines(rows, Widths(rows, header)))
    else None
  }

  function RowLines(rows: seq<Row>, w: seq<nat>): string
  {
    if rows == [] then "" else RowLines(rows[..|rows| - 1], w) + Line(CellsOf(rows[|rows| - 1]), w)
  }

  /** The header line and every row with as many cells as the header have
      the same length; a row with fewer cells is cut short after its last
      cell, because `zip` stops there. */
  lemma LineLengths(rows: seq<Row>, header: seq<string>, i: nat)
    requires Fits(rows, header) && i < |rows|
    ensures var w := Widths(rows, header);
      var cs := CellsOf(rows[i]);
      && |Line(header, w)| == Span(w, |header|) + 2
      && |Line(cs, w)| == Span(w, |cs|) + 2
      && (|cs| == |header| ==> |Line(cs, w)| == |Line(header, w)|)
  {
    var w := Widths(rows, header);
    WidthsAreMaxima(rows, header);
    LineLength(header, w);
    var cs := CellsOf(rows[i]);
    forall j | 0 <= j < Min(|cs|, |w|) ensures |cs[j]| <= w[j] {
    }
    LineLength(cs, w);
  }

  /** `max_len` after the first loop: the widths, or `None` when a row has
      more cells than the header. */
  function MaxLengths(rows: seq<Row>, header: seq<string>): Option<seq<nat>>
  {
    if Fits(rows, header) then Some(Widths(rows, header)) else None
  }

  /** The inner loop over one row's cells: raises `maxLen` in place, and
      reports the index error a cell past the last column raises. */
  method WidenRow(maxLen: array<nat>, cs: seq<string>) returns (ok: bool)
    modifies maxLen
    ensures ok == (|cs| <= maxLen.Length)
    ensures ok ==> maxLen[..] == Widen(old(maxLen[..]), cs)
  {
    ghost var before := maxLen[..];
    for j := 0 to |cs|
      invariant j <= maxLen.Length
      invariant maxLen[..] == Widen(before, cs[..j])
    {
      if j >= maxLen.Length {
        return false;
      }
      if maxLen[j] < |cs[j]| {
        maxLen[j] := |cs[j]|;
      }
      assert maxLen[..] == Widen(before, cs[..j + 1]);
    }
    assert cs[..|cs|] == cs;
    return true;
  }

  lemma FitsSnoc(a: seq<Row>, x: Row, header: seq<string>)
    requires Fits(a, header)
    ensures Fits(a + [x], header) <==> |CellsOf(x)| <= |header|
  {
    assert (a + [x])[|a|] == x;
    if |CellsOf(x)| <= |header| {
      forall k | 0 <= k < |a| + 1 ensures |CellsOf((a + [x])[k])| <= |header| {
        if k < |a| {
          assert (a + [x])[k] == a[k];
        }
      }
    }
  }

  lemma WidthsSnoc(a: seq<Row>, x: Row, header: seq<string>)
    requires Fits(a, header)
    ensures Fits(a + [x], header) <==> |CellsOf(x)| <= |header|
    ensures Fits(a + [x], header) ==>
      Widths(a + [x], header) == Widen(Widths(a, header), CellsOf(x))
  {
    FitsSnoc(a, x, header);
    assert (a + [x])[..|a|] == a;
  }

  lemma RowLinesSnoc(rows: seq<Row>, w: seq<nat>, i: nat)
    requires i < |rows|
    ensures RowLines(rows[..i + 1], w) == RowLines(rows[..i], w) + Line(CellsOf(rows[i]), w)
  {
    assert rows[..i + 1][..i] == rows[..i];
  }

  /** The first loop of `table`, over the rows, on an array the size of the
      header. */
  method ColumnWidths(rows: seq<Row>, header: seq<string>) returns (r: Option<seq<nat>>)
    ensures r == MaxLengths(rows, header)
  {
    var maxLen := new nat[|header|](j requires 0 <= j < |header| => |header[j]|);
    assert maxLen[..] == HeaderWidths(header);
    for i := 0 to |rows|
      invariant Fits(rows[..i], header)
      invariant maxLen[..] == Widths(rows[..i], header)
    {
      var ok := WidenRow(maxLen, CellsOf(rows[i]));
      WidthsSnoc(rows[..i], rows[i], header);
      assert rows[..i + 1] == rows[..i] + [rows[i]];
      if !ok {
        assert !Fits(rows, header) by {
          assert |CellsOf(rows[i])| > |header|;
        }
        return None;
      }
    }
    assert rows[..|rows|] == rows;
    return Some(maxLen[..]);
  }

  /** The second loop of `table`: one line per row appended to the output. */
  method AppendRows(output0: string, rows: seq<Row>, w: seq<nat>) returns (output: string)
    ensures output == output0 + RowLines(rows, w)
  {
    output := output0;
    for i := 0 to |rows|
      invariant output == output0 + RowLines(rows[..i], w)
    {
      var line := Line(CellsOf(rows[i]), w);
      RowLinesSnoc(rows, w, i);
      AppendAssoc(output0, RowLines(rows[..i], w), line);
      output := output + line;
    }
    assert rows[..|rows|] == rows;
  }

  lemma AppendAssoc(a: string, b: string, c: string)
    ensures (a + b) + c == a + (b + c)
  {
  }

  /** `table(iterable, header)`: the widths, then the header line and one line
      per row appended to the output. */
  method Table(rows: seq<Row>, header: seq<string>) returns (r: Option<string>)
    ensures r == TableText(rows, header)
  {
    var widths := ColumnWidths(rows, header);
    if widths.None? {
      return None;
    }
    var w := widths.value;
    var output := AppendRows(Line(header, w), rows, w);
    return Some(output);
  }
}

=== FILE: values.dfy ===
/** The Python values the graph functions pass around, reduced to what they
    inspect: integers (node labels, edge keys, lengths), strings (labels,
    attribute names), tuples and `None`. */
module Values {

  datatype Option<+T> = None | Some(value: T)

  /** A hashable Python value. Integer edge keys are `Int`; every other key
      (a string, a tuple, `None`) is a non-integer key, which relabelling
      treats differently. */
  datatype Value = Int(i: int) | Str(s: string) | Tup(items: seq<Value>) | Null

  /** An edge of a directed multigraph: the triple `(source, target, key)`. */
  datatype Edge = Edge(u: Value, v: Value, key: Value)

  /** The attribute dictionary owned by one node or one edge. */
  type Attrs = map<string, Value>

  /** The integer labels `0 .. n-1`, in order. */
  function Ordinals(n: nat): (r: seq<Value>)
    ensures |r| == n
    ensures forall i :: 0 <= i < n ==> r[i] == Int(i)
  {
    seq(n, i => Int(i))
  }

  /** No element occurs twice. */
  predicate Distinct<T(==)>(s: seq<T>)
  {
    forall i, j :: 0 <= i < j < |s| ==> s[i] != s[j]
  }

  /** The elements of a sequence, as a set. */
  function Elems<T>(s: seq<T>): set<T>
  {
    set x | x in s
  }
}

/** Python dictionaries whose insertion order is observable, as association
    lists: a dict comprehension or `dict.update` keeps the position of the
    first insertion of a key and the value of the last one. */
module Assoc {
  import opened Values

  type Assoc<K, V> = seq<(K, V)>

  function Keys<K, V>(a: Assoc<K, V>): (r: seq<K>)
    ensures |r| == |a| && forall i :: 0 <= i < |a| ==> r[i] == a[i].0
  {
    seq(|a|, i requires 0 <= i < |a| => a[i].0)
  }

  function Vals<K, V>(a: Assoc<K, V>): (r: seq<V>)
    ensures |r| == |a| && forall i :: 0 <= i < |a| ==> r[i] == a[i].1
  {
    seq(|a|, i requires 0 <= i < |a| => a[i].1)
  }

  predicate DistinctKeys<K(==,!new), V>(a: Assoc<K, V>)
  {
    forall i, j :: 0 <= i < j < |a| ==> a[i].0 != a[j].0
  }

  /** `d[k]` if present. */
  function Lookup<K(==,!new), V>(a: Assoc<K, V>, k: K): (r: Option<V>)
    ensures r.Some? <==> k in Keys(a)
  {
    if a == [] then None
    else if a[0].0 == k then Some(a[0].1)
    else
      assert Keys(a) == [a[0].0] + Keys(a[1..]);
      Lookup(a[1..], k)
  }

  lemma KeysAppend<K, V>(a: Assoc<K, V>, b: Assoc<K, V>)
    ensures Keys(a + b) == Keys(a) + Keys(b)
  {
    assert forall i :: 0 <= i < |a| + |b| ==> Keys(a + b)[i] == (Keys(a) + Keys(b))[i];
  }

  /** `d.get(k, default)`. */
  function Get<K(==,!new), V>(a: Assoc<K, V>, k: K, default: V): V
  {
    match Lookup(a, k)
    case Some(v) => v
    case None => default
  }

  /** `d[k] = v`: overwrite in place when `k` is present, append otherwise. */
  function Put<K(==,!new), V>(a: Assoc<K, V>, k: K, v: V): (r: Assoc<K, V>)
  {
    if a == [] then [(k, v)]
    else if a[0].0 == k then [(k, v)] + a[1..]
    else [a[0]] + Put(a[1..], k, v)
  }

  /** Writing a key that is present keeps the keys and their positions. */
  lemma {:induction false} PutPresent<K(!new), V>(a: Assoc<K, V>, k: K, v: V)
    requires k in Keys(a)
    ensures Keys(Put(a, k, v)) == Keys(a)
  {
    PutSameKeys(a, k, v);
    var r := Put(a, k, v);
    assert forall i :: 0 <= i < |a| ==> Keys(r)[i] == Keys(a)[i];
  }

  lemma {:induction false} PutSameKeys<K(!new), V>(a: Assoc<K, V>, k: K, v: V)
    requires k in Keys(a)
    ensures |Put(a, k, v)| == |a|
    ensures forall i :: 0 <= i < |a| ==> Put(a, k, v)[i].0 == a[i].0
  {
    if a[0].0 != k {
      assert k in Keys(a[1..]) by {
        var j :| 0 <= j < |a| && Keys(a)[j] == k;
        assert Keys(a[1..])[j - 1] == k;
      }
      PutSameKeys(a[1..], k, v);
    }
  }

  /** Writing a new key appends it. */
  lemma {:induction false} PutAbsent<K(!new), V>(a: Assoc<K, V>, k: K, v: V)
    requires k !in Keys(a)
    ensures Put(a, k, v) == a + [(k, v)]
  {
    if a != [] {
      assert Keys(a) == [a[0].0] + Keys(a[1..]);
      PutAbsent(a[1..], k, v);
      assert a == [a[0]] + a[1..];
    }
  }

  /** After `d[k] = v`, `d[k]` is `v` and every other key reads as before. */
  lemma {:induction false} PutLookup<K(!new), V>(a: Assoc<K, V>, k: K, v: V, k': K)
    ensures Lookup(Put(a, k, v), k') == if k' == k then Some(v) else Lookup(a, k')
  {
    if a != [] && a[0].0 != k {
      PutLookup(a[1..], k, v, k');
    }
  }

  /** A dictionary built from pairs in order, as `{k: v for (k, v) in ps}`. */
  function FromPairs<K(==,!new), V>(ps: seq<(K, V)>): (r: Assoc<K, V>)
  {
    if ps == [] then [] else Put(FromPairs(ps[..|ps| - 1]), ps[|ps| - 1].0, ps[|ps| - 1].1)
  }

  /** The pairs with key and value swapped. */
  function Swap<K, V>(a: Assoc<K, V>): (r: Assoc<V, K>)
    ensures |r| == |a| && forall i :: 0 <= i < |a| ==> r[i] == (a[i].1, a[i].0)
  {
    seq(|a|, i requires 0 <= i < |a| => (a[i].1, a[i].0))
  }

  /** `{v: k for k, v in d.items()}`: for a value reached from several keys,
      the last such key wins. */
  function Invert<K(==,!new), V(==,!new)>(a: Assoc<K, V>): Assoc<V, K>
  {
    FromPairs(Swap(a))
  }

  /** The value of the last pair whose key is `k`. */
  function LastValue<K(==,!new), V>(ps: seq<(K, V)>, k: K): Option<V>
  {
    if ps == [] then None
    else if ps[|ps| - 1].0 == k then Some(ps[|ps| - 1].1)
    else LastValue(ps[..|ps| - 1], k)
  }

  /** A dictionary comprehension maps each key to the value of its LAST pair. */
  lemma {:induction false} LookupFromPairs<K(!new), V>(ps: seq<(K, V)>, k: K)
    ensures Lookup(FromPairs(ps), k) == LastValue(ps, k)
  {
    if ps != [] {
      LookupFromPairs(ps[..|ps| - 1], k);
      PutLookup(FromPairs(ps[..|ps| - 1]), ps[|ps| - 1].0, ps[|ps| - 1].1, k);
    }
  }

  /** ... and its keys are the distinct keys of the pairs, in first-seen order,
      so in particular they are pairwise distinct. */
  lemma {:induction false} FromPairsDistinct<K(!new), V>(ps: seq<(K, V)>)
    ensures DistinctKeys(FromPairs(ps))
    ensures Elems(Keys(FromPairs(ps))) == Elems(Keys(ps))
  {
    if ps != [] {
      var init := ps[..|ps| - 1];
      var last := ps[|ps| - 1];
      FromPairsDistinct(init);
      var f := FromPairs(init);
      PutDistinct(f, last.0, last.1);
      assert Keys(ps) == Keys(init) + [last.0];
      var r := FromPairs(ps);
      if last.0 in Keys(f) {
        PutPresent(f, last.0, last.1);
      } else {
        PutAbsent(f, last.0, last.1);
        assert Keys(r) == Keys(f) + [last.0];
        ElemsAppend(Keys(f), last.0);
      }
      ElemsAppend(Keys(init), last.0);
    }
  }

  lemma PutDistinct<K(!new), V>(a: Assoc<K, V>, k: K, v: V)
    requires DistinctKeys(a)
    ensures DistinctKeys(Put(a, k, v))
  {
    var r := Put(a, k, v);
    if k in Keys(a) {
      PutPresent(a, k, v);
      forall i, j | 0 <= i < j < |r| ensures r[i].0 != r[j].0 {
        assert Keys(r)[i] == Keys(a)[i] && Keys(r)[j] == Keys(a)[j];
      }
    } else {
      PutAbsent(a, k, v);
      assert forall i :: 0 <= i < |a| ==> Keys(a)[i] != k;
    }
  }

  /** The last element of a sequence without repetitions is not among the
      others, which have no repetitions either. */
  lemma InitDistinct<T>(xs: seq<T>)
    requires xs != [] && Distinct(xs)
    ensures Distinct(xs[..|xs| - 1]) && xs[|xs| - 1] !in xs[..|xs| - 1]
  {
    var init := xs[..|xs| - 1];
    forall j | 0 <= j < |init| ensures init[j] != xs[|xs| - 1] {
      assert init[j] == xs[j];
    }
  }

  lemma ElemsInit<T>(xs: seq<T>)
    requires xs != []
    ensures Elems(xs) == Elems(xs[..|xs| - 1]) + {xs[|xs| - 1]}
    ensures |xs| > 1 ==> xs[|xs| - 2] in Elems(xs[..|xs| - 1])
  {
    assert xs == xs[..|xs| - 1] + [xs[|xs| - 1]];
    ElemsAppend(xs[..|xs| - 1], xs[|xs| - 1]);
  }

  lemma AppendInit<T>(pre: seq<T>, xs: seq<T>)
    requires xs != []
    ensures (pre + xs[..|xs| - 1]) + [xs[|xs| - 1]] == pre + xs
  {
    assert xs == xs[..|xs| - 1] + [xs[|xs| - 1]];
  }

  lemma TailSnoc<T>(pre: seq<T>, xs: seq<T>)
    requires |xs| >= 2
    ensures pre + xs[1..] == (pre + xs[..|xs| - 1][1..]) + [xs[|xs| - 1]]
  {
    assert xs[1..] == xs[..|xs| - 1][1..] + [xs[|xs| - 1]];
  }

  lemma ElemsAppend<T>(s: seq<T>, x: T)
    ensures Elems(s + [x]) == Elems(s) + {x}
  {
  }

  /** A value occurs once in a sequence without repetitions that holds it. */
  lemma {:induction false} DistinctCount<T>(s: seq<T>, x: T)
    requires Distinct(s)
    ensures multiset(s)[x] == if x in s then 1 else 0
  {
    if s != [] {
      var init := s[..|s| - 1];
      assert s == init + [s[|s| - 1]];
      InitDistinct(s);
      DistinctCount(init, x);
    }
  }

  /** Two sequences without repetitions that hold the same elements are
      permutations of each other. */
  lemma DistinctPermutation<T>(a: seq<T>, b: seq<T>)
    requires Distinct(a) && Distinct(b) && Elems(a) == Elems(b)
    ensures multiset(a) == multiset(b) && |a| == |b|
  {
    forall x ensures multiset(a)[x] == multiset(b)[x] {
      assert x in a <==> x in Elems(a);
      assert x in b <==> x in Elems(b);
      DistinctCount(a, x);
      DistinctCount(b, x);
    }
    assert multiset(a) == multiset(b);
    assert |multiset(a)| == |multiset(b)|;
  }

  /** When the pairs already have distinct keys, the comprehension changes
      nothing, order included. */
  lemma {:induction false} FromPairsOfDistinct<K(!new), V>(ps: seq<(K, V)>)
    requires DistinctKeys(ps)
    ensures FromPairs(ps) == ps
  {
    if ps != [] {
      var init := ps[..|ps| - 1];
      FromPairsOfDistinct(init);
      PutAbsent(init, ps[|ps| - 1].0, ps[|ps| - 1].1);
      assert ps[|ps| - 1].0 !in Keys(init);
      assert init + [ps[|ps| - 1]] == ps;
    }
  }

  /** For an injective dictionary (distinct keys and distinct values) the
      inverse is the swapped pairs, and inverting twice gives it back. */
  lemma InvertInjective<K(!new), V(!new)>(a: Assoc<K, V>)
    requires DistinctKeys(a) && Distinct(Vals(a))
    ensures Invert(a) == Swap(a)
    ensures Invert(Invert(a)) == a
  {
    var s := Swap(a);
    assert DistinctKeys(s) by {
      forall i, j | 0 <= i < j < |s| ensures s[i].0 != s[j].0 {
        assert Vals(a)[i] == s[i].0 && Vals(a)[j] == s[j].0;
      }
    }
    FromPairsOfDistinct(s);
    assert DistinctKeys(Swap(s));
    FromPairsOfDistinct(Swap(s));
    assert Swap(s) == a;
  }

  /** The looked-up value of an injective dictionary's inverse. */
  lemma LookupInvert<K(!new), V(!new)>(a: Assoc<K, V>, i: nat)
    requires DistinctKeys(a) && Distinct(Vals(a)) && i < |a|
    ensures Lookup(Invert(a), a[i].1) == Some(a[i].0)
  {
    InvertInjective(a);
    LookupDistinct(Swap(a), i);
  }

  /** In a dictionary with distinct keys, the entry at position `i` is found. */
  lemma {:induction false} LookupDistinct<K(!new), V>(a: Assoc<K, V>, i: nat)
    requires DistinctKeys(a) && i < |a|
    ensures Lookup(a, a[i].0) == Some(a[i].1)
  {
    if i > 0 {
      LookupDistinct(a[1..], i - 1);
    }
  }

  /** The values of `d` along `ks`, as `[d[k] for k in ks]`. */
  function Along<K(==), V>(d: map<K, V>, ks: seq<K>): (r: seq<V>)
    requires forall k :: k in ks ==> k in d
    ensures |r| == |ks| && forall i :: 0 <= i < |ks| ==> r[i] == d[ks[i]]
  {
    seq(|ks|, i requires 0 <= i < |ks| => d[ks[i]])
  }

  /** `dict.update(zip(ks, vs))` on an empty dictionary: a later pair
      overwrites an earlier one with the same key. */
  function ZipMap<K(==), V>(ks: seq<K>, vs: seq<V>): (r: map<K, V>)
    requires |ks| == |vs|
    ensures r.Keys == Elems(ks)
  {
    if ks == [] then map[]
    else
      var r := ZipMap(ks[..|ks| - 1], vs[..|vs| - 1])[ks[|ks| - 1] := vs[|vs| - 1]];
      assert Elems(ks) == Elems(ks[..|ks| - 1]) + {ks[|ks| - 1]} by {
        assert ks == ks[..|ks| - 1] + [ks[|ks| - 1]];
      }
      r
  }

  lemma UnionCovered<K, V>(a: map<K, V>, b: map<K, V>)
    requires a.Keys <= b.Keys
    ensures a + b == b
  {
    assert (a + b).Keys == b.Keys;
  }

  lemma UnionUpdate<K, V>(a: map<K, V>, b: map<K, V>, k: K, v: V)
    ensures (a + b)[k := v] == a + b[k := v]
  {
  }

  lemma ZipMapSnoc<K(!new), V>(ks: seq<K>, vs: seq<V>, i: nat)
    requires |ks| == |vs| && i < |ks|
    ensures ZipMap(ks[..i + 1], vs[..i + 1]) == ZipMap(ks[..i], vs[..i])[ks[i] := vs[i]]
  {
    assert ks[..i + 1][..i] == ks[..i] && vs[..i + 1][..i] == vs[..i];
  }

  /** With distinct keys every key reads its own value. */
  lemma {:induction false} ZipMapDistinct<K(!new), V>(ks: seq<K>, vs: seq<V>)
    requires |ks| == |vs| && Distinct(ks)
    ensures forall i :: 0 <= i < |ks| ==> ZipMap(ks, vs)[ks[i]] == vs[i]
  {
    if ks != [] {
      ZipMapDistinct(ks[..|ks| - 1], vs[..|vs| - 1]);
    }
  }

  /** A key reads the value of its last pair. */
  lemma {:induction false} ZipMapLast<K(!new), V>(ks: seq<K>, vs: seq<V>, i: nat)
    requires |ks| == |vs| && i < |ks|
    requires forall j :: i < j < |ks| ==> ks[j] != ks[i]
    ensures ZipMap(ks, vs)[ks[i]] == vs[i]
  {
    if i < |ks| - 1 {
      ZipMapLast(ks[..|ks| - 1], vs[..|vs| - 1], i);
    }
  }

  /** Zipping the distinct keys of a dictionary with their own values
      rebuilds the dictionary. */
  lemma ZipMapAlong<K(!new), V>(ks: seq<K>, d: map<K, V>)
    requires Distinct(ks) && Elems(ks) == d.Keys
    ensures ZipMap(ks, Along(d, ks)) == d
  {
    ZipMapDistinct(ks, Along(d, ks));
    var r := ZipMap(ks, Along(d, ks));
    forall k | k in d ensures r[k] == d[k] {
      var i :| 0 <= i < |ks| && ks[i] == k;
    }
  }

  /** Carrying the dictionary `d` from the distinct keys `ks` over to the
      distinct keys `ts`, position for position, and then back again gives
      `d` once more. */
  lemma ZipMapBack<K(!new), V>(ts: seq<K>, ks: seq<K>, d: map<K, V>)
    requires |ts| == |ks| && Distinct(ts) && Distinct(ks) && Elems(ks) == d.Keys
    ensures forall i :: 0 <= i < |ks| ==> ZipMap(ts, Along(d, ks))[ts[i]] == d[ks[i]]
    ensures ZipMap(ks, Along(ZipMap(ts, Along(d, ks)), ts)) == d
  {
    var vs := Along(d, ks);
    ZipMapDistinct(ts, vs);
    var d1 := ZipMap(ts, vs);
    assert Along(d1, ts) == vs;
    ZipMapAlong(ks, d);
  }

  /** The elements in order of first occurrence, as `add_nodes_from` keeps
      them. */
  function Dedup<T(==)>(xs: seq<T>): (r: seq<T>)
    ensures Distinct(r) && Elems(r) == Elems(xs)
  {
    if xs == [] then []
    else
      var p := Dedup(xs[..|xs| - 1]);
      var x := xs[|xs| - 1];
      assert xs == xs[..|xs| - 1] + [x];
      assert Elems(xs) == Elems(xs[..|xs| - 1]) + {x};
      if x in p then p
      else
        assert Elems(p + [x]) == Elems(p) + {x};
        p + [x]
  }

  /** A sequence without repetitions is its own de-duplication. */
  lemma {:induction false} DedupDistinct<T>(xs: seq<T>)
    requires Distinct(xs)
    ensures Dedup(xs) == xs
  {
    if xs != [] {
      DedupDistinct(xs[..|xs| - 1]);
      assert xs[|xs| - 1] !in xs[..|xs| - 1];
      assert xs[..|xs| - 1] + [xs[|xs| - 1]] == xs;
    }
  }
}
